=== FILE: README.md ===
# ImageHub core in Dafny

ImageHub lets a browser user pick an image, choose a target size, quality,
output format and an optional watermark, and get back a link to the
transformed image. Three AWS Lambdas and a React page share the work:

- the browser validates the file and asks the presigned-URL Lambda for an
  upload slot;
- that Lambda validates the request and writes the transform parameters into
  the S3 object key `uploads/{ts}_{w}x{h}_{q}_{fmt}_{wm}_{file}`;
- the browser uploads the file and polls CloudFront for the processed copy;
- the image-processor Lambda, started by the S3 upload, reads the parameters
  back out of the key, transforms the image and stores it under `processed/`;
- a save-history Lambda records finished images in DynamoDB.

The page also has register and forgot-password forms. They validate their
input before calling Cognito.

The model is functional. Every network reply, Cognito outcome, S3 or
DynamoDB outcome and clock reading is a parameter. Each module follows one
source file:

| module | file | models |
|---|---|---|
| `PresignHandler` | `presign.dfy` | `validate_request`, `generate_object_key`, `handler` of the presigned-URL Lambda |
| `ImageProcessor` | `processor.dfy` | `get_image_metadata`, save options of `process_image`, output key, content type and reply of `handler` |
| `KeyCodec` | `keycodec.dfy` | the two Lambdas together: the key written by one, read by the other |
| `SaveHistory` | `history.dfy` | the save-history Lambda |
| `Api` | `api.dfy` | `services/api.js`: `validateFile`, `getPresignedUrl`, `uploadToS3`, `getProcessedImage`, `processImage`, the history-item mapping |
| `App` | `app.dfy` | the state transitions of `App.jsx` |
| `FormHelpers` | `helpers.dfy` | `validateDimensions`, `validateQuality` |
| `AccountForms` | `forms.dfy` | the checks of `Register.jsx` and `ForgotPassword.jsx`, and the two-step reset flow |
| `Pipeline` | `pipeline.dfy` | the key the browser polls, against the key the processor writes |

Shared modules model the library behaviour the code relies on:

- `Text`: `split`, `join`, `replace`, `rsplit('.', 1)`, ASCII `lower`/`upper`, `trim`, `int()` and `str()` of integers.
- `Utf8`: UTF-8 encoding and decoding with replacement.
- `UrlQuote`: `quote_plus` and `unquote_plus`.
- `PyValues`: Python values after `json.loads`, with `dict.get`, truthiness and bool-is-int.

Behaviour of the code worth noting:

- **Presign error body.** When a failed presign reply has a body that is not JSON, the JSON parse error propagates; no generic message replaces it (`Api.PresignResult`).
- **Progress split.** The page's progress callback is passed straight to the upload, so the upload reports up to 100 before the pinned 50 (`Api.ProgressNotMonotone`).
- **Poll progress timing.** A poll attempt reports progress only after it fails (`Api.FailedAttemptsCount`).
- **Allowed upload types.** `validateFile` accepts `image/jpg` as well as `image/jpeg`, `image/png` and `image/webp` (`Api.ValidateFile`).
- **Keys without `uploads/`.** A key without `uploads/` is polled unchanged, with no `_processed` suffix (`Api.OtherKeyPolledAsIs`).
- **Polled key never written.** Take a key the presigned-URL Lambda hands out for a filename without `/`, a format without `_` or `/`, and a watermark that is absent, falsy, or a string without `_` other than `none`. For such a key the browser polls `processed/<whole key tail>`. The processor stores `processed/<filename stem>.<format>`, which is always shorter, so the poll can only end in its timeout (`Pipeline.PolledKeyIsNeverWritten`).
- **`_` in a watermark.** `quote_plus` keeps `_`, so a watermark containing `_` is cut at the first `_`. The rest of it becomes part of the output file name (`KeyCodec.UnderscoreWatermarkCut`).
- **Boolean width.** A JSON `true` width passes `validate_request`, because a Python bool is an int. The key then carries `Truex…`, and the processor falls back to all defaults (`PresignHandler.BooleanWidthAccepted`, `KeyCodec.BooleanWidthFallsBack`).
- **Missing width.** The page refuses a missing width. The presigned-URL Lambda takes it as 800 (`FormHelpers.MissingWidthOnlyPageRefuses`).
- **`uploadedKey` not cleared.** `handleProcess` keeps the previous `uploadedKey` until the new run reports its own (`App.HandleProcess`).

## Model

| member | source | states |
|---|---|---|
| PresignHandler.Collect | backend/lambdas/get_presigned_url/handler.py:41-76 | the errors are exactly the violated rules among those checked, in rule order; every rule is checked, none stops the others |
| PresignHandler.ValidateRequest | backend/lambdas/get_presigned_url/handler.py:37-76 | an error is reported iff its rule is violated (filename falsy; contentType falsy; contentType outside the four types; width, height not an int in 1..4000 with defaults 800/600; quality not an int in 1..100 with default 85; format outside jpeg/png/webp with default jpeg), each at most once, in rule order |
| PresignHandler.RankedUnique | backend/lambdas/get_presigned_url/handler.py:41-76 | two rule-ordered error lists with the same members are equal, so the collected list is fixed by which rules fail |
| PresignHandler.ValidateRequestIs | backend/lambdas/get_presigned_url/handler.py:41-76 | any rule-ordered list of exactly the violated rules is what validation returns |
| PresignHandler.MissingContentTypeTwoErrors | backend/lambdas/get_presigned_url/handler.py:47-53 | a missing contentType is reported both as required and as outside the allow-list |
| PresignHandler.BooleanWidthAccepted | backend/lambdas/get_presigned_url/handler.py:59-60 | a JSON `true` width passes the width rule, because a bool is an int in Python |
| PresignHandler.ValidTestBody | backend/tests/test_presigned_url.py:16-30 | the test's valid body yields no errors |
| PresignHandler.InvalidTestBody | backend/tests/test_presigned_url.py:35-47 | the test's invalid body yields exactly the filename, contentType, width and quality errors, in that order |
| PresignHandler.WatermarkField | backend/lambdas/get_presigned_url/handler.py:27 | the watermark field exists iff the watermark is a string or falsy: `quote_plus` of a truthy non-string raises `quote_from_bytes() expected bytes` |
| PresignHandler.GenerateObjectKey | backend/lambdas/get_presigned_url/handler.py:21-34 | a key is produced iff the filename is a string and the watermark is quotable; an unquotable watermark raises `quote_plus`'s TypeError text first, else a non-string filename raises `'<type>' object has no attribute 'replace'` |
| PresignHandler.KeyLayout | backend/lambdas/get_presigned_url/handler.py:26-32 | the key is `uploads/` then timestamp, `WxH`, quality, format, the watermark field and the filename with spaces turned to `_`, joined by `_` |
| PresignHandler.TestObjectKey | backend/tests/test_presigned_url.py:52-70 | the test's key is `uploads/<ts>_800x600_85_jpeg_ImageHub_test_photo.jpg`, so each asserted substring occurs |
| PresignHandler.TestObjectKeyNoWatermark | backend/tests/test_presigned_url.py:75-89 | with no watermark the field is `none`: `uploads/<ts>_1024x768_90_png_none_test.jpg` |
| PresignHandler.Messages | backend/lambdas/get_presigned_url/handler.py:45-74 | each error becomes its message, one for one, in order |
| PresignHandler.Respond | backend/lambdas/get_presigned_url/handler.py:90-175 | 400 iff validation reports errors; a 200 carries an upload slot whose key is the one presigned; a presign is attempted only on the way to 200 or to a 500; a key that cannot be built gives 500 with that exception's text and no presign; a failed presign gives 500 with its `str(e)` |
| PresignHandler.Handle | backend/lambdas/get_presigned_url/handler.py:79-175 | the same for the whole event; a body that is not JSON gets 400 with no presign; an absent body is read as `{}` and so fails validation; a body of None, a `json.loads` that raises anything but JSONDecodeError, and a parsed body that is not a dict each give 500 with the exception's `str(e)` (`the JSON object must be …`, the raised message, `'<type>' object has no attribute 'get'`) |
| PresignHandler.RejectedBodyNeverPresigned | backend/lambdas/get_presigned_url/handler.py:90-104 | a body with validation errors gets 400 `Validation failed` with the error messages and no presign call |
| PresignHandler.KeyFor | backend/lambdas/get_presigned_url/handler.py:107-118 | the key of a valid body is built iff its watermark is quotable and its filename is a string, and otherwise raises the watermark's or the filename's error, in that order |
| PresignHandler.UnquotableWatermarkServerError | backend/lambdas/get_presigned_url/handler.py:163-176 | a valid body with a truthy non-string watermark gets 500 carrying `quote_from_bytes() expected bytes`, and nothing is presigned |
| PresignHandler.AcceptedBodyGetsGeneratedKey | backend/lambdas/get_presigned_url/handler.py:106-149 | a valid body gets 200 with the presigned URL, the generated key and the 300-second expiry |
| PresignHandler.SameReadKeysSameRun | backend/lambdas/get_presigned_url/handler.py:85-118 | the response depends only on the seven fields the handler reads |
| PresignHandler.SameReadKeysSameResponse | backend/lambdas/get_presigned_url/handler.py:90-149 | the same for a parsed body |
| PresignHandler.SameRuleFieldsSameErrors | backend/lambdas/get_presigned_url/handler.py:37-76 | validation depends only on the six fields its rules read |
| PresignHandler.ClientKeyIgnored | backend/lambdas/get_presigned_url/handler.py:106-118 | a `key` sent by the client changes nothing in the response |
| ImageProcessor.KeyFields | backend/lambdas/image_processor/handler.py:30 | the fields of the key's last path segment contain no `_` and there is at least one |
| ImageProcessor.ParseSize | backend/lambdas/image_processor/handler.py:32 | the size parses iff the field splits on `x` into exactly two parts that both parse as ints |
| ImageProcessor.WatermarkOf | backend/lambdas/image_processor/handler.py:35 | the watermark is None iff the field is `none` |
| ImageProcessor.GetImageMetadata | backend/lambdas/image_processor/handler.py:23-53 | fewer than five fields, or an unparsable size or quality, give the defaults 800/600/85/jpeg/None; otherwise the fields give width, height, quality, the format as written and the watermark |
| ImageProcessor.UploadKeyFields | backend/lambdas/image_processor/handler.py:29-30 | a key `uploads/` + fields joined by `_` reads back as exactly those fields |
| ImageProcessor.TimestampIgnored | backend/lambdas/image_processor/handler.py:29-42 | keys differing only in the timestamp field give the same metadata |
| ImageProcessor.ParseSizeOfRendered | backend/lambdas/image_processor/handler.py:32 | a rendered `WxH` parses back to (W, H) |
| ImageProcessor.TestKeyMetadata | backend/tests/test_image_processor.py:15-28 | the test key parses to 800, 600, 85, jpeg, ImageHub |
| ImageProcessor.InvalidKeyDefaults | backend/tests/test_image_processor.py:31-42 | a name with one `_` (such as the test's `invalid_key.jpg`) gives the defaults |
| ImageProcessor.SaveOptionsFor | backend/lambdas/image_processor/handler.py:120-133 | the save format is never JPG; quality is passed iff JPEG or WEBP, and is the requested one; optimize iff JPEG or PNG |
| ImageProcessor.SaveOptionsIgnoreCase | backend/lambdas/image_processor/handler.py:120-121 | formats equal up to ASCII case give the same save options |
| ImageProcessor.PlanFor | backend/lambdas/image_processor/handler.py:100-133 | the thumbnail box is the requested size; a watermark is drawn iff one is present and non-empty; the save options follow the format |
| ImageProcessor.FlattenOnlyForJpeg | backend/lambdas/image_processor/handler.py:108-110 | an image is flattened onto white iff it is RGBA and is saved as JPEG |
| ImageProcessor.CleanFilename | backend/lambdas/image_processor/handler.py:165-166 | a name without `_` is used whole; a name with one to four `_` gives the empty string; otherwise the result is the suffix of the name after its fifth `_` |
| ImageProcessor.OutputKey | backend/lambdas/image_processor/handler.py:165-168 | the output key starts with `processed/` and ends with `.` and the format |
| ImageProcessor.OutputKeyOfFields | backend/lambdas/image_processor/handler.py:164-168 | for a last path segment made of the `_`-separated fields: with six or more fields the key is `processed/` + the fields after the fifth, rejoined, without their last extension, + `.` + format; with two to five fields it is `processed/.` + format; a single field keeps the whole segment before its last `.` |
| ImageProcessor.ContentTypeFor | backend/lambdas/image_processor/handler.py:171-177 | the content type is one of three; png iff the format is `png` ignoring case, webp iff `webp`, jpeg otherwise |
| ImageProcessor.Handle | backend/lambdas/image_processor/handler.py:141-213 | 200 iff the record is readable and no step fails; the record key is unquoted before use; on 200 the stored object's key and content type follow from the parsed metadata, and the reply carries that key and its bucket URL; any failure gives 500 with the raised exception's message as the error; the processing plan exists iff the download succeeded and is `PlanFor` of the metadata parsed from the unquoted key |
| KeyCodec.MarkReadsBack | backend/lambdas/get_presigned_url/handler.py:27 | a watermark without `_` and not `none` is encoded into one field that the processor decodes to the watermark (None when none was given) |
| KeyCodec.KeyRoundTrip | backend/lambdas/image_processor/handler.py:29-42 | for a filename without `/`, a format without `_` or `/`, and a watermark without `_` that is not `none`, the processor reads back exactly the width, height, quality, format and watermark the upload handler wrote, and writes `processed/<file stem>.<format>` |
| KeyCodec.TestKeyRoundTrip | backend/tests/test_presigned_url.py:52-70 | the test's generated key reads back as 800, 600, 85, jpeg, ImageHub |
| KeyCodec.UnderscoreWatermarkCut | backend/lambdas/image_processor/handler.py:30-35 | a watermark `a_b` reads back as `a`, and `b_` joins the output file name |
| KeyCodec.BooleanWidthFallsBack | backend/lambdas/image_processor/handler.py:31-53 | a key generated for a `true` width reads back as all defaults |
| KeyCodec.AcceptedFormatsStoredAsSent | backend/lambdas/image_processor/handler.py:171-177 | each format the upload handler accepts is stored as `image/<format>` and saved in upper case, with quality except for png |
| UrlQuote.UnquotePlusQuotePlus | backend/lambdas/image_processor/handler.py:35 | `unquote_plus(quote_plus(s)) == s` for every string |
| UrlQuote.QuotePlusUnderscore | backend/lambdas/get_presigned_url/handler.py:27 | `quote_plus` keeps `_` exactly when the input has one, and never emits `/` |
| UrlQuote.QuotePlusNone | backend/lambdas/get_presigned_url/handler.py:27 | only `none` quotes to `none` |
| UrlQuote.QuotePlusEmpty | backend/lambdas/get_presigned_url/handler.py:27 | only the empty string quotes to the empty string |
| UrlQuote.QuotePlusUnreserved | backend/lambdas/get_presigned_url/handler.py:27 | a string of unreserved ASCII characters quotes to itself |
| Utf8.DecodeEncode | backend/lambdas/image_processor/handler.py:35 | decoding the UTF-8 encoding of a string gives the string back |
| Text.SplitJoin | backend/lambdas/image_processor/handler.py:30 | splitting a `_`-join of `_`-free parts gives the parts back |
| Text.JoinSplit | backend/lambdas/image_processor/handler.py:166 | joining the pieces of a split gives the string back |
| Text.ParseIntOfIntToString | backend/lambdas/image_processor/handler.py:32-33 | `int(str(n)) == n` for every integer |
| Text.BeforeLast | backend/lambdas/image_processor/handler.py:167 | `rsplit('.', 1)[0]`: the whole string when there is no `.`, else the prefix before the last `.` |
| Text.Trim | frontend/src/components/Register.jsx:40 | the result is at most as long, starts and ends with a non-space, and is empty only when the input is all space |
| Text.TrimIsSlice | frontend/src/components/Register.jsx:40 | the trimmed string is a contiguous slice of the input with only space characters cut before and after it |
| Text.SplitCount | backend/lambdas/image_processor/handler.py:166 | `split` gives one piece more than the string has separators |
| Text.AfterNthSep | backend/lambdas/image_processor/handler.py:166 | `sep.join(s.split(sep)[n:])` is the suffix of `s` after its `n`-th separator |
| SaveHistory.ConvertToDecimal | backend/lambdas/save_image_history/handler.py:46-53 | the conversion raises iff a bool occurs; otherwise it keeps dict keys, list lengths and non-numeric leaves and leaves no int or float |
| SaveHistory.ConvertedShape | backend/lambdas/save_image_history/handler.py:46-53 | the converted value has the input's shape and no numbers |
| SaveHistory.ConvertIdempotent | backend/lambdas/save_image_history/handler.py:46-53 | converting a converted value changes nothing |
| SaveHistory.BodyOf | backend/lambdas/save_image_history/handler.py:18-21 | a string `body` is JSON-parsed, anything else means the event is the body |
| SaveHistory.GatewayBodyLikeDirect | backend/lambdas/save_image_history/handler.py:18-21 | a request wrapped in a JSON `body` string is handled like the same request sent directly |
| SaveHistory.Expiry | backend/lambdas/save_image_history/handler.py:64 | the expiry is the current second plus 90 days, truncated |
| SaveHistory.MakeItem | backend/lambdas/save_image_history/handler.py:58-65 | the item has exactly the keys userId, timestamp, originalKey, processedKey, metadata, ttl; originalKey defaults to `''`; ttl is the expiry |
| SaveHistory.Handle | backend/lambdas/save_image_history/handler.py:11-102 | 400 iff the body parses and userId or processedKey is falsy, with nothing written; 200 iff the item is written and the write succeeds, and its reply carries the stored timestamp; the stored item is the six keys with `originalKey or ''` and the 90-day ttl, built from the converted metadata; a body that fails to parse, metadata that fails to convert (a bool in it) and a failed `put_item` each give 500 `Failed to save image history: <str(e)>`, the last after the item was written |
| SaveHistory.ItemCarriesRequest | backend/lambdas/save_image_history/handler.py:58-63 | the stored item carries the request's userId, processedKey, originalKey or `''`, and metadata of the same shape |
| SaveHistory.BoolInMetadataFails | backend/lambdas/save_image_history/handler.py:86-102 | a bool in the metadata gives a 500 with no write |
| Api.ValidateFile | frontend/src/services/api.js:131-148 | valid iff a file is present, at most 10 MiB and of one of the four types; otherwise the first failing check's message, in the order absent, size, type |
| Api.TenMebibytesIsTheLimit | frontend/src/services/api.js:132-141 | exactly 10 MiB passes and one byte more fails on size |
| Api.Headers | frontend/src/services/api.js:33-40 | the JSON content type always, and `Authorization: Bearer <token>` iff a token is present |
| Api.PresignResult | frontend/src/services/api.js:49-54 | an ok reply gives the upload URL and key; an error reply throws its `message` or the fixed fallback; an unparsable one throws the parse error |
| Api.RoundHalfUp | frontend/src/services/api.js:70 | `Math.round(n/d)`: the nearest integer, halves rounded up |
| Api.RoundHalfUpMonotone | frontend/src/services/api.js:119 | rounding keeps order |
| Api.UploadReport | frontend/src/services/api.js:68-73 | a report is made iff the length is computable and a callback exists; it is within 0..100 and is `loaded*100/total` rounded |
| Api.UploadReports | frontend/src/services/api.js:68-73 | with a callback, exactly one report per length-computable event; without a callback, none; each within 0..100 |
| Api.UploadReportsInOrder | frontend/src/services/api.js:68-73 | report `i` is the rounded percentage of the `i`-th length-computable event: reports keep the order of the events |
| Api.Progresses | frontend/src/services/api.js:117-119 | every progress value in a poll trace comes from a progress event of that trace |
| Api.UploadReportMonotone | frontend/src/services/api.js:68-73 | more bytes loaded never reports less |
| Api.UploadResult | frontend/src/services/api.js:75-85 | resolves iff the load status is in 200..299; another status rejects with a message naming it; a transport error rejects with `Upload failed` |
| Api.ProcessedKey | frontend/src/services/api.js:100 | only the first `uploads/` is replaced by `processed/`; a key without it is unchanged |
| Api.UploadKeyPolledUnderProcessed | frontend/src/services/api.js:100-101 | a key `uploads/<rest>` is polled as `processed/<rest>` |
| Api.OtherKeyPolledAsIs | frontend/src/services/api.js:100-101 | a key without `uploads/` is polled at the CloudFront URL of the key itself |
| Api.PollFrom | frontend/src/services/api.js:106-123 | the poll succeeds iff some remaining probe is ok, with the CloudFront URL; otherwise it fails with the timeout message |
| Api.PollStopsAtFirstReached | frontend/src/services/api.js:106-111 | when probe k is the first ok one, the trace is k failed attempts and one last probe, with no delay or progress after it |
| Api.PollTimesOut | frontend/src/services/api.js:112-123 | with no ok probe, thrown and non-ok probes alike, the poll makes 20 failed attempts and throws the timeout |
| Api.FailedAttemptsCount | frontend/src/services/api.js:106-121 | n failed attempts probe n times and report progress `50 + round(i*50/20)` for i = 0..n-1, only with a callback |
| Api.PollProbesAtMostTwenty | frontend/src/services/api.js:103-106 | a poll never probes more than 20 times |
| Api.PollProgressRange | frontend/src/services/api.js:118-120 | poll progress values rise with the attempt and stay within 50..98 |
| Api.ProcessImage | frontend/src/services/api.js:156-209 | progress starts at 5; the presign request carries the local key `users/<userId or temp>/<now>.<ext>`, the file's name and type, and the size, quality, format and watermark options; the server's key, not the local one, is reported (exactly when there is an `onUploadKey` callback and the presign is granted) and polled; the run succeeds iff the presign is granted, the upload succeeds and some probe reaches the image, returning the processed URL of that key with 50 seen and 100 last; a refused presign ends with its message and progress `[5]` |
| Api.UploadAndPoll | frontend/src/services/api.js:197-205 | a failed upload ends with its message and the progress `[5]` plus the upload reports, and nothing is polled; after a successful upload the key is polled, 50 comes right after the upload reports, and a poll that never reaches the image ends with the timeout message |
| Api.PollPhase | frontend/src/services/api.js:198-205 | after the upload reports comes 50; the run succeeds iff a probe is ok, and then ends at 100 |
| Api.ProgressNotMonotone | frontend/src/services/api.js:181-199 | an upload that reports 100 is followed by the pinned 50: progress runs 5, 100, 50 |
| Api.MapHistoryItem | frontend/src/services/api.js:285-307 | processedUrl is `cloudfront-url` if present, else built from processedKey, else kept; originalUrl is built from originalKey only when absent; other fields are kept |
| Api.MapHistoryItemIdempotent | frontend/src/services/api.js:285-307 | mapping a mapped item changes nothing |
| Api.MappedItemHasUrl | frontend/src/services/api.js:288-300 | an item with any of the three URL sources ends up with a processedUrl |
| App.Initial | frontend/src/App.jsx:7-21 | nothing selected, not processing, progress 0, options 800, 600, 85, jpeg, no watermark, text ImageHub |
| App.Pick | frontend/src/App.jsx:23-66 | no file changes nothing; an invalid file sets only the error; a valid file is selected, and a preview then clears the processed image, error and uploaded key, while a failed preview sets the error |
| App.OptionsOf | frontend/src/App.jsx:85-93 | the watermark sent is the text when the watermark is on, else `""` |
| App.HandleProcess | frontend/src/App.jsx:75-109 | no selection changes nothing; a run starts busy with progress 0 and no error and ends not busy with options kept; success shows the URL at 100; failure shows the message or the fallback with progress 0; the uploaded key is the one reported, or the old one |
| App.Reset | frontend/src/App.jsx:120-127 | selection, preview, processed image, progress, error and uploaded key are cleared; options and the busy flag are kept |
| App.ResetIsInitialWithOptions | frontend/src/App.jsx:120-127 | a reset while idle lands on the first state with the user's options |
| App.ResetForgetsPick | frontend/src/App.jsx:120-127 | a reset after a pick is the same as a reset before it |
| FormHelpers.ValidateDimensions | frontend/src/utils/helpers.js:79-96 | a missing or zero size first, then width out of 1..4000, then height; valid iff both are in range |
| FormHelpers.ValidateQuality | frontend/src/utils/helpers.js:103-109 | valid iff quality is in 1..100 |
| FormHelpers.PageAndHandlerAgree | frontend/src/utils/helpers.js:79-109 | for integers sent, the page accepts the size and quality iff the presigned-URL Lambda reports no width, height or quality error |
| FormHelpers.MissingWidthOnlyPageRefuses | frontend/src/utils/helpers.js:83-85 | a missing width is refused by the page but accepted by the Lambda |
| AccountForms.MatchesEmail | frontend/src/components/Register.jsx:24-26 | the unanchored test of `\S+@\S+\.\S+` succeeds iff some non-space run, `@`, non-space run, `.`, non-space run occurs |
| AccountForms.MixedClassesOnOneLine | frontend/src/components/Register.jsx:32 | for a one-line password the lookahead test holds iff it has an ASCII lower, an ASCII upper and a digit |
| AccountForms.Utf16Length | frontend/src/components/Register.jsx:28 | `.length` counts one or two code units per character |
| AccountForms.PasswordPolicy | frontend/src/components/Register.jsx:28-34 | passes iff at least 8 code units and the class test holds; short is reported before weak |
| AccountForms.RegisterCheck | frontend/src/components/Register.jsx:20-42 | fill-all, then email, then password length (under 8 code units), then character classes, then confirmation, then trimmed name shorter than 2: each message is given exactly when the earlier checks pass and its own fails; passes iff every check does |
| AccountForms.BlankNameReachesLastCheck | frontend/src/components/Register.jsx:40-42 | a whitespace-only name passes every earlier check and fails the name check |
| AccountForms.Register | frontend/src/components/Register.jsx:13-60 | register is called iff every check passes; success iff it resolves; otherwise the check's message or the rejection message or the fallback |
| AccountForms.RequestCheck | frontend/src/components/ForgotPassword.jsx:20-26 | an empty email first, then the registration email test |
| AccountForms.RequestReset | frontend/src/components/ForgotPassword.jsx:14-38 | the step becomes 2 iff the checks pass and the request resolves; otherwise the step is kept and the error set; nothing else changes |
| AccountForms.ConfirmCheck | frontend/src/components/ForgotPassword.jsx:46-60 | fill-all first, then password length, then character classes, then confirmation, each message exactly when the earlier checks pass; passes iff all three fields are filled, the password policy holds and the confirmation matches |
| AccountForms.ConfirmReset | frontend/src/components/ForgotPassword.jsx:40-76 | success iff the checks pass and the confirmation resolves; otherwise the error; nothing else changes |
| AccountForms.Back | frontend/src/components/ForgotPassword.jsx:199-201 | the back button returns to step 1 and changes nothing else |
| AccountForms.ApplyStep | frontend/src/components/ForgotPassword.jsx:32 | only a resolved, valid request moves to step 2, and only back moves to step 1 |
| AccountForms.StepTwoNeedsResolvedRequest | frontend/src/components/ForgotPassword.jsx:20-33 | from step 1, any sequence of actions stays in steps 1 and 2, and reaches step 2 only through a request whose email passed its checks and that resolved, with no back after it |
| AccountForms.PasswordRulesCoincide | frontend/src/components/ForgotPassword.jsx:50-59 | with the other registration fields valid, registration and reset accept the same password and confirmation, with the same message |
| Pipeline.PolledKeyIsNeverWritten | frontend/src/services/api.js:100 | for every generated key under the round-trip conditions, the key the browser polls is longer than the key the processor writes, so they never match |

## Left out

- Network and cloud calls are not modelled. `fetch`, `XMLHttpRequest`, the S3 presign and object calls, DynamoDB and Cognito appear only as their outcomes: replies, probes, failures and resolved or rejected promises.
- Image work is not modelled: `thumbnail`, `add_watermark` layout and compositing, and encoding. It is library behaviour on pixels and floating-point geometry, so `ImageProcessor.Handle` takes "which step raised" as a parameter.
- Timers and delays are not modelled. Each 1000 ms wait of the poll is one `Wait` event. The register and reset redirects after 2 s are left out.
- Clocks are parameters: `Date.now()`, `time.time()` and `datetime.utcnow()`. The two `utcnow` readings of the save-history Lambda become one ISO string and one seconds value.
- `getAuthToken` and `getCurrentUser` appear only as their results: an optional token and an optional user id.
- `auth.js`, the `get_image_history` Lambda, `ImageHistory.jsx`, `Login.jsx`, JSX rendering and CSS are outside the modelled core.
- `getImageHistory` is modelled only as its item mapping. Its request and error handling are network plumbing.
- `safeParseInt` is not modelled. `App.jsx` imports it, but `utils/helpers.js` does not define it.
- `formatFileSize` and `DecimalEncoder` are not modelled, because they are floating-point formatting.
- SaveHistory.ConvertToDecimal: states the shape of the result and where it raises, not the numeric values `Decimal(str(x))` produces.
- PresignHandler.GenerateObjectKey: requires every value rendered into the key to be None, a bool, an int or a string, because Python's `str` of floats, lists and dicts is not modelled. `handler` only calls it after validation, which guarantees this for width, height and quality. A float or container format would already have failed the format rule.
- Api.RoundHalfUp: is exact rational rounding of `n/d`, where JavaScript rounds the double-precision quotient; binary rounding of that quotient is not modelled.
- Api.UploadReport: requires `total > 0` when the length is computable. The `0/0` case would give `NaN` in JavaScript.
- Text.ParseInt: accepts Python's whitespace, an optional sign and ASCII digits. It does not model the `_` digit grouping or non-ASCII digits that `int()` also accepts. The first cannot reach it, since the fields come from `split('_')`.
- Text.AsciiLower: changes case for ASCII letters only, where Python's `lower`/`upper` are Unicode-wide. The formats compared are ASCII.
- AccountForms.MatchesEmail: follows the regular expressions' ECMAScript white-space and line-terminator sets, but JavaScript strings are UTF-16. A character outside the Basic Multilingual Plane counts as one character here and as two code units there, except in `Utf16Length`.
- App.Pick: takes the preview reader's outcome as a parameter. The asynchronous interleaving of the `await` with other handlers is not modelled.
- App.HandleProcess: gives the state before the run and the state after it. It does not give the progress values in between, which `Api.ProcessImage` returns.
- Environment settings are fixed at their unconfigured defaults: `PROCESSED_BUCKET` (`imagehub-processed-images`), `DEFAULT_WIDTH`/`DEFAULT_HEIGHT`/`DEFAULT_QUALITY` (800/600/85) of the image processor, `SOURCE_BUCKET`, `URL_EXPIRATION` (300) and `MAX_FILE_SIZE` of the presigned-URL Lambda, `DYNAMODB_TABLE_NAME` of the save-history Lambda, and the `VITE_…` endpoint URLs of the page, including `VITE_CLOUDFRONT_URL`. Values set through the environment are not modelled.
- PresignHandler.WatermarkField: a Dafny string holds Unicode scalar values only, so a JSON watermark with a lone surrogate (`"\ud800"`) cannot be expressed. On it `quote_plus` raises UnicodeEncodeError and the handler answers 500, where every expressible string watermark is quoted.
- PresignHandler.Handle: the text of an exception `json.loads` raises other than JSONDecodeError, and of a failed `generate_presigned_url`, is a parameter, since it comes from the library.
- S3's URL encoding of the key in the upload event is not modelled. `ImageProcessor.Handle` applies `unquote_plus` to the record key as the code does, and `KeyCodec.KeyRoundTrip` speaks of the decoded key.

=== FILE: api.dfy ===
/** The browser's upload pipeline (`services/api.js`): file validation, the
    presign request, the upload with its progress reports, the bounded poll
    for the processed image, the `processImage` sequence tying them
    together, and the mapping of history items. Every network reply, the
    signed-in user and the clock are inputs. */
module Api {
  import opened Text

  const CloudFrontUrl := "https://d14vg5o4yx9zqx.cloudfront.net"
  const MaxFileSize := 10 * 1024 * 1024
  const AllowedTypes: seq<string> := ["image/jpeg", "image/jpg", "image/png", "image/webp"]
  const MaxRetries := 20
  const RetryDelay := 1000

  const NoFileMessage := "Vui lòng chọn file"
  const FileTooLargeMessage := "Kích thước file không được vượt quá 10MB"
  const WrongTypeMessage := "Chỉ hỗ trợ định dạng: JPEG, PNG, WebP"
  const TimeoutMessage := "Timeout: Không thể lấy ảnh đã xử lý. Vui lòng thử lại sau."
  const PresignFallbackMessage := "Không thể tạo URL upload"

  /** A settled promise: the value, or the message of the Error thrown. */
  datatype Result<+T> = Ok(value: T) | Err(message: string)

  /** JavaScript truthiness of an optional string. */
  predicate Present(s: Option<string>)
  {
    s.Some? && s.value != ""
  }

  // ---------------------------------------------------------------------
  // validateFile
  // ---------------------------------------------------------------------

  datatype File = File(name: string, size: int, mimeType: string)

  datatype Validation = Validation(valid: bool, error: Option<string>)

  /** `validateFile(file)`: no file, then too large, then wrong type. */
  function ValidateFile(file: Option<File>): (v: Validation)
    ensures v.valid <==> v.error.None?
    ensures v.valid <==> file.Some? && file.value.size <= MaxFileSize && file.value.mimeType in AllowedTypes
    ensures file.None? ==> v.error == Some(NoFileMessage)
    ensures file.Some? && file.value.size > MaxFileSize ==> v.error == Some(FileTooLargeMessage)
    ensures file.Some? && file.value.size <= MaxFileSize && file.value.mimeType !in AllowedTypes ==>
              v.error == Some(WrongTypeMessage)
  {
    if file.None? then Validation(false, Some(NoFileMessage))
    else if file.value.size > MaxFileSize then Validation(false, Some(FileTooLargeMessage))
    else if file.value.mimeType !in AllowedTypes then Validation(false, Some(WrongTypeMessage))
    else Validation(true, None)
  }

  /** Exactly 10 MiB is still accepted; one byte more is not. */
  lemma TenMebibytesIsTheLimit(name: string, mimeType: string)
    requires mimeType in AllowedTypes
    ensures ValidateFile(Some(File(name, 10485760, mimeType))).valid
    ensures ValidateFile(Some(File(name, 10485761, mimeType))).error == Some(FileTooLargeMessage)
  {
  }

  // ---------------------------------------------------------------------
  // getPresignedUrl
  // ---------------------------------------------------------------------

  /** The request headers: the JSON content type, and the bearer token when
      the session has one. */
  function Headers(token: Option<string>): (h: seq<(string, string)>)
    ensures 1 <= |h| <= 2
    ensures h[0] == ("Content-Type", "application/json")
    ensures |h| == 2 <==> Present(token)
    ensures |h| == 1 <==> !Present(token)
    ensures Present(token) ==> h[1] == ("Authorization", "Bearer " + token.value)
  {
    [("Content-Type", "application/json")] + (if Present(token) then [("Authorization", "Bearer " + token.value)] else [])
  }

  /** The error body of a rejected presign call: not JSON (the parse error
      propagates), or JSON with or without a `message`. */
  datatype ErrorBody = NotJson(parseError: string) | JsonBody(message: Option<string>)

  datatype PresignResponse = Granted(uploadUrl: string, key: string) | Refused(body: ErrorBody)

  /** What `getPresignedUrl` resolves to or throws. */
  function PresignResult(response: PresignResponse): (r: Result<(string, string)>)
    ensures r.Ok? <==> response.Granted?
    ensures r.Ok? ==> r.value == (response.uploadUrl, response.key)
    ensures response.Refused? && response.body.JsonBody? ==>
              r.message == (if Present(response.body.message) then response.body.message.value else PresignFallbackMessage)
    ensures response.Refused? && response.body.NotJson? ==> r.message == response.body.parseError
  {
    match response
    case Granted(url, key) => Ok((url, key))
    case Refused(NotJson(e)) => Err(e)
    case Refused(JsonBody(m)) => Err(if Present(m) then m.value else PresignFallbackMessage)
  }

  // ---------------------------------------------------------------------
  // uploadToS3
  // ---------------------------------------------------------------------

  /** `Math.round(n / d)` on exact rationals: the nearest integer, halves up. */
  function RoundHalfUp(n: int, d: int): (r: int)
    requires d > 0
    ensures 2 * r * d - d <= 2 * n < 2 * r * d + d
  {
    (2 * n + d) / (2 * d)
  }

  /** The sign facts behind rounding: with a positive factor `d`, the sign
      of `x * d` is the sign of `x`. */
  lemma SignOfProduct(x: int, d: int)
    requires d > 0
    ensures x * d <= 0 ==> x <= 0
    ensures x * d >= 0 ==> x >= 0
    ensures x * d < d ==> x < 1
  {
  }

  lemma RoundHalfUpMonotone(m: int, n: int, d: int)
    requires d > 0 && m <= n
    ensures RoundHalfUp(m, d) <= RoundHalfUp(n, d)
  {
    var a, b := RoundHalfUp(m, d), RoundHalfUp(n, d);
    SignOfProduct(a - b, 2 * d);
  }

  /** A ratio in [0, k] rounds into [0, k]. */
  lemma RoundHalfUpBounds(n: int, d: int, k: int)
    requires d > 0 && 0 <= n <= k * d
    ensures 0 <= RoundHalfUp(n, d) <= k
  {
    var r := RoundHalfUp(n, d);
    SignOfProduct(2 * r + 1, d);
    SignOfProduct(2 * r - 2 * k - 1, d);
  }

  /** An upload progress event. The XMLHttpRequest standard sets
      `lengthComputable` only when the total is known and non-zero. */
  datatype ProgressEvent = ProgressEvent(lengthComputable: bool, loaded: int, total: int)

  predicate WellFormed(e: ProgressEvent)
  {
    e.lengthComputable ==> 0 < e.total && 0 <= e.loaded <= e.total
  }

  /** `Math.round((loaded / total) * 100)` for an event whose length is
      computable. */
  function Percent(e: ProgressEvent): (p: int)
    requires WellFormed(e) && e.lengthComputable
    ensures 0 <= p <= 100
  {
    RoundHalfUpBounds(e.loaded * 100, e.total, 100);
    RoundHalfUp(e.loaded * 100, e.total)
  }

  /** The value reported to `onProgress` for one event, if any. */
  function UploadReport(e: ProgressEvent, hasCallback: bool): (r: Option<int>)
    requires WellFormed(e)
    ensures r.Some? <==> e.lengthComputable && hasCallback
    ensures r.Some? ==> 0 <= r.value <= 100 && r.value == Percent(e)
    ensures r.Some? ==> 2 * r.value * e.total - e.total <= 200 * e.loaded < 2 * r.value * e.total + e.total
  {
    if e.lengthComputable && hasCallback then Some(Percent(e)) else None
  }

  /** The events whose length is computable, in order. */
  function Computable(events: seq<ProgressEvent>): (c: seq<ProgressEvent>)
    requires forall i :: 0 <= i < |events| ==> WellFormed(events[i])
    ensures |c| <= |events|
    ensures forall i :: 0 <= i < |c| ==> WellFormed(c[i]) && c[i].lengthComputable
  {
    if |events| == 0 then []
    else (if events[0].lengthComputable then [events[0]] else []) + Computable(events[1..])
  }

  /** The values reported over a run of progress events: with a callback,
      one per computable event; without one, none. */
  function UploadReports(events: seq<ProgressEvent>, hasCallback: bool): (r: seq<int>)
    requires forall i :: 0 <= i < |events| ==> WellFormed(events[i])
    ensures forall i :: 0 <= i < |r| ==> 0 <= r[i] <= 100
    ensures !hasCallback ==> r == []
    ensures hasCallback ==> |r| == |Computable(events)|
  {
    if |events| == 0 then []
    else
      var rest := UploadReports(events[1..], hasCallback);
      if hasCallback && events[0].lengthComputable then [Percent(events[0])] + rest
      else rest
  }

  /** With a callback, the reports are the percentages of the computable
      events, in order. */
  lemma {:induction false} UploadReportsInOrder(events: seq<ProgressEvent>)
    requires forall i :: 0 <= i < |events| ==> WellFormed(events[i])
    ensures forall i :: 0 <= i < |UploadReports(events, true)| ==>
              UploadReports(events, true)[i] == UploadReport(Computable(events)[i], true).value
  {
    if |events| > 0 {
      UploadReportsInOrder(events[1..]);
      var rest := UploadReports(events[1..], true);
      var c := Computable(events[1..]);
      if events[0].lengthComputable {
        var r := UploadReports(events, true);
        assert r == [Percent(events[0])] + rest;
        assert Computable(events) == [events[0]] + c;
        forall i | 0 <= i < |r| ensures r[i] == UploadReport(Computable(events)[i], true).value {
          if i > 0 {
            assert r[i] == rest[i - 1] && Computable(events)[i] == c[i - 1];
          }
        }
      } else {
        assert Computable(events) == c;
      }
    }
  }

  /** More bytes sent never reports less. */
  lemma UploadReportMonotone(a: ProgressEvent, b: ProgressEvent)
    requires WellFormed(a) && WellFormed(b) && a.lengthComputable && b.lengthComputable
    requires a.total == b.total && a.loaded <= b.loaded
    ensures UploadReport(a, true).value <= UploadReport(b, true).value
  {
    RoundHalfUpMonotone(a.loaded * 100, b.loaded * 100, a.total);
  }

  datatype UploadOutcome = Loaded(status: int) | NetworkError

  /** How the upload promise settles. */
  function UploadResult(outcome: UploadOutcome): (r: Result<()>)
    ensures r.Ok? <==> outcome.Loaded? && 200 <= outcome.status < 300
    ensures outcome.NetworkError? ==> r == Err("Upload failed")
    ensures outcome.Loaded? && r.Err? ==> r.message == "Upload failed with status " + IntToString(outcome.status)
  {
    match outcome
    case NetworkError => Err("Upload failed")
    case Loaded(status) =>
      if 200 <= status < 300 then Ok(()) else Err("Upload failed with status " + IntToString(status))
  }

  // ---------------------------------------------------------------------
  // getProcessedImage
  // ---------------------------------------------------------------------

  /** `s3Key.replace('uploads/', 'processed/')`: the first occurrence only. */
  function ProcessedKey(s3Key: string): (k: string)
    ensures IndexOf(s3Key, "uploads/").None? ==> k == s3Key
    ensures IndexOf(s3Key, "uploads/").Some? ==>
              var i := IndexOf(s3Key, "uploads/").value;
              k == s3Key[..i] + "processed/" + s3Key[i + 8..]
  {
    ReplaceFirst(s3Key, "uploads/", "processed/")
  }

  function ProcessedUrl(s3Key: string): string
  {
    CloudFrontUrl + "/" + ProcessedKey(s3Key)
  }

  /** A key under `uploads/` is looked for under `processed/`. */
  lemma UploadKeyPolledUnderProcessed(rest: string)
    ensures ProcessedKey("uploads/" + rest) == "processed/" + rest
  {
    var s := "uploads/" + rest;
    assert OccursAt(s, "uploads/", 0) by {
      assert s[0..8] == "uploads/";
    }
    assert IndexOf(s, "uploads/") == Some(0);
    assert s[8..] == rest;
  }

  /** A key without `uploads/` is looked for as it is. */
  lemma OtherKeyPolledAsIs(s3Key: string)
    requires forall j :: 0 <= j <= |s3Key| ==> !OccursAt(s3Key, "uploads/", j)
    ensures ProcessedUrl(s3Key) == CloudFrontUrl + "/" + s3Key
  {
  }

  /** A probe: `response.ok`, a reply that is not ok, or a thrown fetch. */
  datatype Probe = Reached | NotReady | Threw

  datatype PollEvent = Head(url: string) | Wait(ms: int) | Progress(percent: int)

  /** The progress reported after failed attempt `i`. */
  function PollProgress(i: int): int
  {
    50 + RoundHalfUp(i * 50, MaxRetries)
  }

  /** One failed attempt: the probe, the delay, the progress report. */
  function FailedAttempt(url: string, i: int, hasCallback: bool): seq<PollEvent>
  {
    [Head(url), Wait(RetryDelay)] + (if hasCallback then [Progress(PollProgress(i))] else [])
  }

  /** The events of the first `n` attempts, all failed. */
  function FailedAttempts(url: string, n: nat, hasCallback: bool): seq<PollEvent>
  {
    if n == 0 then [] else FailedAttempts(url, n - 1, hasCallback) + FailedAttempt(url, n - 1, hasCallback)
  }

  /** The poll from attempt `i` on, given the outcome of every probe. */
  function PollFrom(url: string, probes: seq<Probe>, hasCallback: bool, i: nat): (r: (Result<string>, seq<PollEvent>))
    requires i <= |probes| == MaxRetries
    ensures r.0.Ok? <==> Reached in probes[i..]
    ensures r.0.Ok? ==> r.0.value == url
    ensures r.0.Err? ==> r.0.message == TimeoutMessage
    decreases MaxRetries - i
  {
    if i == MaxRetries then (Err(TimeoutMessage), [])
    else if probes[i] == Reached then (Ok(url), [Head(url)])
    else
      var (r, rest) := PollFrom(url, probes, hasCallback, i + 1);
      (r, FailedAttempt(url, i, hasCallback) + rest)
  }

  /** `getProcessedImage(s3Key, onProgress)`; `probes[i]` is what the i-th
      HEAD request would give. */
  function GetProcessedImage(s3Key: string, probes: seq<Probe>, hasCallback: bool): (Result<string>, seq<PollEvent>)
    requires |probes| == MaxRetries
  {
    PollFrom(ProcessedUrl(s3Key), probes, hasCallback, 0)
  }

  lemma {:induction false} PollFromFailures(url: string, probes: seq<Probe>, hasCallback: bool, i: nat, k: nat)
    requires i <= k <= |probes| == MaxRetries
    requires forall j :: i <= j < k ==> probes[j] != Reached
    ensures PollFrom(url, probes, hasCallback, i).0 == PollFrom(url, probes, hasCallback, k).0
    ensures FailedAttempts(url, i, hasCallback) + PollFrom(url, probes, hasCallback, i).1
            == FailedAttempts(url, k, hasCallback) + PollFrom(url, probes, hasCallback, k).1
    decreases k - i
  {
    if i < k {
      PollFromFailures(url, probes, hasCallback, i + 1, k);
      var a := FailedAttempts(url, i, hasCallback);
      var b := FailedAttempt(url, i, hasCallback);
      var c := PollFrom(url, probes, hasCallback, i + 1).1;
      assert a + (b + c) == (a + b) + c;
    }
  }

  /** The first probe that reaches the image ends the poll: the URL is
      returned, and nothing follows that probe. */
  lemma PollStopsAtFirstReached(s3Key: string, probes: seq<Probe>, hasCallback: bool, k: nat)
    requires |probes| == MaxRetries && k < MaxRetries
    requires probes[k] == Reached && forall j :: 0 <= j < k ==> probes[j] != Reached
    ensures GetProcessedImage(s3Key, probes, hasCallback)
            == (Ok(ProcessedUrl(s3Key)), FailedAttempts(ProcessedUrl(s3Key), k, hasCallback) + [Head(ProcessedUrl(s3Key))])
  {
    var url := ProcessedUrl(s3Key);
    PollFromFailures(url, probes, hasCallback, 0, k);
    assert PollFrom(url, probes, hasCallback, k).1 == [Head(url)];
    assert FailedAttempts(url, 0, hasCallback) + PollFrom(url, probes, hasCallback, 0).1
           == PollFrom(url, probes, hasCallback, 0).1;
  }

  /** Twenty failed probes, thrown or not, end in the timeout error. */
  lemma PollTimesOut(s3Key: string, probes: seq<Probe>, hasCallback: bool)
    requires |probes| == MaxRetries && Reached !in probes
    ensures GetProcessedImage(s3Key, probes, hasCallback)
            == (Err(TimeoutMessage), FailedAttempts(ProcessedUrl(s3Key), MaxRetries, hasCallback))
  {
    var url := ProcessedUrl(s3Key);
    PollFromFailures(url, probes, hasCallback, 0, MaxRetries);
    assert PollFrom(url, probes, hasCallback, MaxRetries).1 == [];
    assert FailedAttempts(url, 0, hasCallback) + PollFrom(url, probes, hasCallback, 0).1
           == PollFrom(url, probes, hasCallback, 0).1;
    assert FailedAttempts(url, MaxRetries, hasCallback) + [] == FailedAttempts(url, MaxRetries, hasCallback);
  }

  function Heads(trace: seq<PollEvent>): nat
  {
    if |trace| == 0 then 0 else (if trace[0].Head? then 1 else 0) + Heads(trace[1..])
  }

  function Progresses(trace: seq<PollEvent>): (r: seq<int>)
    ensures forall i :: 0 <= i < |r| ==> Progress(r[i]) in trace
  {
    if |trace| == 0 then [] else (if trace[0].Progress? then [trace[0].percent] else []) + Progresses(trace[1..])
  }

  lemma {:induction false} HeadsAppend(a: seq<PollEvent>, b: seq<PollEvent>)
    ensures Heads(a + b) == Heads(a) + Heads(b)
    ensures Progresses(a + b) == Progresses(a) + Progresses(b)
    decreases |a|
  {
    if |a| > 0 {
      assert (a + b)[1..] == a[1..] + b;
      HeadsAppend(a[1..], b);
    } else {
      assert a + b == b;
    }
  }

  /** One failed attempt makes one probe and reports its progress. */
  lemma OneAttempt(url: string, i: int, hasCallback: bool)
    ensures Heads(FailedAttempt(url, i, hasCallback)) == 1
    ensures Progresses(FailedAttempt(url, i, hasCallback)) == (if hasCallback then [PollProgress(i)] else [])
  {
    var one := FailedAttempt(url, i, hasCallback);
    var tail := if hasCallback then [Progress(PollProgress(i))] else [];
    assert one[1..] == [Wait(RetryDelay)] + tail;
    assert one[1..][1..] == tail;
    if hasCallback {
      assert tail[1..] == [];
    }
    assert Heads(tail) == 0 && Progresses(tail) == (if hasCallback then [PollProgress(i)] else []);
    assert Heads(one[1..]) == Heads(tail) && Progresses(one[1..]) == Progresses(tail);
  }

  /** `n` failed attempts make `n` probes and report `PollProgress(0)`, ...,
      `PollProgress(n - 1)`. */
  lemma {:induction false} FailedAttemptsCount(url: string, n: nat, hasCallback: bool)
    ensures Heads(FailedAttempts(url, n, hasCallback)) == n
    ensures |Progresses(FailedAttempts(url, n, hasCallback))| == (if hasCallback then n else 0)
    ensures forall i :: 0 <= i < |Progresses(FailedAttempts(url, n, hasCallback))| ==>
              Progresses(FailedAttempts(url, n, hasCallback))[i] == PollProgress(i)
  {
    if n > 0 {
      var before := FailedAttempts(url, n - 1, hasCallback);
      var last := FailedAttempt(url, n - 1, hasCallback);
      FailedAttemptsCount(url, n - 1, hasCallback);
      HeadsAppend(before, last);
      OneAttempt(url, n - 1, hasCallback);
      assert FailedAttempts(url, n, hasCallback) == before + last;
      ExtendProgress(Progresses(before), Progresses(last), n, hasCallback);
    }
  }

  /** Appending the report of attempt `n - 1` to those of the attempts
      before it keeps report `i` equal to `PollProgress(i)`. */
  lemma ExtendProgress(front: seq<int>, last: seq<int>, n: nat, hasCallback: bool)
    requires n > 0 && |front| == (if hasCallback then n - 1 else 0)
    requires forall i :: 0 <= i < |front| ==> front[i] == PollProgress(i)
    requires last == (if hasCallback then [PollProgress(n - 1)] else [])
    ensures |front + last| == (if hasCallback then n else 0)
    ensures forall i :: 0 <= i < |front + last| ==> (front + last)[i] == PollProgress(i)
  {
  }

  /** At most twenty probes are made. */
  lemma PollProbesAtMostTwenty(s3Key: string, probes: seq<Probe>, hasCallback: bool)
    requires |probes| == MaxRetries
    ensures Heads(GetProcessedImage(s3Key, probes, hasCallback).1) <= MaxRetries
  {
    var url := ProcessedUrl(s3Key);
    if Reached in probes {
      FirstReached(probes);
      var k :| FirstReachedAt(probes, k);
      PollStopsAtFirstReached(s3Key, probes, hasCallback, k);
      FailedAttemptsCount(url, k, hasCallback);
      HeadsAppend(FailedAttempts(url, k, hasCallback), [Head(url)]);
    } else {
      PollTimesOut(s3Key, probes, hasCallback);
      FailedAttemptsCount(url, MaxRetries, hasCallback);
    }
  }

  /** `k` is the first probe that reaches the image. */
  ghost predicate FirstReachedAt(probes: seq<Probe>, k: int)
  {
    0 <= k < |probes| && probes[k] == Reached && forall j :: 0 <= j < k ==> probes[j] != Reached
  }

  lemma {:induction false} FirstReached(probes: seq<Probe>)
    requires Reached in probes
    ensures exists k :: FirstReachedAt(probes, k)
  {
    if probes[0] == Reached {
      assert FirstReachedAt(probes, 0);
    } else {
      FirstReached(probes[1..]);
      var k :| FirstReachedAt(probes[1..], k);
      FirstReachedShift(probes, k);
    }
  }

  lemma FirstReachedShift(probes: seq<Probe>, k: int)
    requires |probes| > 0 && probes[0] != Reached && FirstReachedAt(probes[1..], k)
    ensures FirstReachedAt(probes, k + 1)
  {
    forall j | 0 <= j < k + 1 ensures probes[j] != Reached {
      if j > 0 {
        assert probes[j] == probes[1..][j - 1];
      }
    }
  }

  /** The poll's progress reports lie in [50, 98] and never go down. */
  lemma PollProgressRange(i: int, j: int)
    requires 0 <= i <= j < MaxRetries
    ensures 50 <= PollProgress(i) <= PollProgress(j) <= 98
  {
    RoundHalfUpBounds(i * 50, MaxRetries, 50);
    RoundHalfUpMonotone(i * 50, j * 50, MaxRetries);
    RoundHalfUpMonotone(j * 50, 19 * 50, MaxRetries);
  }

  // ---------------------------------------------------------------------
  // processImage
  // ---------------------------------------------------------------------

  /** The transform options the page sends. */
  datatype Options = Options(width: int, height: int, quality: int, format: string, watermark: string)

  /** The JSON body of the presign request. */
  datatype PresignBody = PresignBody(key: string, filename: string, contentType: string, width: int, height: int,
                                     quality: int, format: string, watermark: string)

  /** What the services answer during one run. */
  datatype Replies = Replies(userId: Option<string>, now: int, presign: PresignResponse,
                             uploadEvents: seq<ProgressEvent>, upload: UploadOutcome, probes: seq<Probe>)

  predicate ValidReplies(r: Replies)
  {
    |r.probes| == MaxRetries && forall i :: 0 <= i < |r.uploadEvents| ==> WellFormed(r.uploadEvents[i])
  }

  /** The run: the result, every value given to `onProgress`, the key given
      to `onUploadKey`, the presign request, and the key polled for. */
  datatype ProcessRun = ProcessRun(result: Result<string>, progress: seq<int>, reportedKey: Option<string>,
                                   request: PresignBody, polledKey: Option<string>)

  /** `users/<userId or 'temp'>/<now>.<extension>`, the key built locally. */
  function LocalKey(userId: Option<string>, now: int, fileName: string): string
  {
    "users/" + (if Present(userId) then userId.value else "temp") + "/" + IntToString(now) + "."
    + LastPiece(fileName, '.')
  }

  /** `processImage(params, callbacks)`; the page always passes `onProgress`. */
  function ProcessImage(file: File, options: Options, replies: Replies, hasUploadKeyCallback: bool): (run: ProcessRun)
    requires ValidReplies(replies)
    ensures |run.progress| >= 1 && run.progress[0] == 5
    ensures run.request == PresignBody(LocalKey(replies.userId, replies.now, file.name), file.name, file.mimeType,
                                       options.width, options.height, options.quality, options.format, options.watermark)
    ensures run.reportedKey == (if hasUploadKeyCallback && replies.presign.Granted? then Some(replies.presign.key) else None)
    ensures run.polledKey.Some? ==> replies.presign.Granted? && run.polledKey.value == replies.presign.key
    ensures run.result.Ok? <==>
              replies.presign.Granted? && UploadResult(replies.upload).Ok? && Reached in replies.probes
    ensures run.result.Ok? ==>
              && run.polledKey.Some?
              && run.result.value == ProcessedUrl(run.polledKey.value)
              && run.progress[|run.progress| - 1] == 100
              && 50 in run.progress
    ensures !replies.presign.Granted? ==>
              run.result == Err(PresignResult(replies.presign).message) && run.progress == [5] && run.polledKey.None?
    ensures replies.presign.Granted? ==>
              (run.result, run.progress, run.polledKey) == UploadAndPoll(replies.presign.key, replies)
  {
    var request := PresignBody(LocalKey(replies.userId, replies.now, file.name), file.name, file.mimeType,
                               options.width, options.height, options.quality, options.format, options.watermark);
    match PresignResult(replies.presign)
    case Err(m) => ProcessRun(Err(m), [5], None, request, None)
    case Ok((uploadUrl, key)) =>
      var reported := if hasUploadKeyCallback then Some(key) else None;
      var (result, progress, polled) := UploadAndPoll(key, replies);
      ProcessRun(result, progress, reported, request, polled)
  }

  /** The steps after the presign reply granted `key`: the upload with its
      reports, then, if it succeeded, 50 and the poll. A failed upload ends
      the run with its message; a poll that never reaches the image ends it
      with the timeout message. */
  function UploadAndPoll(key: string, replies: Replies): (r: (Result<string>, seq<int>, Option<string>))
    requires ValidReplies(replies)
    ensures |r.1| >= 1 && r.1[0] == 5
    ensures r.0.Ok? <==> UploadResult(replies.upload).Ok? && Reached in replies.probes
    ensures UploadResult(replies.upload).Err? ==>
              r == (Err(UploadResult(replies.upload).message), [5] + UploadReports(replies.uploadEvents, true), None)
    ensures UploadResult(replies.upload).Ok? ==>
              && r.2 == Some(key)
              && (var uploading := [5] + UploadReports(replies.uploadEvents, true);
                  |r.1| > |uploading| && r.1[..|uploading|] == uploading && r.1[|uploading|] == 50)
              && (r.0.Ok? ==> r.0.value == ProcessedUrl(key) && r.1[|r.1| - 1] == 100)
              && (r.0.Err? ==> r.0.message == TimeoutMessage)
  {
    var uploading := [5] + UploadReports(replies.uploadEvents, true);
    match UploadResult(replies.upload)
    case Err(m) => (Err(m), uploading, None)
    case Ok(_) =>
      var (polled, progress) := PollPhase(uploading, key, replies.probes);
      (polled, progress, Some(key))
  }

  /** The steps after a successful upload: report 50, poll with progress,
      report 100 once the image is there. */
  function PollPhase(uploading: seq<int>, key: string, probes: seq<Probe>): (r: (Result<string>, seq<int>))
    requires |probes| == MaxRetries
    ensures |r.1| > |uploading| && r.1[..|uploading|] == uploading && r.1[|uploading|] == 50
    ensures r.0.Ok? <==> Reached in probes
    ensures r.0.Ok? ==> r.0.value == ProcessedUrl(key) && r.1[|r.1| - 1] == 100
    ensures r.0.Err? ==> r.0.message == TimeoutMessage
  {
    var (polled, trace) := GetProcessedImage(key, probes, true);
    var polling := uploading + [50] + Progresses(trace);
    assert probes[0..] == probes;
    assert polling[..|uploading|] == uploading;
    if polled.Ok? then
      assert (polling + [100])[..|uploading|] == uploading;
      (polled, polling + [100])
    else (polled, polling)
  }

  /** The progress of a run can go down: an upload reporting 100 is followed
      by the pinned 50. */
  lemma ProgressNotMonotone(file: File, options: Options, replies: Replies)
    requires ValidReplies(replies)
    requires replies.presign.Granted?
    requires replies.uploadEvents == [ProgressEvent(true, 1, 1)]
    requires replies.upload == Loaded(200)
    ensures ProcessImage(file, options, replies, true).progress[..3] == [5, 100, 50]
  {
    assert UploadReports(replies.uploadEvents, true) == [100] by {
      assert UploadReports(replies.uploadEvents[1..], true) == [];
    }
  }

  // ---------------------------------------------------------------------
  // getImageHistory
  // ---------------------------------------------------------------------

  datatype HistoryItem = HistoryItem(cloudfrontUrl: Option<string>, processedKey: Option<string>,
                                     processedUrl: Option<string>, originalKey: Option<string>,
                                     originalUrl: Option<string>)

  /** The URL fix-up applied to each history item. */
  function MapHistoryItem(item: HistoryItem): (r: HistoryItem)
    ensures r.cloudfrontUrl == item.cloudfrontUrl && r.processedKey == item.processedKey
    ensures r.originalKey == item.originalKey
    ensures Present(item.cloudfrontUrl) ==> r.processedUrl == item.cloudfrontUrl
    ensures !Present(item.cloudfrontUrl) && Present(item.processedKey) ==>
              r.processedUrl == Some(CloudFrontUrl + "/" + item.processedKey.value)
    ensures !Present(item.cloudfrontUrl) && !Present(item.processedKey) ==> r.processedUrl == item.processedUrl
    ensures Present(item.originalKey) && !Present(item.originalUrl) ==>
              r.originalUrl == Some(CloudFrontUrl + "/" + item.originalKey.value)
    ensures !(Present(item.originalKey) && !Present(item.originalUrl)) ==> r.originalUrl == item.originalUrl
  {
    var processedUrl :=
      if Present(item.cloudfrontUrl) then item.cloudfrontUrl
      else if Present(item.processedKey) then Some(CloudFrontUrl + "/" + item.processedKey.value)
      else item.processedUrl;
    var originalUrl :=
      if Present(item.originalKey) && !Present(item.originalUrl) then Some(CloudFrontUrl + "/" + item.originalKey.value)
      else item.originalUrl;
    item.(processedUrl := processedUrl, originalUrl := originalUrl)
  }

  /** Mapping an already mapped item changes nothing. */
  lemma MapHistoryItemIdempotent(item: HistoryItem)
    ensures MapHistoryItem(MapHistoryItem(item)) == MapHistoryItem(item)
  {
  }

  /** After mapping, an item with any of the three sources has a URL. */
  lemma MappedItemHasUrl(item: HistoryItem)
    requires Present(item.cloudfrontUrl) || Present(item.processedKey) || Present(item.processedUrl)
    ensures Present(MapHistoryItem(item).processedUrl)
  {
  }
}

=== FILE: app.dfy ===
/** The page's state and its three handlers (`App.jsx`): picking a file,
    by the file input or by a drop, running the pipeline, and resetting.
    The preview reader and the pipeline's replies are inputs. */
module App {
  import opened Text
  import Api

  const ProcessFallbackMessage := "Đã xảy ra lỗi khi xử lý ảnh"

  /** The state hooks of the page. */
  datatype State = State(
    selectedImage: Option<Api.File>,
    imagePreview: Option<string>,
    processedImage: Option<string>,
    isProcessing: bool,
    uploadProgress: int,
    error: Option<string>,
    uploadedKey: Option<string>,
    resizeWidth: int,
    resizeHeight: int,
    quality: int,
    format: string,
    addWatermark: bool,
    watermarkText: string)

  /** The state on first render. */
  function Initial(): (s: State)
    ensures s.selectedImage.None? && s.imagePreview.None? && s.processedImage.None? && s.error.None?
    ensures s.uploadedKey.None? && !s.isProcessing && s.uploadProgress == 0
    ensures (s.resizeWidth, s.resizeHeight, s.quality, s.format) == (800, 600, 85, "jpeg")
    ensures !s.addWatermark && s.watermarkText == "ImageHub"
  {
    State(None, None, None, false, 0, None, None, 800, 600, 85, "jpeg", false, "ImageHub")
  }

  /** The options the user set, which only their own controls change. */
  predicate SameOptions(a: State, b: State)
  {
    && a.resizeWidth == b.resizeWidth && a.resizeHeight == b.resizeHeight && a.quality == b.quality
    && a.format == b.format && a.addWatermark == b.addWatermark && a.watermarkText == b.watermarkText
  }

  /** `handleImageSelect` and `handleDrop`, which share one body: the first
      file, if any, is validated, selected, and read into a preview. */
  function Pick(s: State, file: Option<Api.File>, preview: Api.Result<string>): (t: State)
    ensures file.None? ==> t == s
    ensures file.Some? && !Api.ValidateFile(file).valid ==> t == s.(error := Api.ValidateFile(file).error)
    ensures file.Some? && Api.ValidateFile(file).valid ==>
              && t.selectedImage == file
              && (preview.Ok? ==> t == s.(selectedImage := file, imagePreview := Some(preview.value),
                                          processedImage := None, error := None, uploadedKey := None))
              && (preview.Err? ==> t == s.(selectedImage := file, error := Some(preview.message)))
  {
    if file.None? then s
    else
      var validation := Api.ValidateFile(file);
      if !validation.valid then s.(error := validation.error)
      else
        var selected := s.(selectedImage := file);
        match preview
        case Ok(url) => selected.(imagePreview := Some(url), processedImage := None, error := None, uploadedKey := None)
        case Err(m) => selected.(error := Some(m))
  }

  /** The options `handleProcess` sends: the watermark text only when the
      watermark is switched on. */
  function OptionsOf(s: State): (o: Api.Options)
    ensures o.watermark == (if s.addWatermark then s.watermarkText else "")
    ensures (o.width, o.height, o.quality, o.format) == (s.resizeWidth, s.resizeHeight, s.quality, s.format)
  {
    Api.Options(s.resizeWidth, s.resizeHeight, s.quality, s.format, if s.addWatermark then s.watermarkText else "")
  }

  /** The state while the pipeline runs. */
  function Started(s: State): State
  {
    s.(isProcessing := true, uploadProgress := 0, error := None)
  }

  /** `handleProcess`: the state while running, the pipeline run (none
      without a selected image), and the state once it settles. */
  datatype Processing = Processing(started: State, run: Option<Api.ProcessRun>, settled: State)

  function HandleProcess(s: State, replies: Api.Replies): (p: Processing)
    requires Api.ValidReplies(replies)
    ensures s.selectedImage.None? ==> p.run.None? && p.started == s && p.settled == s
    ensures s.selectedImage.Some? ==>
              && p.started.isProcessing && p.started.uploadProgress == 0 && p.started.error.None?
              && p.run.Some? && p.run.value.request.watermark == (if s.addWatermark then s.watermarkText else "")
              && !p.settled.isProcessing
              && SameOptions(p.settled, s)
              && p.settled.selectedImage == s.selectedImage && p.settled.imagePreview == s.imagePreview
    ensures p.run.Some? && p.run.value.result.Ok? ==>
              && p.settled.processedImage == Some(p.run.value.result.value)
              && p.settled.error.None? && p.settled.uploadProgress == 100
    ensures p.run.Some? && p.run.value.result.Err? ==>
              && p.settled.processedImage == s.processedImage
              && p.settled.uploadProgress == 0
              && p.settled.error == Some(if p.run.value.result.message != "" then p.run.value.result.message
                                         else ProcessFallbackMessage)
    ensures p.run.Some? ==>
              p.settled.uploadedKey == (if p.run.value.reportedKey.Some? then p.run.value.reportedKey else s.uploadedKey)
  {
    if s.selectedImage.None? then Processing(s, None, s)
    else
      var started := Started(s);
      var run := Api.ProcessImage(s.selectedImage.value, OptionsOf(s), replies, true);
      var reported := if run.reportedKey.Some? then run.reportedKey else started.uploadedKey;
      var settled :=
        match run.result
        case Ok(url) =>
          started.(processedImage := Some(url), uploadProgress := run.progress[|run.progress| - 1],
                   uploadedKey := reported, isProcessing := false)
        case Err(m) =>
          started.(error := Some(if m != "" then m else ProcessFallbackMessage), uploadProgress := 0,
                   uploadedKey := reported, isProcessing := false);
      Processing(started, Some(run), settled)
  }

  /** `handleReset`: everything but the options and the busy flag goes back
      to its first value. */
  function Reset(s: State): (t: State)
    ensures t.selectedImage.None? && t.imagePreview.None? && t.processedImage.None?
    ensures t.uploadProgress == 0 && t.error.None? && t.uploadedKey.None?
    ensures SameOptions(t, s) && t.isProcessing == s.isProcessing
  {
    s.(selectedImage := None, imagePreview := None, processedImage := None, uploadProgress := 0, error := None,
       uploadedKey := None)
  }

  /** Resetting the first state changes nothing, and a reset lands on the
      first state with the user's options kept. */
  lemma ResetIsInitialWithOptions(s: State)
    requires !s.isProcessing
    ensures Reset(Initial()) == Initial()
    ensures Reset(s) == Initial().(resizeWidth := s.resizeWidth, resizeHeight := s.resizeHeight, quality := s.quality,
                                   format := s.format, addWatermark := s.addWatermark, watermarkText := s.watermarkText)
  {
  }

  /** A pick leaves nothing that a reset would not clear. */
  lemma ResetForgetsPick(s: State, file: Option<Api.File>, preview: Api.Result<string>)
    ensures Reset(Pick(s, file, preview)) == Reset(s)
  {
  }
}

=== FILE: forms.dfy ===
/** The account forms (`Register.jsx`, `ForgotPassword.jsx`): their ordered
    input checks, written as predicates over the characters that the
    regular expressions match, and the two-step password reset. The calls
    into the authentication service are outcomes given as inputs. */
module AccountForms {
  import opened Text

  const FillAllMessage := "Vui lòng điền đầy đủ thông tin"
  const EnterEmailMessage := "Vui lòng nhập email"
  const BadEmailMessage := "Email không hợp lệ"
  const ShortPasswordMessage := "Mật khẩu phải có ít nhất 8 ký tự"
  const WeakPasswordMessage := "Mật khẩu phải chứa chữ hoa, chữ thường và số"
  const MismatchMessage := "Mật khẩu xác nhận không khớp"
  const ShortNameMessage := "Tên phải có ít nhất 2 ký tự"
  const RegisterFallbackMessage := "Đăng ký thất bại"
  const RequestFallbackMessage := "Gửi yêu cầu thất bại"
  const ResetFallbackMessage := "Đặt lại mật khẩu thất bại"

  // ---------------------------------------------------------------------
  // JavaScript string primitives
  // ---------------------------------------------------------------------

  /** A line terminator: what `.` in a regular expression does not match. */
  predicate IsLineTerminator(c: char)
  {
    var n := c as int;
    n == 0x0A || n == 0x0D || n == 0x2028 || n == 0x2029
  }

  /** What `\s` matches and `String.prototype.trim` removes: the white space
      and line terminators of sections 12.2 and 12.3 of ECMA-262. */
  predicate IsJsSpace(c: char)
  {
    var n := c as int;
    || n == 0x09 || n == 0x0B || n == 0x0C || n == 0x20 || n == 0xA0 || n == 0xFEFF
    || n == 0x1680 || (0x2000 <= n <= 0x200A) || n == 0x202F || n == 0x205F || n == 0x3000
    || IsLineTerminator(c)
  }

  /** `.length`: UTF-16 code units, two for a character beyond U+FFFF. */
  function Utf16Length(s: string): (n: nat)
    ensures |s| <= n <= 2 * |s|
  {
    if |s| == 0 then 0 else (if s[0] as int > 0xFFFF then 2 else 1) + Utf16Length(s[1..])
  }

  // ---------------------------------------------------------------------
  // /\S+@\S+\.\S+/
  // ---------------------------------------------------------------------

  predicate NoSpaceIn(s: string, i: int, j: int)
    requires 0 <= i <= j <= |s|
  {
    forall m :: i <= m < j ==> !IsJsSpace(s[m])
  }

  /** The pattern matches with its '@' at `at` and its '.' at `dot`: one
      non-space before the '@', non-spaces up to the '.', one after it. The
      `+` runs can always be shortened to these, so nothing else is needed. */
  predicate EmailAt(s: string, at: int, dot: int)
  {
    && 0 < at && at + 1 < dot && dot + 1 < |s|
    && !IsJsSpace(s[at - 1]) && s[at] == '@' && NoSpaceIn(s, at + 1, dot) && s[dot] == '.' && !IsJsSpace(s[dot + 1])
  }

  /** `/\S+@\S+\.\S+/.test(s)`: the match is not anchored, so a match
      anywhere in the text is enough. */
  predicate EmailLike(s: string)
  {
    exists at, dot :: 0 < at < dot < |s| && EmailAt(s, at, dot)
  }

  /** The regular expression engine's search, as a scan over every '@' and
      the run of non-spaces after it. */
  method MatchesEmail(s: string) returns (found: bool)
    ensures found <==> EmailLike(s)
  {
    var at := 0;
    while at < |s|
      invariant 0 <= at <= |s|
      invariant forall a, d :: 0 <= a < at ==> !EmailAt(s, a, d)
    {
      if 0 < at && !IsJsSpace(s[at - 1]) && s[at] == '@' {
        var m := at + 1;
        while m < |s| && !IsJsSpace(s[m])
          invariant at + 1 <= m <= |s|
          invariant NoSpaceIn(s, at + 1, m)
          invariant forall d :: d < m ==> !EmailAt(s, at, d)
        {
          if s[m] == '.' && at + 1 < m && m + 1 < |s| && !IsJsSpace(s[m + 1]) {
            assert EmailAt(s, at, m);
            return true;
          }
          m := m + 1;
        }
        assert forall d :: m < d ==> !EmailAt(s, at, d) by {
          forall d | m < d ensures !EmailAt(s, at, d) {
            if m < |s| && d < |s| {
              assert IsJsSpace(s[m]);
            }
          }
        }
      }
      at := at + 1;
    }
    found := false;
  }

  // ---------------------------------------------------------------------
  // The password policy
  // ---------------------------------------------------------------------

  predicate Lower(c: char) { 'a' <= c <= 'z' }
  predicate Upper(c: char) { 'A' <= c <= 'Z' }
  predicate Digit(c: char) { '0' <= c <= '9' }

  /** `(?=.*X)` tried at position `p`: an X is reached from `p` before any
      line terminator. */
  predicate AheadOnLine(s: string, p: int, x: char -> bool)
    requires 0 <= p <= |s|
  {
    exists i :: p <= i < |s| && x(s[i]) && forall m :: p <= m < i ==> !IsLineTerminator(s[m])
  }

  /** `/(?=.*[a-z])(?=.*[A-Z])(?=.*\d)/.test(s)`: at some position all three
      lookaheads succeed. */
  predicate MixedClasses(s: string)
  {
    exists p :: 0 <= p <= |s| && AheadOnLine(s, p, Lower) && AheadOnLine(s, p, Upper) && AheadOnLine(s, p, Digit)
  }

  /** Without line terminators the pattern asks for one lower-case letter,
      one upper-case letter and one digit anywhere. */
  lemma MixedClassesOnOneLine(s: string)
    requires forall m :: 0 <= m < |s| ==> !IsLineTerminator(s[m])
    ensures MixedClasses(s) <==>
            (exists i :: 0 <= i < |s| && Lower(s[i])) && (exists j :: 0 <= j < |s| && Upper(s[j]))
            && (exists k :: 0 <= k < |s| && Digit(s[k]))
  {
    if (exists i :: 0 <= i < |s| && Lower(s[i])) && (exists j :: 0 <= j < |s| && Upper(s[j]))
       && (exists k :: 0 <= k < |s| && Digit(s[k])) {
      assert AheadOnLine(s, 0, Lower) && AheadOnLine(s, 0, Upper) && AheadOnLine(s, 0, Digit);
    }
  }

  /** The two password checks both forms run, length first. */
  function PasswordPolicy(password: string): (c: Option<string>)
    ensures c.None? <==> Utf16Length(password) >= 8 && MixedClasses(password)
    ensures Utf16Length(password) < 8 ==> c == Some(ShortPasswordMessage)
    ensures Utf16Length(password) >= 8 && !MixedClasses(password) ==> c == Some(WeakPasswordMessage)
  {
    if Utf16Length(password) < 8 then Some(ShortPasswordMessage)
    else if !MixedClasses(password) then Some(WeakPasswordMessage)
    else None
  }

  // ---------------------------------------------------------------------
  // Register
  // ---------------------------------------------------------------------

  datatype RegisterForm = RegisterForm(email: string, password: string, confirmPassword: string, name: string)

  /** The first failing check of `handleSubmit`, if any. */
  function RegisterCheck(f: RegisterForm): (c: Option<string>)
    ensures (f.email == "" || f.password == "" || f.confirmPassword == "" || f.name == "") ==> c == Some(FillAllMessage)
    ensures f.email != "" && f.password != "" && f.confirmPassword != "" && f.name != "" && !EmailLike(f.email) ==>
              c == Some(BadEmailMessage)
    ensures f.email != "" && f.password != "" && f.confirmPassword != "" && f.name != "" && EmailLike(f.email) ==>
              && (Utf16Length(f.password) < 8 ==> c == Some(ShortPasswordMessage))
              && (Utf16Length(f.password) >= 8 && !MixedClasses(f.password) ==> c == Some(WeakPasswordMessage))
              && (PasswordPolicy(f.password).None? && f.password != f.confirmPassword ==> c == Some(MismatchMessage))
    ensures c.None? <==>
              && f.email != "" && f.password != "" && f.confirmPassword != "" && f.name != ""
              && EmailLike(f.email) && PasswordPolicy(f.password).None? && f.password == f.confirmPassword
              && Utf16Length(Trim(f.name, IsJsSpace)) >= 2
    ensures c == Some(ShortNameMessage) <==>
              && f.email != "" && f.password != "" && f.confirmPassword != "" && f.name != ""
              && EmailLike(f.email) && PasswordPolicy(f.password).None? && f.password == f.confirmPassword
              && Utf16Length(Trim(f.name, IsJsSpace)) < 2
  {
    if f.email == "" || f.password == "" || f.confirmPassword == "" || f.name == "" then Some(FillAllMessage)
    else if !EmailLike(f.email) then Some(BadEmailMessage)
    else if PasswordPolicy(f.password).Some? then PasswordPolicy(f.password)
    else if f.password != f.confirmPassword then Some(MismatchMessage)
    else if Utf16Length(Trim(f.name, IsJsSpace)) < 2 then Some(ShortNameMessage)
    else None
  }

  /** How a call into the authentication service settles. */
  datatype Outcome = Resolved | Rejected(message: string)

  /** What a submission leaves: the error shown, whether the form succeeded,
      and whether the service was called. */
  datatype Submission = Submission(error: Option<string>, success: bool, called: bool)

  function FailureMessage(message: string, fallback: string): string
  {
    if message != "" then message else fallback
  }

  /** `handleSubmit`: `register` is called only when every check passes, and
      success only follows its resolving. */
  function Register(f: RegisterForm, outcome: Outcome): (r: Submission)
    ensures r.called <==> RegisterCheck(f).None?
    ensures r.success <==> r.called && outcome.Resolved?
    ensures r.error.None? <==> r.success
    ensures !r.called ==> r.error == RegisterCheck(f)
    ensures r.called && outcome.Rejected? ==> r.error == Some(FailureMessage(outcome.message, RegisterFallbackMessage))
  {
    match RegisterCheck(f)
    case Some(m) => Submission(Some(m), false, false)
    case None =>
      match outcome
      case Resolved => Submission(None, true, true)
      case Rejected(m) => Submission(Some(FailureMessage(m, RegisterFallbackMessage)), false, true)
  }

  /** A name of spaces alone gets past the "fill all" check and is stopped by
      the last one. */
  lemma BlankNameReachesLastCheck(email: string, password: string)
    requires EmailLike(email) && PasswordPolicy(password).None?
    ensures RegisterCheck(RegisterForm(email, password, password, "   ")) == Some(ShortNameMessage)
  {
    assert Trim("   ", IsJsSpace) == "" by {
      assert "   "[1..] == "  " && "  "[1..] == " " && " "[1..] == "";
    }
  }

  // ---------------------------------------------------------------------
  // ForgotPassword
  // ---------------------------------------------------------------------

  datatype ResetForm = ResetForm(step: int, email: string, code: string, newPassword: string,
                                 confirmPassword: string, error: Option<string>, success: bool)

  /** The first failing check of step 1. */
  function RequestCheck(email: string): (c: Option<string>)
    ensures email == "" ==> c == Some(EnterEmailMessage)
    ensures email != "" ==> (c.None? <==> EmailLike(email))
    ensures c.Some? && email != "" ==> c == Some(BadEmailMessage)
  {
    if email == "" then Some(EnterEmailMessage)
    else if !EmailLike(email) then Some(BadEmailMessage)
    else None
  }

  /** `handleRequestReset`: the form moves to step 2 only once
      `forgotPassword` resolves. */
  function RequestReset(f: ResetForm, outcome: Outcome): (r: ResetForm)
    ensures r.step == (if RequestCheck(f.email).None? && outcome.Resolved? then 2 else f.step)
    ensures r.error.None? <==> RequestCheck(f.email).None? && outcome.Resolved?
    ensures RequestCheck(f.email).Some? ==> r.error == RequestCheck(f.email)
    ensures RequestCheck(f.email).None? && outcome.Rejected? ==>
              r.error == Some(FailureMessage(outcome.message, RequestFallbackMessage))
    ensures r.(step := f.step, error := f.error) == f
  {
    match RequestCheck(f.email)
    case Some(m) => f.(error := Some(m))
    case None =>
      match outcome
      case Resolved => f.(step := 2, error := None)
      case Rejected(m) => f.(error := Some(FailureMessage(m, RequestFallbackMessage)))
  }

  /** The first failing check of step 2. */
  function ConfirmCheck(f: ResetForm): (c: Option<string>)
    ensures (f.code == "" || f.newPassword == "" || f.confirmPassword == "") ==> c == Some(FillAllMessage)
    ensures f.code != "" && f.newPassword != "" && f.confirmPassword != "" ==>
              && (Utf16Length(f.newPassword) < 8 ==> c == Some(ShortPasswordMessage))
              && (Utf16Length(f.newPassword) >= 8 && !MixedClasses(f.newPassword) ==> c == Some(WeakPasswordMessage))
              && (PasswordPolicy(f.newPassword).None? && f.newPassword != f.confirmPassword ==> c == Some(MismatchMessage))
    ensures c.None? <==>
              f.code != "" && f.newPassword != "" && f.confirmPassword != ""
              && PasswordPolicy(f.newPassword).None? && f.newPassword == f.confirmPassword
  {
    if f.code == "" || f.newPassword == "" || f.confirmPassword == "" then Some(FillAllMessage)
    else if PasswordPolicy(f.newPassword).Some? then PasswordPolicy(f.newPassword)
    else if f.newPassword != f.confirmPassword then Some(MismatchMessage)
    else None
  }

  /** `handleConfirmReset`: success only once `confirmForgotPassword`
      resolves; the step is left as it is. */
  function ConfirmReset(f: ResetForm, outcome: Outcome): (r: ResetForm)
    ensures r.success == ((ConfirmCheck(f).None? && outcome.Resolved?) || f.success)
    ensures r.error.None? <==> ConfirmCheck(f).None? && outcome.Resolved?
    ensures ConfirmCheck(f).Some? ==> r.error == ConfirmCheck(f)
    ensures ConfirmCheck(f).None? && outcome.Rejected? ==>
              r.error == Some(FailureMessage(outcome.message, ResetFallbackMessage))
    ensures r.(success := f.success, error := f.error) == f
  {
    match ConfirmCheck(f)
    case Some(m) => f.(error := Some(m))
    case None =>
      match outcome
      case Resolved => f.(success := true, error := None)
      case Rejected(m) => f.(error := Some(FailureMessage(m, ResetFallbackMessage)))
  }

  /** The back button of step 2. */
  function Back(f: ResetForm): (r: ResetForm)
    ensures r.step == 1 && r.(step := f.step) == f
  {
    f.(step := 1)
  }

  /** What the user can do on the form: type an email, submit either step,
      or go back. */
  datatype Action = EnterEmail(email: string) | SubmitRequest(outcome: Outcome)
                  | SubmitConfirm(confirmOutcome: Outcome) | GoBack

  function Apply(f: ResetForm, a: Action): ResetForm
  {
    match a
    case EnterEmail(e) => f.(email := e)
    case SubmitRequest(o) => RequestReset(f, o)
    case SubmitConfirm(o) => ConfirmReset(f, o)
    case GoBack => Back(f)
  }

  function Replay(f: ResetForm, actions: seq<Action>): ResetForm
  {
    if |actions| == 0 then f else Apply(Replay(f, actions[..|actions| - 1]), actions[|actions| - 1])
  }

  /** Only a resolved request moves to step 2, and only the back button
      moves to step 1. */
  lemma ApplyStep(f: ResetForm, a: Action)
    ensures Apply(f, a).step == (if a.SubmitRequest? && RequestCheck(f.email).None? && a.outcome.Resolved? then 2
                                 else if a.GoBack? then 1 else f.step)
  {
  }

  /** Action `i` of `actions` is a request that passed its checks and
      resolved, with no back press after it. */
  ghost predicate ResolvedRequestAt(f: ResetForm, actions: seq<Action>, i: int)
  {
    && 0 <= i < |actions| && actions[i].SubmitRequest? && actions[i].outcome.Resolved?
    && RequestCheck(Replay(f, actions[..i]).email).None?
    && GoBack !in actions[i + 1..]
  }

  lemma ResolvedRequestKept(f: ResetForm, front: seq<Action>, last: Action, i: int)
    requires ResolvedRequestAt(f, front, i) && !last.GoBack?
    ensures ResolvedRequestAt(f, front + [last], i)
  {
    var actions := front + [last];
    assert actions[..i] == front[..i];
    assert actions[i + 1..] == front[i + 1..] + [last];
  }

  lemma ResolvedRequestLast(f: ResetForm, front: seq<Action>, last: Action)
    requires last.SubmitRequest? && last.outcome.Resolved? && RequestCheck(Replay(f, front).email).None?
    ensures ResolvedRequestAt(f, front + [last], |front|)
  {
    var actions := front + [last];
    assert actions[..|front|] == front;
    assert actions[|front| + 1..] == [];
  }

  /** From step 1, the form is only ever at step 1 or 2, and it is at step 2
      only after a request that passed its checks and resolved, with no
      back press since. */
  lemma {:induction false} StepTwoNeedsResolvedRequest(f: ResetForm, actions: seq<Action>)
    requires f.step == 1
    ensures Replay(f, actions).step == 1 || Replay(f, actions).step == 2
    ensures Replay(f, actions).step == 2 ==> exists i :: ResolvedRequestAt(f, actions, i)
  {
    if |actions| > 0 {
      var front := actions[..|actions| - 1];
      var last := actions[|actions| - 1];
      assert actions == front + [last];
      StepTwoNeedsResolvedRequest(f, front);
      ApplyStep(Replay(f, front), last);
      if Replay(f, actions).step == 2 {
        if last.SubmitRequest? && RequestCheck(Replay(f, front).email).None? && last.outcome.Resolved? {
          ResolvedRequestLast(f, front, last);
        } else {
          var i :| ResolvedRequestAt(f, front, i);
          ResolvedRequestKept(f, front, last, i);
        }
      }
    }
  }

  /** Both forms hold a new password to the same rules: a password and its
      confirmation pass the registration's password checks exactly when they
      pass step 2's, with the other fields filled in. */
  lemma PasswordRulesCoincide(email: string, name: string, code: string, password: string, confirm: string,
                              f: ResetForm)
    requires EmailLike(email) && Utf16Length(Trim(name, IsJsSpace)) >= 2 && code != ""
    requires f.code == code && f.newPassword == password && f.confirmPassword == confirm
    ensures RegisterCheck(RegisterForm(email, password, confirm, name)).None? <==> ConfirmCheck(f).None?
    ensures password != "" && confirm != "" ==>
              RegisterCheck(RegisterForm(email, password, confirm, name)) == ConfirmCheck(f)
  {
    assert name != "";
    assert email != "";
  }
}

=== FILE: helpers.dfy ===
/** The option checks of `utils/helpers.js`, which stop at the first
    problem, set against the upload handler's rules, which collect every
    problem. A value the page never filled in is `None`. */
module FormHelpers {
  import opened Text
  import opened PyValues
  import PresignHandler

  const MinSize := 1
  const MaxSize := 4000

  const EnterSizeMessage := "Vui lòng nhập kích thước"
  const WidthRangeMessage := "Chiều rộng phải từ 1 đến 4000px"
  const HeightRangeMessage := "Chiều cao phải từ 1 đến 4000px"
  const QualityRangeMessage := "Chất lượng phải từ 1 đến 100"

  /** A check's outcome: `{valid: true, error: null}` is `None`. */
  type Check = Option<string>

  /** JavaScript truthiness of an optional number. */
  predicate Given(n: Option<int>)
  {
    n.Some? && n.value != 0
  }

  /** `validateDimensions(width, height)`. */
  function ValidateDimensions(width: Option<int>, height: Option<int>): (c: Check)
    ensures !Given(width) || !Given(height) ==> c == Some(EnterSizeMessage)
    ensures Given(width) && Given(height) && !(MinSize <= width.value <= MaxSize) ==> c == Some(WidthRangeMessage)
    ensures Given(width) && Given(height) && MinSize <= width.value <= MaxSize && !(MinSize <= height.value <= MaxSize) ==>
              c == Some(HeightRangeMessage)
    ensures c.None? <==> width.Some? && height.Some? && MinSize <= width.value <= MaxSize && MinSize <= height.value <= MaxSize
  {
    if !Given(width) || !Given(height) then Some(EnterSizeMessage)
    else if width.value < MinSize || width.value > MaxSize then Some(WidthRangeMessage)
    else if height.value < MinSize || height.value > MaxSize then Some(HeightRangeMessage)
    else None
  }

  /** `validateQuality(quality)`. */
  function ValidateQuality(quality: Option<int>): (c: Check)
    ensures c.None? <==> quality.Some? && 1 <= quality.value <= 100
    ensures c.Some? ==> c.value == QualityRangeMessage
  {
    if !Given(quality) || quality.value < 1 || quality.value > 100 then Some(QualityRangeMessage) else None
  }

  /** For integers the page sends, the page accepts the dimensions and the
      quality exactly when the upload handler reports none of the width,
      height and quality errors. */
  lemma PageAndHandlerAgree(body: seq<Entry>, width: int, height: int, quality: int)
    requires GetOr(body, "width", PyInt(PresignHandler.DefaultWidth)) == PyInt(width)
    requires GetOr(body, "height", PyInt(PresignHandler.DefaultHeight)) == PyInt(height)
    requires GetOr(body, "quality", PyInt(PresignHandler.DefaultQuality)) == PyInt(quality)
    ensures var errors := PresignHandler.ValidateRequest(body);
            && (ValidateDimensions(Some(width), Some(height)).None?
                <==> PresignHandler.WidthOutOfRange !in errors && PresignHandler.HeightOutOfRange !in errors)
            && (ValidateQuality(Some(quality)).None? <==> PresignHandler.QualityOutOfRange !in errors)
  {
    var errors := PresignHandler.ValidateRequest(body);
    assert PresignHandler.WidthOutOfRange in errors <==> !(MinSize <= width <= MaxSize) by {
      assert PresignHandler.Violates(body, PresignHandler.WidthOutOfRange) <==> !PresignHandler.IntIn(PyInt(width), 1, 4000);
    }
    assert PresignHandler.HeightOutOfRange in errors <==> !(MinSize <= height <= MaxSize) by {
      assert PresignHandler.Violates(body, PresignHandler.HeightOutOfRange) <==> !PresignHandler.IntIn(PyInt(height), 1, 4000);
    }
    assert PresignHandler.QualityOutOfRange in errors <==> !(1 <= quality <= 100) by {
      assert PresignHandler.Violates(body, PresignHandler.QualityOutOfRange) <==> !PresignHandler.IntIn(PyInt(quality), 1, 100);
    }
  }

  /** Where they part: a missing width is refused by the page but taken as
      800 by the handler. */
  lemma MissingWidthOnlyPageRefuses(body: seq<Entry>, height: int)
    requires Get(body, "width").None?
    ensures ValidateDimensions(None, Some(height)) == Some(EnterSizeMessage)
    ensures PresignHandler.WidthOutOfRange !in PresignHandler.ValidateRequest(body)
  {
  }
}

=== FILE: history.dfy ===
/** The save-image-history Lambda: where the body comes from, the required
    fields, the `convert_to_decimal` walk over the metadata, the six-key
    item with its 90-day expiry, and the reply. `json.loads`, the two clock
    readings and the DynamoDB write are passed in. */
module SaveHistory {
  import opened Text
  import opened PyValues

  /** 90 days in seconds. */
  const TtlSeconds := 90 * 24 * 60 * 60

  /** `str(e)` of the InvalidOperation that `Decimal('True')` raises. */
  const ConversionSyntax := "[<class 'decimal.ConversionSyntax'>]"

  // ---------------------------------------------------------------------
  // convert_to_decimal
  // ---------------------------------------------------------------------

  /** A bool somewhere in the value: `Decimal(str(True))` raises. */
  predicate HasBool(v: PyValue)
  {
    match v
    case PyBool(_) => true
    case PyList(items) => exists i :: 0 <= i < |items| && HasBool(items[i])
    case PyDict(entries) => exists i :: 0 <= i < |entries| && HasBool(entries[i].value)
    case _ => false
  }

  /** The converted value when nothing raises: ints and floats become
      Decimals, dicts and lists are rebuilt, everything else is kept. */
  function Converted(v: PyValue): PyValue
  {
    match v
    case PyInt(i) => PyDecimal(Exact(i))
    case PyFloat(f) => PyDecimal(OfFloat(f))
    case PyList(items) => PyList(seq(|items|, i requires 0 <= i < |items| => Converted(items[i])))
    case PyDict(entries) =>
      PyDict(seq(|entries|, i requires 0 <= i < |entries| => Entry(entries[i].key, Converted(entries[i].value))))
    case _ => v
  }

  /** `convert_to_decimal(obj)`: raises on a bool (a bool is an int, and
      `str(True)` is not a number), else returns the converted value. */
  function ConvertToDecimal(v: PyValue): (r: Py<PyValue>)
    ensures r.Raises? <==> HasBool(v)
    ensures r.Raises? ==> r.exception == ConversionSyntax
    ensures r.Ok? ==> SameShape(v, r.value) && NoNumbers(r.value)
  {
    if HasBool(v) then Raises(ConversionSyntax)
    else
      ConvertedShape(v);
      Ok(Converted(v))
  }

  /** `b` is `a` with each int or float leaf replaced by a Decimal: the same
      dict keys in the same order, the same list lengths, the same other
      leaves. */
  predicate SameShape(a: PyValue, b: PyValue)
  {
    match a
    case PyInt(_) => b.PyDecimal?
    case PyFloat(_) => b.PyDecimal?
    case PyList(items) =>
      b.PyList? && |b.items| == |items|
      && forall i :: 0 <= i < |items| ==> SameShape(items[i], b.items[i])
    case PyDict(entries) =>
      b.PyDict? && |b.entries| == |entries|
      && forall i :: 0 <= i < |entries| ==>
           b.entries[i].key == entries[i].key && SameShape(entries[i].value, b.entries[i].value)
    case _ => b == a
  }

  /** No int or float left anywhere: what DynamoDB accepts. */
  predicate NoNumbers(v: PyValue)
  {
    match v
    case PyInt(_) => false
    case PyFloat(_) => false
    case PyList(items) => forall i :: 0 <= i < |items| ==> NoNumbers(items[i])
    case PyDict(entries) => forall i :: 0 <= i < |entries| ==> NoNumbers(entries[i].value)
    case _ => true
  }

  lemma {:induction false} ConvertedShape(v: PyValue)
    requires !HasBool(v)
    ensures SameShape(v, Converted(v)) && NoNumbers(Converted(v))
  {
    match v
    case PyList(items) =>
      forall i | 0 <= i < |items| ensures SameShape(items[i], Converted(v).items[i]) && NoNumbers(Converted(v).items[i]) {
        ConvertedShape(items[i]);
      }
    case PyDict(entries) =>
      forall i | 0 <= i < |entries|
        ensures SameShape(entries[i].value, Converted(v).entries[i].value) && NoNumbers(Converted(v).entries[i].value)
      {
        ConvertedShape(entries[i].value);
      }
    case _ =>
  }

  /** Converting twice is converting once: Decimals are left alone. */
  lemma {:induction false} ConvertIdempotent(v: PyValue)
    requires !HasBool(v)
    ensures ConvertToDecimal(v).Ok?
    ensures ConvertToDecimal(ConvertToDecimal(v).value) == ConvertToDecimal(v)
  {
    ConvertedFixed(v);
  }

  lemma {:induction false} ConvertedFixed(v: PyValue)
    ensures !HasBool(Converted(v)) <==> !HasBool(v)
    ensures Converted(Converted(v)) == Converted(v)
  {
    match v
    case PyList(items) =>
      var c := Converted(v).items;
      forall i | 0 <= i < |items| ensures (!HasBool(c[i]) <==> !HasBool(items[i])) && Converted(c[i]) == c[i] {
        ConvertedFixed(items[i]);
      }
      assert Converted(Converted(v)).items == c;
    case PyDict(entries) =>
      var c := Converted(v).entries;
      forall i | 0 <= i < |entries|
        ensures (!HasBool(c[i].value) <==> !HasBool(entries[i].value)) && Converted(c[i].value) == c[i].value
      {
        ConvertedFixed(entries[i].value);
      }
      assert Converted(Converted(v)).entries == c;
    case _ =>
  }

  // ---------------------------------------------------------------------
  // lambda_handler
  // ---------------------------------------------------------------------

  /** The body: `json.loads(event['body'])` when the body is a string (a call
      through API Gateway), else the event itself (a direct invocation). A
      parsed body that is not a dict fails at its first `.get`. */
  function BodyOf(event: seq<Entry>, loads: string -> Py<PyValue>): (r: Py<seq<Entry>>)
    ensures (Get(event, "body").None? || !Get(event, "body").value.PyStr?) ==> r == Ok(event)
    ensures Get(event, "body").Some? && Get(event, "body").value.PyStr? ==>
              (r.Ok? <==> loads(Get(event, "body").value.s).Ok? && loads(Get(event, "body").value.s).value.PyDict?)
  {
    match Get(event, "body")
    case Some(PyStr(text)) =>
      (match loads(text)
       case Raises(e) => Raises(e)
       case Ok(PyDict(entries)) => Ok(entries)
       case Ok(other) => Raises(NoAttribute(other, "get")))
    case _ => Ok(event)
  }

  /** The keys of the stored item, in the order they are written. */
  const ItemKeys: seq<string> := ["userId", "timestamp", "originalKey", "processedKey", "metadata", "ttl"]

  function Keys(entries: seq<Entry>): (r: seq<string>)
    ensures |r| == |entries| && forall i :: 0 <= i < |r| ==> r[i] == entries[i].key
  {
    seq(|entries|, i requires 0 <= i < |entries| => entries[i].key)
  }

  /** `int(clock) + 90 days`, `clock` being `datetime.utcnow().timestamp()`. */
  function Expiry(clock: real): (ttl: int)
    ensures clock >= 0.0 ==> clock + TtlSeconds as real - 1.0 < ttl as real <= clock + TtlSeconds as real
  {
    TruncateFloat(clock) + TtlSeconds
  }

  /** The item written to the table. */
  function MakeItem(userId: PyValue, timestamp: string, originalKey: PyValue, processedKey: PyValue,
                    metadata: PyValue, clock: real): (item: seq<Entry>)
    ensures Keys(item) == ItemKeys && DistinctKeys(item)
    ensures item[2].value == (if Truthy(originalKey) then originalKey else PyStr(""))
    ensures item[5].value == PyInt(Expiry(clock))
  {
    [Entry("userId", userId), Entry("timestamp", PyStr(timestamp)),
     Entry("originalKey", if Truthy(originalKey) then originalKey else PyStr("")),
     Entry("processedKey", processedKey), Entry("metadata", metadata),
     Entry("ttl", PyInt(Expiry(clock)))]
  }

  datatype Reply =
    | Saved(message: string, timestamp: string)
    | MissingFields(error: string)
    | Failed(error: string)

  /** The status code, the reply body and the item written, if any. */
  datatype Run = Run(statusCode: int, reply: Reply, written: Option<seq<Entry>>)

  /** The 500 reply of the `except` clause, carrying `str(e)`. */
  function Fail(message: string, written: Option<seq<Entry>>): (run: Run)
    ensures run.statusCode == 500 && run.written == written
    ensures run.reply == Failed("Failed to save image history: " + message)
  {
    Run(500, Failed("Failed to save image history: " + message), written)
  }

  /** `lambda_handler(event, context)` with `json.loads` as `loads`, the ISO
      text of the first clock reading as `isoNow`, the second clock reading
      in seconds as `clock`, and the exception message of `put_item`, if it
      raised, as `putError`. */
  function Handle(event: seq<Entry>, loads: string -> Py<PyValue>, isoNow: string, clock: real,
                  putError: Option<string>): (run: Run)
    ensures run.statusCode in {200, 400, 500}
    ensures run.statusCode == 400 <==>
              BodyOf(event, loads).Ok?
              && (!Truthy(GetOr(BodyOf(event, loads).value, "userId", PyNone))
                  || !Truthy(GetOr(BodyOf(event, loads).value, "processedKey", PyNone)))
    ensures run.statusCode == 400 ==> run.written.None? && run.reply == MissingFields("userId and processedKey are required")
    ensures run.statusCode == 200 <==> run.written.Some? && putError.None?
    ensures run.written.Some? ==>
              && Keys(run.written.value) == ItemKeys
              && run.written.value[1].value == PyStr(isoNow)
              && run.written.value[5].value == PyInt(TruncateFloat(clock) + TtlSeconds)
    ensures run.statusCode == 200 ==> run.reply == Saved("Image history saved successfully", isoNow)
    ensures BodyOf(event, loads).Raises? ==> run == Fail(BodyOf(event, loads).exception, None)
    ensures BodyOf(event, loads).Ok? ==>
              (var body := BodyOf(event, loads).value;
               var metadata := GetOr(body, "metadata", PyDict([]));
               var valid := Truthy(GetOr(body, "userId", PyNone)) && Truthy(GetOr(body, "processedKey", PyNone));
               && (valid && HasBool(metadata) ==> run == Fail(ConversionSyntax, None))
               && (valid && !HasBool(metadata) ==>
                     run.written == Some(MakeItem(GetOr(body, "userId", PyNone), isoNow, GetOr(body, "originalKey", PyNone),
                                                  GetOr(body, "processedKey", PyNone),
                                                  ConvertToDecimal(metadata).value, clock)))
               && (valid && !HasBool(metadata) && putError.Some? ==>
                     run == Fail(putError.value, run.written)))
  {
    match BodyOf(event, loads)
    case Raises(e) => Fail(e, None)
    case Ok(body) =>
      var userId := GetOr(body, "userId", PyNone);
      var originalKey := GetOr(body, "originalKey", PyNone);
      var processedKey := GetOr(body, "processedKey", PyNone);
      var metadata := GetOr(body, "metadata", PyDict([]));
      if !Truthy(userId) || !Truthy(processedKey) then
        Run(400, MissingFields("userId and processedKey are required"), None)
      else
        match ConvertToDecimal(metadata)
        case Raises(e) => Fail(e, None)
        case Ok(converted) =>
          var item := MakeItem(userId, isoNow, originalKey, processedKey, converted, clock);
          match putError
          case Some(e) => Fail(e, Some(item))
          case None => Run(200, Saved("Image history saved successfully", isoNow), Some(item))
  }

  /** The API Gateway form and the direct form of the same body behave alike. */
  lemma GatewayBodyLikeDirect(text: string, body: seq<Entry>, loads: string -> Py<PyValue>, isoNow: string,
                              clock: real, putError: Option<string>)
    requires loads(text) == Ok(PyDict(body))
    requires Get(body, "body").None? || !Get(body, "body").value.PyStr?
    ensures Handle([Entry("body", PyStr(text))], loads, isoNow, clock, putError)
            == Handle(body, loads, isoNow, clock, putError)
  {
    var wrapped := [Entry("body", PyStr(text))];
    assert Get(wrapped, "body") == Some(PyStr(text));
    assert BodyOf(wrapped, loads) == Ok(body) == BodyOf(body, loads);
  }

  /** The stored item carries the request's fields and the converted
      metadata, with the metadata defaulting to an empty dict. */
  lemma ItemCarriesRequest(body: seq<Entry>, loads: string -> Py<PyValue>, isoNow: string, clock: real)
    requires Get(body, "body").None?
    requires Handle(body, loads, isoNow, clock, None).statusCode == 200
    ensures var item := Handle(body, loads, isoNow, clock, None).written.value;
            && item[0].value == GetOr(body, "userId", PyNone)
            && item[2].value == (if Truthy(GetOr(body, "originalKey", PyNone)) then GetOr(body, "originalKey", PyNone) else PyStr(""))
            && item[3].value == GetOr(body, "processedKey", PyNone)
            && SameShape(GetOr(body, "metadata", PyDict([])), item[4].value)
  {
  }

  /** A bool anywhere in the metadata makes the save fail, with nothing written. */
  lemma BoolInMetadataFails(body: seq<Entry>, loads: string -> Py<PyValue>, isoNow: string, clock: real,
                            putError: Option<string>)
    requires Get(body, "body").None?
    requires Truthy(GetOr(body, "userId", PyNone)) && Truthy(GetOr(body, "processedKey", PyNone))
    requires HasBool(GetOr(body, "metadata", PyDict([])))
    ensures Handle(body, loads, isoNow, clock, putError)
            == Run(500, Failed("Failed to save image history: " + ConversionSyntax), None)
  {
  }
}

=== FILE: keycodec.dfy ===
/** The upload key as the channel between the two Lambdas: what
    `generate_object_key` writes when the browser asks for an upload slot,
    and what the image processor reads back from it when the object lands. */
module KeyCodec {
  import opened Text
  import opened PyValues
  import UrlQuote
  import PresignHandler
  import ImageProcessor

  /** The watermark the user asked for: the text when it is a non-empty
      string, nothing otherwise. */
  function Intended(watermark: PyValue): Option<string>
  {
    if watermark.PyStr? && Truthy(watermark) then Some(watermark.s) else None
  }

  /** The key built from string and int request fields. */
  function KeyOf(timestamp: int, filename: string, width: int, height: int, quality: int,
                 format: string, watermark: PyValue): string
    requires watermark.PyStr? || !Truthy(watermark)
  {
    PresignHandler.GenerateObjectKey(timestamp, PyStr(filename), PyInt(width), PyInt(height), PyInt(quality),
                                     PyStr(format), watermark).value
  }

  /** The watermark field holds neither '_' nor '/', and reads back as the
      intended watermark, when the text is free of '_' and is not 'none'. */
  lemma MarkReadsBack(watermark: PyValue)
    requires watermark.PyStr? || !Truthy(watermark)
    requires watermark.PyStr? ==> '_' !in watermark.s && watermark.s != "none"
    ensures var mark := PresignHandler.WatermarkField(watermark).value;
            '_' !in mark && '/' !in mark && ImageProcessor.WatermarkOf(mark) == Intended(watermark)
  {
    if Truthy(watermark) {
      var s := watermark.s;
      UrlQuote.QuotePlusUnderscore(s);
      UrlQuote.QuotePlusNone(s);
      UrlQuote.UnquotePlusQuotePlus(s);
    }
  }

  /** A field that neither splits the name nor the path. */
  predicate Free(field: string)
  {
    '_' !in field && '/' !in field
  }

  /** `str(i)` holds only digits and '-'. */
  lemma RenderedFree(i: int)
    ensures Free(IntToString(i)) && 'x' !in IntToString(i)
  {
  }

  lemma DimsFree(width: string, height: string)
    requires Free(width) && Free(height)
    ensures Free(width + "x" + height)
  {
  }

  /** Reading a key `uploads/h0_h1_h2_h3_h4_rest`: the fields are the five
      head fields followed by the pieces of `rest`, and the name the output
      key is built from is `rest`. */
  lemma ReadBack(head: seq<string>, rest: string)
    requires |head| == 5
    requires forall i :: 0 <= i < |head| ==> Free(head[i])
    requires '/' !in rest
    ensures ImageProcessor.KeyFields("uploads/" + Join(head + [rest], '_')) == head + Split(rest, '_')
    ensures ImageProcessor.CleanFilename(LastPiece("uploads/" + Join(head + [rest], '_'), '/')) == rest
  {
    var tail := Split(rest, '_');
    var fields := head + tail;
    SplitRest(head, rest);
    ImageProcessor.UploadKeyFields(fields);
    var name := Join(fields, '_');
    assert name[|Join(head, '_')|] == '_';
    assert fields[5..] == tail;
    JoinSplit(rest, '_');
  }

  /** The name `h0_..._h4_rest` is the join of the head fields and the pieces
      of `rest`, none of which holds '_' or '/'. */
  lemma SplitRest(head: seq<string>, rest: string)
    requires |head| == 5
    requires forall i :: 0 <= i < |head| ==> Free(head[i])
    requires '/' !in rest
    ensures Join(head + [rest], '_') == Join(head + Split(rest, '_'), '_') == Join(head, '_') + ['_'] + rest
    ensures forall i :: 0 <= i < |head + Split(rest, '_')| ==> Free((head + Split(rest, '_'))[i])
  {
    var tail := Split(rest, '_');
    JoinSplit(rest, '_');
    JoinAppend(head, [rest], '_');
    JoinAppend(head, tail, '_');
    assert Join([rest], '_') == rest;
    PiecesFree(head, rest);
  }

  lemma PiecesFree(head: seq<string>, rest: string)
    requires forall i :: 0 <= i < |head| ==> Free(head[i])
    requires '/' !in rest
    ensures forall i :: 0 <= i < |head + Split(rest, '_')| ==> Free((head + Split(rest, '_'))[i])
  {
    var tail := Split(rest, '_');
    SplitFree(rest, '_', '/');
    var fields := head + tail;
    forall i | 0 <= i < |fields| ensures Free(fields[i]) {
      if i < |head| {
        assert fields[i] == head[i];
      } else {
        assert fields[i] == tail[i - |head|];
      }
    }
  }

  /** Fields free of '_' and '/' make a free head `t_wxh_q_format_mark`. */
  lemma HeadFree(t: string, width: string, height: string, q: string, format: string, mark: string)
    requires Free(t) && Free(width) && Free(height) && Free(q) && Free(format) && Free(mark)
    ensures forall i :: 0 <= i < 5 ==> Free([t, width + "x" + height, q, format, mark][i])
  {
    DimsFree(width, height);
  }

  /** What the processor makes of `uploads/h0_h1_h2_h3_h4_rest` when the
      size and quality fields are rendered integers: the parameters in the
      head, and an output named after `rest`. */
  lemma ReadHead(head: seq<string>, rest: string, width: int, height: int, quality: int)
    requires |head| == 5
    requires forall i :: 0 <= i < |head| ==> Free(head[i])
    requires '/' !in rest
    requires head[1] == IntToString(width) + "x" + IntToString(height) && head[2] == IntToString(quality)
    ensures var key := "uploads/" + Join(head + [rest], '_');
            && ImageProcessor.GetImageMetadata(key)
               == ImageProcessor.Metadata(width, height, quality, head[3], ImageProcessor.WatermarkOf(head[4]))
            && ImageProcessor.OutputKey(key, head[3]) == "processed/" + BeforeLast(rest, '.') + "." + head[3]
  {
    ReadBack(head, rest);
    var fields := ImageProcessor.KeyFields("uploads/" + Join(head + [rest], '_'));
    assert fields[1] == head[1] && fields[2] == head[2] && fields[3] == head[3] && fields[4] == head[4];
    ImageProcessor.ParseSizeOfRendered(width, height);
    ParseIntOfIntToString(quality);
  }

  /** The round trip of the upload key: for a filename without '/', a
      format without '_' or '/' and a watermark that is absent or a text
      without '_' other than 'none', the processor reads back exactly the
      dimensions, quality, format and watermark the browser sent, and names
      the output after the filename with spaces turned into '_'. */
  lemma KeyRoundTrip(timestamp: int, filename: string, width: int, height: int, quality: int,
                     format: string, watermark: PyValue)
    requires '/' !in filename
    requires '_' !in format && '/' !in format
    requires watermark.PyStr? || !Truthy(watermark)
    requires watermark.PyStr? ==> '_' !in watermark.s && watermark.s != "none"
    ensures var key := KeyOf(timestamp, filename, width, height, quality, format, watermark);
            && ImageProcessor.GetImageMetadata(key)
               == ImageProcessor.Metadata(width, height, quality, format, Intended(watermark))
            && ImageProcessor.OutputKey(key, format)
               == "processed/" + BeforeLast(ReplaceChar(filename, ' ', '_'), '.') + "." + format
  {
    var t := IntToString(timestamp);
    var dims := IntToString(width) + "x" + IntToString(height);
    var q := IntToString(quality);
    var mark := PresignHandler.WatermarkField(watermark).value;
    var safe := ReplaceChar(filename, ' ', '_');
    var head := [t, dims, q, format, mark];
    PresignHandler.KeyLayout(timestamp, filename, width, height, quality, format, watermark);
    assert [t, dims, q, format, mark, safe] == head + [safe];
    MarkReadsBack(watermark);
    RenderedFree(timestamp);
    RenderedFree(width);
    RenderedFree(height);
    RenderedFree(quality);
    HeadFree(t, IntToString(width), IntToString(height), q, format, mark);
    assert '/' !in safe;
    ReadHead(head, safe, width, height, quality);
  }

  /** The key the tests of the upload handler build reads back as the
      parameters they sent. */
  lemma TestKeyRoundTrip(timestamp: int)
    ensures ImageProcessor.GetImageMetadata(KeyOf(timestamp, "test photo.jpg", 800, 600, 85, "jpeg", PyStr("ImageHub")))
            == ImageProcessor.Metadata(800, 600, 85, "jpeg", Some("ImageHub"))
  {
    TestFieldsFree();
    KeyRoundTrip(timestamp, "test photo.jpg", 800, 600, 85, "jpeg", PyStr("ImageHub"));
  }

  lemma TestFieldsFree()
    ensures '/' !in "test photo.jpg" && Free("jpeg") && Free("ImageHub") && "ImageHub" != "none"
    ensures Intended(PyStr("ImageHub")) == Some("ImageHub")
  {
  }

  // ---------------------------------------------------------------------
  // Where the round trip breaks
  // ---------------------------------------------------------------------

  /** A watermark holding '_' is cut at it: 'a_b' reads back as 'a', and the
      'b' ends up in front of the output file name. */
  lemma UnderscoreWatermarkCut(timestamp: int, filename: string, width: int, height: int, quality: int,
                               format: string)
    requires '/' !in filename
    requires '_' !in format && '/' !in format
    ensures var key := KeyOf(timestamp, filename, width, height, quality, format, PyStr("a_b"));
            && ImageProcessor.GetImageMetadata(key).watermark == Some("a")
            && ImageProcessor.OutputKey(key, format)
               == "processed/" + BeforeLast("b_" + ReplaceChar(filename, ' ', '_'), '.') + "." + format
  {
    var head := [IntToString(timestamp), IntToString(width) + "x" + IntToString(height),
                 IntToString(quality), format, "a"];
    var rest := "b_" + ReplaceChar(filename, ' ', '_');
    CutKeyLayout(timestamp, filename, width, height, quality, format);
    CutHeadFree(timestamp, width, height, quality, format);
    RestFree(filename);
    ReadHead(head, rest, width, height, quality);
    UnquotesA();
  }

  /** The five head fields of the cut key hold neither '_' nor '/'. */
  lemma CutHeadFree(timestamp: int, width: int, height: int, quality: int, format: string)
    requires '_' !in format && '/' !in format
    ensures var head := [IntToString(timestamp), IntToString(width) + "x" + IntToString(height),
                         IntToString(quality), format, "a"];
            forall i :: 0 <= i < |head| ==> Free(head[i])
  {
    RenderedFree(timestamp);
    RenderedFree(width);
    RenderedFree(height);
    RenderedFree(quality);
    HeadFree(IntToString(timestamp), IntToString(width), IntToString(height), IntToString(quality), format, "a");
  }

  /** The rest of the cut key holds no '/'. */
  lemma RestFree(filename: string)
    requires '/' !in filename
    ensures '/' !in "b_" + ReplaceChar(filename, ' ', '_')
  {
    var safe := ReplaceChar(filename, ' ', '_');
    assert forall i :: 0 <= i < |safe| ==> safe[i] != '/';
  }

  /** The key with watermark 'a_b' read as five fields and a rest 'b_...'. */
  lemma CutKeyLayout(timestamp: int, filename: string, width: int, height: int, quality: int, format: string)
    ensures KeyOf(timestamp, filename, width, height, quality, format, PyStr("a_b"))
            == "uploads/" + Join([IntToString(timestamp), IntToString(width) + "x" + IntToString(height),
                                  IntToString(quality), format, "a"] + ["b_" + ReplaceChar(filename, ' ', '_')], '_')
  {
    var t := IntToString(timestamp);
    var dims := IntToString(width) + "x" + IntToString(height);
    var q := IntToString(quality);
    var safe := ReplaceChar(filename, ' ', '_');
    QuotesAB();
    PresignHandler.KeyLayout(timestamp, filename, width, height, quality, format, PyStr("a_b"));
    CutLists(t, dims, q, format, safe);
    Regroup([t, dims, q, format], "a", "b", safe);
  }

  lemma CutLists(t: string, dims: string, q: string, format: string, safe: string)
    ensures [t, dims, q, format, "a_b", safe] == [t, dims, q, format] + ["a" + "_" + "b", safe]
    ensures [t, dims, q, format, "a"] + ["b_" + safe] == [t, dims, q, format] + ["a", "b" + "_" + safe]
  {
    assert "a_b" == "a" + "_" + "b";
    assert "b" + "_" + safe == "b_" + safe;
  }

  /** `front_(a_b)_safe` and `front_a_(b_safe)` are the same string. */
  lemma Regroup(front: seq<string>, a: string, b: string, safe: string)
    requires |front| >= 1
    ensures Join(front + [a + "_" + b, safe], '_') == Join(front + [a, b + "_" + safe], '_')
  {
    var x := a + "_" + b;
    var y := b + "_" + safe;
    JoinAppend(front, [x, safe], '_');
    JoinAppend(front, [a, y], '_');
    assert Join([x, safe], '_') == x + ['_'] + safe;
    assert Join([a, y], '_') == a + ['_'] + y;
    Reassociate(a, b, safe);
  }

  lemma Reassociate(a: string, b: string, c: string)
    ensures (a + "_" + b) + ['_'] + c == a + ['_'] + (b + "_" + c)
  {
  }

  lemma QuotesAB()
    ensures PresignHandler.WatermarkField(PyStr("a_b")) == Ok("a_b")
  {
    UrlQuote.QuotePlusUnreserved("a_b");
  }

  lemma UnquotesA()
    ensures ImageProcessor.WatermarkOf("a") == Some("a")
  {
    UrlQuote.QuotePlusUnreserved("a");
    UrlQuote.UnquotePlusQuotePlus("a");
  }

  /** The upload handler accepts `True` as a width (a bool is an int in
      Python), writes it as 'True', and the processor, unable to convert it,
      falls back to every default. */
  lemma BooleanWidthFallsBack(timestamp: int, filename: string, height: int, quality: int,
                              format: string, watermark: PyValue)
    requires '/' !in filename
    requires '_' !in format && '/' !in format
    requires watermark.PyStr? || !Truthy(watermark)
    requires watermark.PyStr? ==> '_' !in watermark.s && watermark.s != "none"
    ensures var key := PresignHandler.GenerateObjectKey(timestamp, PyStr(filename), PyBool(true), PyInt(height),
                                                        PyInt(quality), PyStr(format), watermark).value;
            ImageProcessor.GetImageMetadata(key) == ImageProcessor.Defaults
  {
    var dims := "True" + "x" + IntToString(height);
    var head := [IntToString(timestamp), dims, IntToString(quality), format,
                 PresignHandler.WatermarkField(watermark).value];
    var safe := ReplaceChar(filename, ' ', '_');
    BooleanWidthLayout(timestamp, filename, height, quality, format, watermark);
    MarkReadsBack(watermark);
    assert '/' !in safe;
    RenderedFree(timestamp);
    RenderedFree(height);
    RenderedFree(quality);
    HeadFree(IntToString(timestamp), "True", IntToString(height), IntToString(quality), format, head[4]);
    ReadBack(head, safe);
    assert ImageProcessor.KeyFields("uploads/" + Join(head + [safe], '_'))[1] == dims;
    TrueSizeFails(height);
  }

  lemma BooleanWidthLayout(timestamp: int, filename: string, height: int, quality: int,
                           format: string, watermark: PyValue)
    requires watermark.PyStr? || !Truthy(watermark)
    ensures PresignHandler.GenerateObjectKey(timestamp, PyStr(filename), PyBool(true), PyInt(height),
                                             PyInt(quality), PyStr(format), watermark).value
            == "uploads/" + Join([IntToString(timestamp), "True" + "x" + IntToString(height), IntToString(quality),
                                  format, PresignHandler.WatermarkField(watermark).value]
                                 + [ReplaceChar(filename, ' ', '_')], '_')
  {
    var head := [IntToString(timestamp), "True" + "x" + IntToString(height), IntToString(quality),
                 format, PresignHandler.WatermarkField(watermark).value];
    var safe := ReplaceChar(filename, ' ', '_');
    assert head + [safe] == [head[0], head[1], head[2], head[3], head[4], safe];
  }

  /** A size field 'Truex<h>' does not convert. */
  lemma TrueSizeFails(height: int)
    ensures ImageProcessor.ParseSize("True" + "x" + IntToString(height)).None?
  {
    RenderedFree(height);
    TrueIsNotANumber();
    LastPieceAfterSep("True", IntToString(height), 'x');
  }

  lemma TrueIsNotANumber()
    ensures ParseInt("True") == None
  {
    assert Trim("True", IsPythonSpace) == "True";
  }

  /** For the formats the upload handler accepts, the processed object is
      stored as `image/<format>` and saved under the upper-case name. */
  lemma AcceptedFormatsStoredAsSent(format: string, quality: int)
    requires format in PresignHandler.AllowedFormats
    ensures ImageProcessor.ContentTypeFor(format) == "image/" + format
    ensures ImageProcessor.SaveOptionsFor(format, quality).format == AsciiUpper(format)
    ensures ImageProcessor.SaveOptionsFor(format, quality).quality.Some? <==> format != "png"
  {
    assert AsciiLower(format) == format;
    if format == "jpeg" {
      assert AsciiUpper(format) == "JPEG";
    } else if format == "png" {
      assert AsciiUpper(format) == "PNG";
    } else {
      assert AsciiUpper(format) == "WEBP";
    }
  }
}

=== FILE: pipeline.dfy ===
/** The three parts side by side: the key the browser polls for after an
    upload, against the key the processor writes its result under. */
module Pipeline {
  import opened Text
  import opened PyValues
  import PresignHandler
  import ImageProcessor
  import KeyCodec
  import Api

  /** The summed length of the parts. */
  function Lengths(parts: seq<string>): nat
  {
    if |parts| == 0 then 0 else |parts[0]| + Lengths(parts[1..])
  }

  lemma {:induction false} JoinLength(parts: seq<string>, sep: char)
    requires |parts| >= 1
    ensures |Join(parts, sep)| == Lengths(parts) + |parts| - 1
  {
    if |parts| > 1 {
      JoinLength(parts[1..], sep);
    }
  }

  lemma {:induction false} LengthsAtLeastOne(parts: seq<string>, j: int)
    requires 0 <= j < |parts|
    ensures Lengths(parts) >= |parts[j]|
  {
    if j > 0 {
      LengthsAtLeastOne(parts[1..], j - 1);
    }
  }

  lemma {:induction false} LengthsAtLeastTwo(parts: seq<string>, i: int, j: int)
    requires 0 <= i < j < |parts|
    ensures Lengths(parts) >= |parts[i]| + |parts[j]|
  {
    if i > 0 {
      LengthsAtLeastTwo(parts[1..], i - 1, j - 1);
    } else {
      LengthsAtLeastOne(parts[1..], j - 1);
    }
  }

  /** For every key the upload handler hands out under the conditions of
      the key round trip, the browser waits for `processed/<whole key
      tail>`, while the processor stores `processed/<filename stem>.<format>`:
      the polled key is longer, so the poll can only end in its timeout. */
  lemma PolledKeyIsNeverWritten(timestamp: int, filename: string, width: int, height: int, quality: int,
                                format: string, watermark: PyValue)
    requires '/' !in filename
    requires '_' !in format && '/' !in format
    requires watermark.PyStr? || !Truthy(watermark)
    requires watermark.PyStr? ==> '_' !in watermark.s && watermark.s != "none"
    ensures var key := KeyCodec.KeyOf(timestamp, filename, width, height, quality, format, watermark);
            |Api.ProcessedKey(key)| > |ImageProcessor.OutputKey(key, format)|
  {
    var key := KeyCodec.KeyOf(timestamp, filename, width, height, quality, format, watermark);
    var safe := ReplaceChar(filename, ' ', '_');
    var fields := [IntToString(timestamp), IntToString(width) + "x" + IntToString(height), IntToString(quality),
                   format, PresignHandler.WatermarkField(watermark).value, safe];
    PresignHandler.KeyLayout(timestamp, filename, width, height, quality, format, watermark);
    assert key == "uploads/" + Join(fields, '_');
    Api.UploadKeyPolledUnderProcessed(Join(fields, '_'));
    KeyCodec.KeyRoundTrip(timestamp, filename, width, height, quality, format, watermark);
    JoinLength(fields, '_');
    LengthsAtLeastTwo(fields, 3, 5);
  }
}

=== FILE: presign.dfy ===
/** The presigned-URL Lambda: request validation, the object key that carries
    the transform parameters, and the choice of HTTP response. The S3 presign
    call is an outcome passed in; the clock is the value of `time.time()`. */
module PresignHandler {
  import opened Text
  import opened PyValues
  import UrlQuote

  const AllowedContentTypes: seq<string> := ["image/jpeg", "image/jpg", "image/png", "image/webp"]
  const AllowedFormats: seq<string> := ["jpeg", "png", "webp"]
  const DefaultWidth := 800
  const DefaultHeight := 600
  const DefaultQuality := 85
  const MaxDimension := 4000
  const UrlExpiration := 300

  // ---------------------------------------------------------------------
  // validate_request
  // ---------------------------------------------------------------------

  /** One violated rule of `validate_request`, in the order the rules run. */
  datatype RequestError =
    | FilenameRequired
    | ContentTypeRequired
    | ContentTypeNotAllowed
    | WidthOutOfRange
    | HeightOutOfRange
    | QualityOutOfRange
    | FormatNotAllowed
  {
    function Rank(): nat
    {
      match this
      case FilenameRequired => 0
      case ContentTypeRequired => 1
      case ContentTypeNotAllowed => 2
      case WidthOutOfRange => 3
      case HeightOutOfRange => 4
      case QualityOutOfRange => 5
      case FormatNotAllowed => 6
    }

    function Message(): string
    {
      match this
      case FilenameRequired => "filename is required"
      case ContentTypeRequired => "contentType is required"
      case ContentTypeNotAllowed => "contentType must be one of: image/jpeg, image/jpg, image/png, image/webp"
      case WidthOutOfRange => "width must be between 1 and 4000"
      case HeightOutOfRange => "height must be between 1 and 4000"
      case QualityOutOfRange => "quality must be between 1 and 100"
      case FormatNotAllowed => "format must be one of: jpeg, png, webp"
    }
  }

  /** `isinstance(v, int) and lo <= v <= hi`. */
  predicate IntIn(v: PyValue, lo: int, hi: int)
  {
    IsInt(v) && lo <= IntValue(v) <= hi
  }

  /** A string value equal to one of `allowed` (`v in allowed`). */
  predicate OneOf(v: PyValue, allowed: seq<string>)
  {
    v.PyStr? && v.s in allowed
  }

  /** Whether the request body breaks rule `e`, rule by rule. */
  predicate Violates(body: seq<Entry>, e: RequestError)
  {
    match e
    case FilenameRequired => !Truthy(GetOr(body, "filename", PyNone))
    case ContentTypeRequired => !Truthy(GetOr(body, "contentType", PyNone))
    case ContentTypeNotAllowed => !OneOf(GetOr(body, "contentType", PyNone), AllowedContentTypes)
    case WidthOutOfRange => !IntIn(GetOr(body, "width", PyInt(DefaultWidth)), 1, MaxDimension)
    case HeightOutOfRange => !IntIn(GetOr(body, "height", PyInt(DefaultHeight)), 1, MaxDimension)
    case QualityOutOfRange => !IntIn(GetOr(body, "quality", PyInt(DefaultQuality)), 1, 100)
    case FormatNotAllowed => !OneOf(GetOr(body, "format", PyStr("jpeg")), AllowedFormats)
  }

  /** The rules in the order `validate_request` checks them. */
  const Rules: seq<RequestError> := [FilenameRequired, ContentTypeRequired, ContentTypeNotAllowed,
                                     WidthOutOfRange, HeightOutOfRange, QualityOutOfRange, FormatNotAllowed]

  predicate RankIncreasing(errors: seq<RequestError>)
  {
    forall i, j :: 0 <= i < j < |errors| ==> errors[i].Rank() < errors[j].Rank()
  }

  /** Runs `rules` in order, keeping each one the body violates. */
  function Collect(body: seq<Entry>, rules: seq<RequestError>): (errors: seq<RequestError>)
    ensures forall e :: e in errors <==> e in rules && Violates(body, e)
    ensures RankIncreasing(rules) ==> RankIncreasing(errors)
  {
    if |rules| == 0 then []
    else
      var rest := Collect(body, rules[1..]);
      assert forall e :: e in rules <==> e == rules[0] || e in rules[1..];
      assert RankIncreasing(rules) ==> forall e :: e in rest ==> rules[0].Rank() < e.Rank();
      if Violates(body, rules[0]) then [rules[0]] + rest else rest
  }

  /** `validate_request(body)`: every rule runs and every violation is kept,
      in rule order. */
  function ValidateRequest(body: seq<Entry>): (errors: seq<RequestError>)
    ensures forall e :: e in errors <==> Violates(body, e)
    ensures RankIncreasing(errors)
  {
    assert forall e: RequestError :: e in Rules by {
      forall e: RequestError ensures e in Rules {
        RuleListed(e);
      }
    }
    Collect(body, Rules)
  }

  /** Every rule is in `Rules`, at the index of its rank. */
  lemma RuleListed(e: RequestError)
    ensures e.Rank() < |Rules| && Rules[e.Rank()] == e
  {
  }

  // ---------------------------------------------------------------------
  // generate_object_key
  // ---------------------------------------------------------------------

  /** `str(e)` of the TypeError `quote_plus` raises on anything that is
      neither a string nor bytes. */
  const QuoteTypeError := "quote_from_bytes() expected bytes"

  /** The watermark field of the key: `quote_plus(w)` if `w` else 'none'. */
  function WatermarkField(watermark: PyValue): (r: Py<string>)
    ensures r.Ok? <==> watermark.PyStr? || !Truthy(watermark)
    ensures r.Raises? ==> r.exception == QuoteTypeError
  {
    if !Truthy(watermark) then Ok("none")
    else if watermark.PyStr? then Ok(UrlQuote.QuotePlus(watermark.s))
    else Raises(QuoteTypeError)
  }

  /** `generate_object_key(...)` at clock reading `timestamp`. The numeric
      fields and the format are rendered with `str()`. */
  function GenerateObjectKey(timestamp: int, filename: PyValue, width: PyValue, height: PyValue,
                             quality: PyValue, outputFormat: PyValue, watermark: PyValue): (r: Py<string>)
    requires IsRenderable(width) && IsRenderable(height) && IsRenderable(quality) && IsRenderable(outputFormat)
    ensures r.Ok? <==> filename.PyStr? && (watermark.PyStr? || !Truthy(watermark))
    ensures r.Raises? && !(watermark.PyStr? || !Truthy(watermark)) ==> r.exception == QuoteTypeError
    ensures (watermark.PyStr? || !Truthy(watermark)) && !filename.PyStr? ==> r == Raises(NoAttribute(filename, "replace"))
  {
    match WatermarkField(watermark)
    case Raises(x) => Raises(x)
    case Ok(mark) =>
      if !filename.PyStr? then Raises(NoAttribute(filename, "replace"))
      else
        var safeFilename := ReplaceChar(filename.s, ' ', '_');
        Ok("uploads/" + Join([IntToString(timestamp), Render(width) + "x" + Render(height), Render(quality),
                              Render(outputFormat), mark, safeFilename], '_'))
  }

  // ---------------------------------------------------------------------
  // handler
  // ---------------------------------------------------------------------

  /** `event.get('body', '{}')` as seen by `json.loads`: no body, a body
      of None, text that parsed to a value (`None` when it is not JSON, which
      raises JSONDecodeError), or text on which `json.loads` raised some
      other exception, such as RecursionError on deep nesting or ValueError
      on an integer literal too long to convert. */
  datatype EventBody = NoBody | NullBody | BodyText(parsed: Option<PyValue>) | LoadsRaised(message: string)

  /** `str(e)` of the TypeError `json.loads(None)` raises. */
  const NullBodyMessage := "the JSON object must be str, bytes or bytearray, not NoneType"

  datatype ReplyBody =
    | ValidationFailed(errors: seq<string>)
    | UploadSlot(uploadUrl: string, key: string, expiresIn: int)
    | InvalidJson
    | ServerError(error: string)

  datatype Reply = Reply(statusCode: int, body: ReplyBody)

  /** What the handler asks S3 to presign. */
  datatype PresignRequest = PresignRequest(key: string, contentType: string, expiresIn: int)

  /** The reply and the presign request the handler issued, if any. */
  datatype Run = Run(reply: Reply, presigned: Option<PresignRequest>)

  function Messages(errors: seq<RequestError>): (r: seq<string>)
    ensures |r| == |errors| && forall i :: 0 <= i < |r| ==> r[i] == errors[i].Message()
  {
    seq(|errors|, i requires 0 <= i < |errors| => errors[i].Message())
  }

  /** The key the handler derives from a body that passed validation; it
      raises only on a truthy watermark that is not a string, or else on a
      filename that is not a string. */
  function KeyFor(now: real, body: seq<Entry>): (r: Py<string>)
    requires ValidateRequest(body) == []
    ensures var watermark := GetOr(body, "watermark", PyStr(""));
            && (!watermark.PyStr? && Truthy(watermark) ==> r == Raises(QuoteTypeError))
            && ((watermark.PyStr? || !Truthy(watermark)) && !GetOr(body, "filename", PyNone).PyStr? ==>
                  r == Raises(NoAttribute(GetOr(body, "filename", PyNone), "replace")))
            && (r.Ok? <==> (watermark.PyStr? || !Truthy(watermark)) && GetOr(body, "filename", PyNone).PyStr?)
  {
    var width := GetOr(body, "width", PyInt(DefaultWidth));
    var height := GetOr(body, "height", PyInt(DefaultHeight));
    var quality := GetOr(body, "quality", PyInt(DefaultQuality));
    var format := GetOr(body, "format", PyStr("jpeg"));
    assert !Violates(body, WidthOutOfRange) && !Violates(body, HeightOutOfRange);
    assert !Violates(body, QualityOutOfRange) && !Violates(body, FormatNotAllowed);
    assert IsRenderable(width) && IsRenderable(height) && IsRenderable(quality) && IsRenderable(format);
    GenerateObjectKey(TruncateFloat(now), GetOr(body, "filename", PyNone), width, height, quality, format,
                      GetOr(body, "watermark", PyStr("")))
  }

  /** `handler(event, context)` with clock reading `now` and the outcome of
      `generate_presigned_url`. */
  function Handle(event: EventBody, now: real, presignOutcome: Py<string>): (run: Run)
    ensures run.presigned.Some? ==> run.reply.statusCode == 200 || run.reply.body.ServerError?
    ensures run.reply.statusCode == 200 <==> run.reply.body.UploadSlot?
    ensures run.reply.statusCode == 200 ==> run.presigned.Some? && run.presigned.value.key == run.reply.body.key
    ensures event == BodyText(None) ==> run == Run(Reply(400, InvalidJson), None)
    ensures event == NoBody ==> run.reply.statusCode == 400 && run.presigned.None?
    ensures event == NullBody ==> run == Run(Reply(500, ServerError(NullBodyMessage)), None)
    ensures event.LoadsRaised? ==> run == Run(Reply(500, ServerError(event.message)), None)
    ensures event.BodyText? && event.parsed.Some? && !event.parsed.value.PyDict? ==>
              run == Run(Reply(500, ServerError(NoAttribute(event.parsed.value, "get"))), None)
  {
    match event
    case BodyText(None) => Run(Reply(400, InvalidJson), None)
    case NullBody => Run(Reply(500, ServerError(NullBodyMessage)), None)
    case LoadsRaised(message) => Run(Reply(500, ServerError(message)), None)
    case NoBody => Respond([], now, presignOutcome)
    case BodyText(Some(parsed)) =>
      if !parsed.PyDict? then Run(Reply(500, ServerError(NoAttribute(parsed, "get"))), None)
      else Respond(parsed.entries, now, presignOutcome)
  }

  /** The handler once the body is a dict. */
  function Respond(body: seq<Entry>, now: real, presignOutcome: Py<string>): (run: Run)
    ensures run.presigned.Some? ==> run.reply.statusCode == 200 || run.reply.body.ServerError?
    ensures run.reply.statusCode == 200 <==> run.reply.body.UploadSlot?
    ensures run.reply.statusCode == 200 ==> run.presigned.Some? && run.presigned.value.key == run.reply.body.key
    ensures run.reply.statusCode == 400 <==> ValidateRequest(body) != []
    ensures ValidateRequest(body) == [] && KeyFor(now, body).Raises? ==>
              run == Run(Reply(500, ServerError(KeyFor(now, body).exception)), None)
    ensures ValidateRequest(body) == [] && KeyFor(now, body).Ok? && presignOutcome.Raises? ==>
              run.reply == Reply(500, ServerError(presignOutcome.exception)) && run.presigned.Some?
  {
    var errors := ValidateRequest(body);
    if errors != [] then Run(Reply(400, ValidationFailed(Messages(errors))), None)
    else
      match KeyFor(now, body)
      case Raises(x) => Run(Reply(500, ServerError(x)), None)
      case Ok(key) =>
        var contentType := GetOr(body, "contentType", PyNone);
        assert contentType.PyStr? by { assert !Violates(body, ContentTypeNotAllowed); }
        var request := PresignRequest(key, contentType.s, UrlExpiration);
        match presignOutcome
        case Raises(x) => Run(Reply(500, ServerError(x)), Some(request))
        case Ok(url) => Run(Reply(200, UploadSlot(url, key, UrlExpiration)), Some(request))
  }

  // ---------------------------------------------------------------------
  // Properties
  // ---------------------------------------------------------------------

  /** A body that fails validation gets 400 with every message, and no
      presign call is made. */
  lemma RejectedBodyNeverPresigned(entries: seq<Entry>, now: real, presignOutcome: Py<string>)
    requires ValidateRequest(entries) != []
    ensures Handle(BodyText(Some(PyDict(entries))), now, presignOutcome)
            == Run(Reply(400, ValidationFailed(Messages(ValidateRequest(entries)))), None)
  {
  }

  /** A valid body gets 200 with the generated key and the presigned URL. */
  lemma AcceptedBodyGetsGeneratedKey(entries: seq<Entry>, now: real, url: string)
    requires ValidateRequest(entries) == []
    requires KeyFor(now, entries).Ok?
    ensures Handle(BodyText(Some(PyDict(entries))), now, Ok(url)).reply
            == Reply(200, UploadSlot(url, KeyFor(now, entries).value, UrlExpiration))
  {
  }

  /** A valid body whose watermark is truthy but not a string gets 500 with
      `quote_plus`'s TypeError text, and nothing is presigned. */
  lemma UnquotableWatermarkServerError(entries: seq<Entry>, now: real, presignOutcome: Py<string>)
    requires ValidateRequest(entries) == []
    requires Get(entries, "watermark").Some? && Truthy(Get(entries, "watermark").value)
    requires !Get(entries, "watermark").value.PyStr?
    ensures Handle(BodyText(Some(PyDict(entries))), now, presignOutcome)
            == Run(Reply(500, ServerError(QuoteTypeError)), None)
  {
  }

  /** The keys the handler reads from the body. */
  const ReadKeys: seq<string> := ["filename", "contentType", "width", "height", "quality", "format", "watermark"]

  /** Two bodies that agree on every key the handler reads get the same run. */
  lemma SameReadKeysSameRun(a: seq<Entry>, b: seq<Entry>, now: real, presignOutcome: Py<string>)
    requires forall i :: 0 <= i < |ReadKeys| ==> Get(a, ReadKeys[i]) == Get(b, ReadKeys[i])
    ensures Handle(BodyText(Some(PyDict(a))), now, presignOutcome) == Handle(BodyText(Some(PyDict(b))), now, presignOutcome)
  {
    SameReadKeysSameResponse(a, b, now, presignOutcome);
  }

  lemma SameReadKeysSameResponse(a: seq<Entry>, b: seq<Entry>, now: real, presignOutcome: Py<string>)
    requires forall i :: 0 <= i < |ReadKeys| ==> Get(a, ReadKeys[i]) == Get(b, ReadKeys[i])
    ensures Respond(a, now, presignOutcome) == Respond(b, now, presignOutcome)
  {
    ReadKeysAgree(a, b);
    SameRuleFieldsSameErrors(a, b);
    if ValidateRequest(a) == [] {
      assert KeyFor(now, a) == KeyFor(now, b);
      assert GetOr(a, "contentType", PyNone) == GetOr(b, "contentType", PyNone);
    }
  }

  lemma ReadKeysAgree(a: seq<Entry>, b: seq<Entry>)
    requires forall i :: 0 <= i < |ReadKeys| ==> Get(a, ReadKeys[i]) == Get(b, ReadKeys[i])
    ensures Get(a, "filename") == Get(b, "filename") && Get(a, "contentType") == Get(b, "contentType")
    ensures Get(a, "width") == Get(b, "width") && Get(a, "height") == Get(b, "height")
    ensures Get(a, "quality") == Get(b, "quality") && Get(a, "format") == Get(b, "format")
    ensures Get(a, "watermark") == Get(b, "watermark")
  {
    assert Get(a, "filename") == Get(b, "filename") by { assert ReadKeys[0] == "filename"; }
    assert Get(a, "contentType") == Get(b, "contentType") by { assert ReadKeys[1] == "contentType"; }
    assert Get(a, "width") == Get(b, "width") by { assert ReadKeys[2] == "width"; }
    assert Get(a, "height") == Get(b, "height") by { assert ReadKeys[3] == "height"; }
    assert Get(a, "quality") == Get(b, "quality") by { assert ReadKeys[4] == "quality"; }
    assert Get(a, "format") == Get(b, "format") by { assert ReadKeys[5] == "format"; }
    assert Get(a, "watermark") == Get(b, "watermark") by { assert ReadKeys[6] == "watermark"; }
  }

  /** Validation reads six keys and nothing else. */
  lemma SameRuleFieldsSameErrors(a: seq<Entry>, b: seq<Entry>)
    requires Get(a, "filename") == Get(b, "filename") && Get(a, "contentType") == Get(b, "contentType")
    requires Get(a, "width") == Get(b, "width") && Get(a, "height") == Get(b, "height")
    requires Get(a, "quality") == Get(b, "quality") && Get(a, "format") == Get(b, "format")
    ensures ValidateRequest(a) == ValidateRequest(b)
  {
    forall e ensures Violates(a, e) == Violates(b, e) {
      SameRuleFieldsSameViolation(a, b, e);
    }
    RankedUnique(ValidateRequest(a), ValidateRequest(b));
  }

  lemma SameRuleFieldsSameViolation(a: seq<Entry>, b: seq<Entry>, e: RequestError)
    requires Get(a, "filename") == Get(b, "filename") && Get(a, "contentType") == Get(b, "contentType")
    requires Get(a, "width") == Get(b, "width") && Get(a, "height") == Get(b, "height")
    requires Get(a, "quality") == Get(b, "quality") && Get(a, "format") == Get(b, "format")
    ensures Violates(a, e) == Violates(b, e)
  {
  }

  /** Any `key` the client sends is ignored: adding one to the body changes
      nothing in the run. */
  lemma ClientKeyIgnored(entries: seq<Entry>, clientKey: PyValue, now: real, presignOutcome: Py<string>)
    ensures Handle(BodyText(Some(PyDict(entries + [Entry("key", clientKey)]))), now, presignOutcome)
            == Handle(BodyText(Some(PyDict(entries))), now, presignOutcome)
  {
    forall i | 0 <= i < |ReadKeys|
      ensures Get(entries + [Entry("key", clientKey)], ReadKeys[i]) == Get(entries, ReadKeys[i])
    {
      GetIgnoresOtherKey(entries, Entry("key", clientKey), ReadKeys[i]);
    }
    SameReadKeysSameRun(entries + [Entry("key", clientKey)], entries, now, presignOutcome);
  }

  lemma {:induction false} GetIgnoresOtherKey(entries: seq<Entry>, extra: Entry, k: string)
    requires extra.key != k
    ensures Get(entries + [extra], k) == Get(entries, k)
    decreases |entries|
  {
    if |entries| == 0 {
      assert entries + [extra] == [extra];
    } else {
      assert (entries + [extra])[1..] == entries[1..] + [extra];
      GetIgnoresOtherKey(entries[1..], extra, k);
    }
  }

  /** Two error lists in rule order with the same members are the same list. */
  lemma {:induction false} RankedUnique(a: seq<RequestError>, b: seq<RequestError>)
    requires RankIncreasing(a) && RankIncreasing(b)
    requires forall e :: e in a <==> e in b
    ensures a == b
    decreases |a|
  {
    if |a| == 0 {
      HeadIn(b);
    } else {
      assert a[0] in b;
      assert b[0] in a;
      assert a[0].Rank() == b[0].Rank();
      assert a[0] == b[0] by {
        match a[0]
        case FilenameRequired =>
        case ContentTypeRequired =>
        case ContentTypeNotAllowed =>
        case WidthOutOfRange =>
        case HeightOutOfRange =>
        case QualityOutOfRange =>
        case FormatNotAllowed =>
      }
      forall e ensures e in a[1..] <==> e in b[1..] {
        if e in a[1..] {
          LaterElement(a, b, e);
        }
        if e in b[1..] {
          LaterElement(b, a, e);
        }
      }
      RankedUnique(a[1..], b[1..]);
      assert a == [a[0]] + a[1..] && b == [b[0]] + b[1..];
    }
  }

  lemma HeadIn(b: seq<RequestError>)
    ensures |b| > 0 ==> b[0] in b
  {
  }

  lemma LaterElement(a: seq<RequestError>, b: seq<RequestError>, e: RequestError)
    requires RankIncreasing(a) && |a| > 0 && |b| > 0 && a[0] == b[0]
    requires forall x :: x in a <==> x in b
    requires e in a[1..]
    ensures e in b[1..]
  {
    var i :| 0 <= i < |a[1..]| && a[1..][i] == e;
    assert a[i + 1] == e;
    assert e != a[0];
    assert e in b;
    var j :| 0 <= j < |b| && b[j] == e;
    assert j != 0;
    assert b[1..][j - 1] == e;
  }

  /** Ranks that rise from each error to the next rise throughout. */
  lemma {:induction false} RankedByNeighbours(errors: seq<RequestError>)
    requires forall i :: 0 <= i < |errors| - 1 ==> errors[i].Rank() < errors[i + 1].Rank()
    ensures RankIncreasing(errors)
  {
    if |errors| > 1 {
      RankedByNeighbours(errors[1..]);
      assert forall j :: 1 <= j < |errors| ==> errors[0].Rank() < errors[j].Rank() by {
        forall j | 1 <= j < |errors| ensures errors[0].Rank() < errors[j].Rank() {
          if j > 1 {
            assert errors[1..][0] == errors[1] && errors[1..][j - 1] == errors[j];
          }
        }
      }
    }
  }

  lemma ExpectedErrorsRanked(expected: seq<RequestError>)
    requires expected == [FilenameRequired, ContentTypeNotAllowed, WidthOutOfRange, QualityOutOfRange]
    ensures RankIncreasing(expected)
  {
    assert expected[0].Rank() < expected[1].Rank() < expected[2].Rank() < expected[3].Rank();
    RankedByNeighbours(expected);
  }

  lemma ValidateRequestIs(body: seq<Entry>, expected: seq<RequestError>)
    requires RankIncreasing(expected)
    requires forall e :: e in expected <==> Violates(body, e)
    ensures ValidateRequest(body) == expected
  {
    RankedUnique(ValidateRequest(body), expected);
  }

  /** A missing contentType breaks both the presence rule and the allow-list. */
  lemma MissingContentTypeTwoErrors(entries: seq<Entry>)
    requires Get(entries, "contentType").None?
    ensures ContentTypeRequired in ValidateRequest(entries)
    ensures ContentTypeNotAllowed in ValidateRequest(entries)
  {
  }

  /** Python's `isinstance(True, int)`: a JSON `true` width passes validation. */
  lemma BooleanWidthAccepted(entries: seq<Entry>)
    requires Get(entries, "width") == Some(PyBool(true))
    ensures WidthOutOfRange !in ValidateRequest(entries)
  {
  }

  /** The fields of the valid body of the test suite. */
  lemma ValidTestBodyFields(body: seq<Entry>)
    requires body == [Entry("filename", PyStr("test.jpg")), Entry("contentType", PyStr("image/jpeg")),
                      Entry("width", PyInt(800)), Entry("height", PyInt(600)),
                      Entry("quality", PyInt(85)), Entry("format", PyStr("jpeg"))]
    ensures GetOr(body, "filename", PyNone) == PyStr("test.jpg")
    ensures GetOr(body, "contentType", PyNone) == PyStr("image/jpeg")
    ensures GetOr(body, "width", PyInt(DefaultWidth)) == PyInt(800)
    ensures GetOr(body, "height", PyInt(DefaultHeight)) == PyInt(600)
    ensures GetOr(body, "quality", PyInt(DefaultQuality)) == PyInt(85)
    ensures GetOr(body, "format", PyStr("jpeg")) == PyStr("jpeg")
  {
    assert DistinctKeys(body);
    GetDistinct(body, 0);
    GetDistinct(body, 1);
    GetDistinct(body, 2);
    GetDistinct(body, 3);
    GetDistinct(body, 4);
    GetDistinct(body, 5);
  }

  /** The valid body of the test suite yields no error. */
  lemma ValidTestBody(body: seq<Entry>)
    requires body == [Entry("filename", PyStr("test.jpg")), Entry("contentType", PyStr("image/jpeg")),
                      Entry("width", PyInt(800)), Entry("height", PyInt(600)),
                      Entry("quality", PyInt(85)), Entry("format", PyStr("jpeg"))]
    ensures ValidateRequest(body) == []
  {
    ValidTestBodyFields(body);
    ValidFieldsNoErrors(body);
  }

  /** A body read as the valid test body has no error. */
  lemma ValidFieldsNoErrors(body: seq<Entry>)
    requires GetOr(body, "filename", PyNone) == PyStr("test.jpg")
    requires GetOr(body, "contentType", PyNone) == PyStr("image/jpeg")
    requires GetOr(body, "width", PyInt(DefaultWidth)) == PyInt(800)
    requires GetOr(body, "height", PyInt(DefaultHeight)) == PyInt(600)
    requires GetOr(body, "quality", PyInt(DefaultQuality)) == PyInt(85)
    requires GetOr(body, "format", PyStr("jpeg")) == PyStr("jpeg")
    ensures ValidateRequest(body) == []
  {
    assert "image/jpeg" in AllowedContentTypes;
    assert "jpeg" in AllowedFormats;
    forall e ensures !Violates(body, e) {
      match e
      case FilenameRequired =>
      case ContentTypeRequired =>
      case ContentTypeNotAllowed =>
      case WidthOutOfRange =>
      case HeightOutOfRange =>
      case QualityOutOfRange =>
      case FormatNotAllowed =>
    }
    ValidateRequestIs(body, []);
  }

  /** The fields of the invalid body of the test suite. */
  lemma InvalidTestBodyFields(body: seq<Entry>)
    requires body == [Entry("filename", PyStr("")), Entry("contentType", PyStr("image/gif")),
                      Entry("width", PyInt(5000)), Entry("quality", PyInt(101))]
    ensures GetOr(body, "filename", PyNone) == PyStr("")
    ensures GetOr(body, "contentType", PyNone) == PyStr("image/gif")
    ensures GetOr(body, "width", PyInt(DefaultWidth)) == PyInt(5000)
    ensures GetOr(body, "height", PyInt(DefaultHeight)) == PyInt(DefaultHeight)
    ensures GetOr(body, "quality", PyInt(DefaultQuality)) == PyInt(101)
    ensures GetOr(body, "format", PyStr("jpeg")) == PyStr("jpeg")
  {
    assert DistinctKeys(body);
    GetDistinct(body, 0);
    GetDistinct(body, 1);
    GetDistinct(body, 2);
    GetDistinct(body, 3);
    InvalidTestBodyAbsent(body);
  }

  lemma InvalidTestBodyAbsent(body: seq<Entry>)
    requires body == [Entry("filename", PyStr("")), Entry("contentType", PyStr("image/gif")),
                      Entry("width", PyInt(5000)), Entry("quality", PyInt(101))]
    ensures Get(body, "height").None? && Get(body, "format").None?
  {
    assert forall i :: 0 <= i < |body| ==> body[i].key != "height" && body[i].key != "format";
  }

  /** The invalid body of the test suite yields exactly the filename,
      contentType, width and quality errors, in that order. */
  lemma InvalidTestBody(body: seq<Entry>)
    requires body == [Entry("filename", PyStr("")), Entry("contentType", PyStr("image/gif")),
                      Entry("width", PyInt(5000)), Entry("quality", PyInt(101))]
    ensures ValidateRequest(body) == [FilenameRequired, ContentTypeNotAllowed, WidthOutOfRange, QualityOutOfRange]
  {
    InvalidTestBodyFields(body);
    InvalidFieldsErrors(body);
  }

  /** A body read as the invalid test body: empty filename, a GIF, width
      5000, no height, quality 101, no format. */
  lemma InvalidFieldsErrors(body: seq<Entry>)
    requires GetOr(body, "filename", PyNone) == PyStr("")
    requires GetOr(body, "contentType", PyNone) == PyStr("image/gif")
    requires GetOr(body, "width", PyInt(DefaultWidth)) == PyInt(5000)
    requires GetOr(body, "height", PyInt(DefaultHeight)) == PyInt(DefaultHeight)
    requires GetOr(body, "quality", PyInt(DefaultQuality)) == PyInt(101)
    requires GetOr(body, "format", PyStr("jpeg")) == PyStr("jpeg")
    ensures ValidateRequest(body) == [FilenameRequired, ContentTypeNotAllowed, WidthOutOfRange, QualityOutOfRange]
  {
    var expected := [FilenameRequired, ContentTypeNotAllowed, WidthOutOfRange, QualityOutOfRange];
    assert "image/gif" !in AllowedContentTypes;
    assert "jpeg" in AllowedFormats;
    forall e ensures e in expected <==> Violates(body, e) {
      match e
      case FilenameRequired =>
      case ContentTypeRequired =>
      case ContentTypeNotAllowed =>
      case WidthOutOfRange =>
      case HeightOutOfRange =>
      case QualityOutOfRange =>
      case FormatNotAllowed =>
    }
    ExpectedErrorsRanked(expected);
    ValidateRequestIs(body, expected);
  }

  /** The layout of a key built from a string filename, int dimensions and
      quality, a string format and a string or absent watermark. */
  lemma KeyLayout(timestamp: int, filename: string, width: int, height: int, quality: int,
                  outputFormat: string, watermark: PyValue)
    requires watermark.PyStr? || !Truthy(watermark)
    ensures GenerateObjectKey(timestamp, PyStr(filename), PyInt(width), PyInt(height), PyInt(quality),
                              PyStr(outputFormat), watermark)
         == Ok("uploads/" + Join([IntToString(timestamp), IntToString(width) + "x" + IntToString(height),
                                  IntToString(quality), outputFormat, WatermarkField(watermark).value,
                                  ReplaceChar(filename, ' ', '_')], '_'))
  {
  }

  lemma Renders800x600() ensures IntToString(800) + "x" + IntToString(600) == "800x600"
  {
    NatToStringOfDigits("800");
    NatToStringOfDigits("600");
  }

  lemma Renders85() ensures IntToString(85) == "85"
  {
    NatToStringOfDigits("85");
  }

  lemma Renders1024x768() ensures IntToString(1024) + "x" + IntToString(768) == "1024x768"
  {
    NatToStringOfDigits("1024");
    NatToStringOfDigits("768");
  }

  lemma Renders90() ensures IntToString(90) == "90"
  {
    NatToStringOfDigits("90");
  }

  lemma SafeTestPhoto() ensures ReplaceChar("test photo.jpg", ' ', '_') == "test_photo.jpg"
  {
  }

  lemma ImageHubUnreserved() ensures UrlQuote.AllUnreserved("ImageHub")
  {
  }

  lemma QuotedImageHub() ensures WatermarkField(PyStr("ImageHub")) == Ok("ImageHub")
  {
    ImageHubUnreserved();
    UrlQuote.QuotePlusUnreserved("ImageHub");
  }

  /** The key of the test suite: spaces in the filename become '_'. */
  lemma TestObjectKey(timestamp: int)
    ensures GenerateObjectKey(timestamp, PyStr("test photo.jpg"), PyInt(800), PyInt(600), PyInt(85),
                              PyStr("jpeg"), PyStr("ImageHub"))
            == Ok("uploads/" + Join([IntToString(timestamp), "800x600", "85", "jpeg", "ImageHub", "test_photo.jpg"], '_'))
  {
    var t := IntToString(timestamp);
    KeyLayout(timestamp, "test photo.jpg", 800, 600, 85, "jpeg", PyStr("ImageHub"));
    Renders800x600();
    Renders85();
    SafeTestPhoto();
    QuotedImageHub();
    assert [t, IntToString(800) + "x" + IntToString(600), IntToString(85), "jpeg", WatermarkField(PyStr("ImageHub")).value,
            ReplaceChar("test photo.jpg", ' ', '_')]
        == [t, "800x600", "85", "jpeg", "ImageHub", "test_photo.jpg"];
  }

  /** No watermark is written as 'none'. */
  lemma TestObjectKeyNoWatermark(timestamp: int)
    ensures GenerateObjectKey(timestamp, PyStr("test.jpg"), PyInt(1024), PyInt(768), PyInt(90),
                              PyStr("png"), PyNone)
            == Ok("uploads/" + Join([IntToString(timestamp), "1024x768", "90", "png", "none", "test.jpg"], '_'))
  {
    var t := IntToString(timestamp);
    KeyLayout(timestamp, "test.jpg", 1024, 768, 90, "png", PyNone);
    Renders1024x768();
    Renders90();
    NoneMark();
    SafeTestJpg();
    assert [t, IntToString(1024) + "x" + IntToString(768), IntToString(90), "png", WatermarkField(PyNone).value,
            ReplaceChar("test.jpg", ' ', '_')]
        == [t, "1024x768", "90", "png", "none", "test.jpg"];
  }

  lemma NoneMark() ensures WatermarkField(PyNone) == Ok("none")
  {
  }

  lemma SafeTestJpg() ensures ReplaceChar("test.jpg", ' ', '_') == "test.jpg"
  {
    ReplaceCharAbsent("test.jpg", ' ', '_');
  }
}

=== FILE: processor.dfy ===
/** The image-processor Lambda without the image work: reading the transform
    parameters back out of the upload key (`get_image_metadata`), the save
    options and processing steps chosen from them (`process_image`), and the
    key, content type and reply of the processed object (`handler`). The S3
    calls and the image library are outcomes passed in. */
module ImageProcessor {
  import opened Text
  import UrlQuote

  const DefaultWidth := 800
  const DefaultHeight := 600
  const DefaultQuality := 85
  const ProcessedBucket := "imagehub-processed-images"
  const CacheControl := "max-age=31536000"

  /** The transform parameters `get_image_metadata` returns. */
  datatype Metadata = Metadata(width: int, height: int, quality: int, format: string, watermark: Option<string>)

  const Defaults := Metadata(DefaultWidth, DefaultHeight, DefaultQuality, "jpeg", None)

  // ---------------------------------------------------------------------
  // get_image_metadata
  // ---------------------------------------------------------------------

  /** `key.split('/')[-1].split('_')`. */
  function KeyFields(key: string): (parts: seq<string>)
    ensures |parts| >= 1 && forall i :: 0 <= i < |parts| ==> '_' !in parts[i]
  {
    Split(LastPiece(key, '/'), '_')
  }

  /** `width, height = map(int, field.split('x'))`; None where Python raises. */
  function ParseSize(field: string): (r: Option<(int, int)>)
    ensures r.Some? <==> |Split(field, 'x')| == 2
                         && ParseInt(Split(field, 'x')[0]).Some? && ParseInt(Split(field, 'x')[1]).Some?
  {
    var dims := Split(field, 'x');
    if |dims| != 2 then None
    else
      match (ParseInt(dims[0]), ParseInt(dims[1]))
      case (Some(w), Some(h)) => Some((w, h))
      case _ => None
  }

  /** The watermark field: 'none' is no watermark, anything else is unquoted. */
  function WatermarkOf(field: string): (r: Option<string>)
    ensures r.None? <==> field == "none"
  {
    if field == "none" then None else Some(UrlQuote.UnquotePlus(field))
  }

  /** The parse of the fields when every conversion succeeds. */
  function ParseFields(parts: seq<string>): Option<Metadata>
  {
    if |parts| < 5 then None
    else
      match (ParseSize(parts[1]), ParseInt(parts[2]))
      case (Some((w, h)), Some(q)) => Some(Metadata(w, h, q, parts[3], WatermarkOf(parts[4])))
      case _ => None
  }

  /** `get_image_metadata(key)`: the parameters written in the key, or the
      defaults when there are fewer than five fields or a number does not
      convert. The timestamp field is not read and the format is not checked. */
  function GetImageMetadata(key: string): (m: Metadata)
    ensures |KeyFields(key)| < 5 ==> m == Defaults
    ensures |KeyFields(key)| >= 5 && ParseSize(KeyFields(key)[1]).Some? && ParseInt(KeyFields(key)[2]).Some? ==>
              && (m.width, m.height) == ParseSize(KeyFields(key)[1]).value
              && m.quality == ParseInt(KeyFields(key)[2]).value
              && m.format == KeyFields(key)[3]
              && m.watermark == WatermarkOf(KeyFields(key)[4])
    ensures |KeyFields(key)| >= 5 && (ParseSize(KeyFields(key)[1]).None? || ParseInt(KeyFields(key)[2]).None?) ==>
              m == Defaults
  {
    match ParseFields(KeyFields(key))
    case Some(m) => m
    case None => Defaults
  }

  /** The fields of a key `uploads/f0_f1_..._fn` whose fields hold neither
      '_' nor '/'. */
  lemma UploadKeyFields(fields: seq<string>)
    requires |fields| >= 1
    requires forall i :: 0 <= i < |fields| ==> '_' !in fields[i] && '/' !in fields[i]
    ensures LastPiece("uploads/" + Join(fields, '_'), '/') == Join(fields, '_')
    ensures KeyFields("uploads/" + Join(fields, '_')) == fields
  {
    JoinFree(fields, '_', '/');
    UploadKeyName(Join(fields, '_'));
    SplitJoin(fields, '_');
  }

  /** The file name of `uploads/name` is `name`. */
  lemma UploadKeyName(name: string)
    requires '/' !in name
    ensures LastPiece("uploads/" + name, '/') == name
  {
    assert "uploads/" + name == "uploads" + ['/'] + name;
    LastPieceAfterSep("uploads", name, '/');
  }

  /** Only the fields after the first are read: the timestamp is ignored. */
  lemma TimestampIgnored(a: string, b: string)
    requires |KeyFields(a)| == |KeyFields(b)| && KeyFields(a)[1..] == KeyFields(b)[1..]
    ensures GetImageMetadata(a) == GetImageMetadata(b)
  {
    var fa, fb := KeyFields(a), KeyFields(b);
    assert forall i :: 1 <= i < |fa| ==> fa[i] == fa[1..][i - 1] == fb[i];
  }

  /** `str(w) + 'x' + str(h)` parses back to `(w, h)`. */
  lemma ParseSizeOfRendered(w: int, h: int)
    ensures ParseSize(IntToString(w) + "x" + IntToString(h)) == Some((w, h))
  {
    LastPieceAfterSep(IntToString(w), IntToString(h), 'x');
    ParseIntOfIntToString(w);
    ParseIntOfIntToString(h);
  }

  /** The key of the processor's test suite gives back its parameters, and
      any timestamp gives the same. */
  lemma TestKeyMetadata(timestamp: string, fields: seq<string>)
    requires '_' !in timestamp && '/' !in timestamp
    requires fields == [timestamp, "800x600", "85", "jpeg", "ImageHub", "photo.jpg"]
    ensures GetImageMetadata("uploads/" + Join(fields, '_')) == Metadata(800, 600, 85, "jpeg", Some("ImageHub"))
  {
    UploadKeyFields(fields);
    var key := "uploads/" + Join(fields, '_');
    assert KeyFields(key) == fields;
    Renders800x600();
    ParseSizeOfRendered(800, 600);
    Parses85();
    UnquotesImageHub();
  }

  lemma Renders800x600()
    ensures IntToString(800) + "x" + IntToString(600) == "800x600"
  {
    Renders("800");
    Renders("600");
  }

  lemma Parses85()
    ensures ParseInt("85") == Some(85)
  {
    Renders("85");
    ParseIntOfIntToString(85);
  }

  lemma UnquotesImageHub()
    ensures UrlQuote.UnquotePlus("ImageHub") == "ImageHub"
  {
    UrlQuote.QuotePlusUnreserved("ImageHub");
    assert UrlQuote.QuotePlus("ImageHub") == "ImageHub";
    UrlQuote.UnquotePlusQuotePlus("ImageHub");
  }

  lemma Renders(digits: string)
    requires |digits| >= 1 && AllDigits(digits) && (digits[0] == '0' ==> |digits| == 1)
    ensures IntToString(DigitsValue(digits)) == digits
  {
    NatToStringOfDigits(digits);
  }

  /** A name with a single '_', like the test suite's 'invalid_key.jpg', has
      two fields and gives the defaults. */
  lemma InvalidKeyDefaults(a: string, b: string)
    requires '_' !in a && '/' !in a && '_' !in b && '/' !in b
    ensures GetImageMetadata(a + "_" + b) == Defaults
  {
    assert a + "_" + b == a + ['_'] + b;
    SplitNoSep(a + "_" + b, '/');
    LastPieceAfterSep(a, b, '_');
  }

  // ---------------------------------------------------------------------
  // process_image: the choices made before the image library runs
  // ---------------------------------------------------------------------

  /** The keyword arguments of `image.save`. */
  datatype SaveOptions = SaveOptions(format: string, quality: Option<int>, optimize: bool)

  /** `format.upper()` with 'JPG' renamed to 'JPEG', the quality for JPEG and
      WEBP, and `optimize` for JPEG and PNG. */
  function SaveOptionsFor(format: string, quality: int): (o: SaveOptions)
    ensures o.format != "JPG"
    ensures o.quality.Some? <==> o.format == "JPEG" || o.format == "WEBP"
    ensures o.quality.Some? ==> o.quality.value == quality
    ensures o.optimize <==> o.format == "JPEG" || o.format == "PNG"
  {
    var upper := AsciiUpper(format);
    var saveFormat := if upper == "JPG" then "JPEG" else upper;
    SaveOptions(saveFormat,
                if saveFormat == "JPEG" || saveFormat == "WEBP" then Some(quality) else None,
                saveFormat == "JPEG" || saveFormat == "PNG")
  }

  /** What `process_image` does to an image of mode `mode`: whether the alpha
      channel is flattened onto white, the bounding box of the thumbnail, the
      watermark text drawn (if any), and the save options. */
  datatype Plan = Plan(flatten: bool, box: (int, int), watermark: Option<string>, save: SaveOptions)

  function PlanFor(m: Metadata, mode: string): (p: Plan)
    ensures p.box == (m.width, m.height)
    ensures p.watermark.Some? <==> m.watermark.Some? && m.watermark.value != ""
    ensures p.watermark.Some? ==> p.watermark == m.watermark
    ensures p.save == SaveOptionsFor(m.format, m.quality)
  {
    var lower := AsciiLower(m.format);
    Plan((lower == "jpeg" || lower == "jpg") && mode == "RGBA",
         (m.width, m.height),
         if m.watermark.Some? && m.watermark.value != "" then m.watermark else None,
         SaveOptionsFor(m.format, m.quality))
  }

  /** Case mapping agrees on a lower-case ASCII target: `s.lower() == t`
      exactly when `s.upper() == t.upper()`. */
  lemma CaseFoldAgree(s: string, t: string)
    requires forall i :: 0 <= i < |t| ==> IsAsciiLower(t[i])
    ensures AsciiLower(s) == t <==> AsciiUpper(s) == AsciiUpper(t)
  {
    if AsciiUpper(s) == AsciiUpper(t) {
      assert |s| == |t|;
      forall i | 0 <= i < |s| ensures AsciiLower(s)[i] == t[i] {
        assert AsciiUpperChar(s[i]) == AsciiUpperChar(t[i]);
      }
    }
    if AsciiLower(s) == t {
      forall i | 0 <= i < |s| ensures AsciiUpper(s)[i] == AsciiUpper(t)[i] {
        assert AsciiLowerChar(s[i]) == t[i];
      }
    }
  }

  /** The alpha channel is flattened exactly for an RGBA image saved as JPEG. */
  lemma FlattenOnlyForJpeg(m: Metadata, mode: string)
    ensures PlanFor(m, mode).flatten <==> mode == "RGBA" && PlanFor(m, mode).save.format == "JPEG"
  {
    CaseFoldAgree(m.format, "jpeg");
    CaseFoldAgree(m.format, "jpg");
    assert AsciiUpper("jpeg") == "JPEG";
    assert AsciiUpper("jpg") == "JPG";
  }

  /** The save options depend on the format only up to case. */
  lemma SaveOptionsIgnoreCase(f: string, g: string, quality: int)
    requires AsciiUpper(f) == AsciiUpper(g)
    ensures SaveOptionsFor(f, quality) == SaveOptionsFor(g, quality)
  {
  }

  // ---------------------------------------------------------------------
  // handler: output key and content type
  // ---------------------------------------------------------------------

  /** `'_'.join(name.split('_')[5:])` if the name holds '_', else the name:
      what follows the fifth '_' of the name, or nothing when it has fewer. */
  function CleanFilename(name: string): (r: string)
    ensures '_' !in name ==> r == name
    ensures '_' in name && Count(name, '_') < 5 ==> r == ""
    ensures Count(name, '_') >= 5 ==>
              && |r| < |name| && name[|name| - |r|..] == r && name[|name| - |r| - 1] == '_'
              && Count(name[..|name| - |r|], '_') == 5
  {
    if '_' in name then
      var parts := Split(name, '_');
      SplitCount(name, '_');
      if |parts| > 5 then
        AfterNthSep(name, '_', 5);
        Join(parts[5..], '_')
      else Join([], '_')
    else
      assert Count(name, '_') >= 5 ==> '_' in name by {
        if Count(name, '_') >= 5 { CountPositive(name, '_'); }
      }
      name
  }

  /** `processed/{clean.rsplit('.', 1)[0]}.{format}`. */
  function OutputKey(sourceKey: string, format: string): (r: string)
    ensures |r| >= |"processed/"| + 1 + |format|
    ensures r[..|"processed/"|] == "processed/" && r[|r| - |format|..] == format && r[|r| - |format| - 1] == '.'
  {
    "processed/" + BeforeLast(CleanFilename(LastPiece(sourceKey, '/')), '.') + "." + format
  }

  /** The output key of a source key whose last path segment is the
      '_'-separated `fields`: the fields after the fifth, with the extension
      replaced by the format; with two to five fields nothing of the name is
      kept, and a single field is kept whole. */
  lemma OutputKeyOfFields(sourceKey: string, fields: seq<string>, format: string)
    requires |fields| >= 1 && forall i :: 0 <= i < |fields| ==> '_' !in fields[i]
    requires LastPiece(sourceKey, '/') == Join(fields, '_')
    ensures |fields| >= 6 ==>
              OutputKey(sourceKey, format) == "processed/" + BeforeLast(Join(fields[5..], '_'), '.') + "." + format
    ensures 2 <= |fields| <= 5 ==> OutputKey(sourceKey, format) == "processed/." + format
    ensures |fields| == 1 ==>
              OutputKey(sourceKey, format) == "processed/" + BeforeLast(fields[0], '.') + "." + format
  {
    var clean := CleanFilename(Join(fields, '_'));
    assert OutputKey(sourceKey, format) == "processed/" + BeforeLast(clean, '.') + "." + format;
    CleanJoin(fields);
    if 2 <= |fields| <= 5 {
      assert BeforeLast(clean, '.') == "";
      assert "processed/" + "" == "processed/";
      assert "processed/" + "." == "processed/.";
    }
  }

  lemma CleanJoin(fields: seq<string>)
    requires |fields| >= 1 && forall i :: 0 <= i < |fields| ==> '_' !in fields[i]
    ensures CleanFilename(Join(fields, '_')) == if |fields| == 1 then fields[0] else Join(if |fields| > 5 then fields[5..] else [], '_')
  {
    var name := Join(fields, '_');
    SplitJoin(fields, '_');
    if |fields| >= 2 {
      assert name == fields[0] + ['_'] + Join(fields[1..], '_');
      assert name[|fields[0]|] == '_';
    }
  }

  /** The content type of the processed object, case-insensitive on the
      format, with image/jpeg for anything unknown. */
  function ContentTypeFor(format: string): (r: string)
    ensures r == "image/jpeg" || r == "image/png" || r == "image/webp"
    ensures r == "image/png" <==> AsciiLower(format) == "png"
    ensures r == "image/webp" <==> AsciiLower(format) == "webp"
  {
    var lower := AsciiLower(format);
    if lower == "jpeg" || lower == "jpg" then "image/jpeg"
    else if lower == "png" then "image/png"
    else if lower == "webp" then "image/webp"
    else "image/jpeg"
  }

  // ---------------------------------------------------------------------
  // handler
  // ---------------------------------------------------------------------

  /** The step that raised, with the message of the exception. */
  datatype Failure =
    | DownloadFailed(message: string)
    | ImageFailed(message: string)
    | StoreFailed(message: string)

  /** The `put_object` call. */
  datatype Store = Store(bucket: string, key: string, contentType: string, cacheControl: string)

  datatype Reply =
    | Processed(processedUrl: string, outputKey: string, metadata: Metadata)
    | Failed(error: string)

  /** The status code, the reply, the key fetched from the source bucket, the
      processing plan and the store request, each where the run got that far. */
  datatype Run = Run(statusCode: int, reply: Reply, fetched: Option<string>, plan: Option<Plan>, store: Option<Store>)

  /** The first record of the upload event: its object key, or the message
      of the exception raised while looking it up. */
  datatype Record = Record(key: string) | Unreadable(message: string)

  /** `handler(event, context)` for the event's first record, an image of
      mode `mode`, and the step that raised, if any. */
  function Handle(record: Record, mode: string, failure: Option<Failure>): (run: Run)
    ensures run.statusCode == 200 <==> record.Record? && failure.None?
    ensures run.statusCode != 200 ==> run.statusCode == 500 && run.reply.Failed?
    ensures run.statusCode == 200 ==>
              && run.reply.Processed?
              && run.store.Some?
              && run.reply.outputKey == run.store.value.key
              && run.reply.processedUrl == "https://" + ProcessedBucket + ".s3.amazonaws.com/" + run.store.value.key
    ensures run.store.Some? ==> run.plan.Some? && run.fetched.Some?
    ensures record.Record? ==> run.fetched == Some(UrlQuote.UnquotePlus(record.key))
    ensures record.Unreadable? ==> run.reply == Failed(record.message) && run.fetched.None?
    ensures record.Record? && failure.Some? ==> run.reply == Failed(failure.value.message)
    ensures run.plan.Some? <==> record.Record? && !(failure.Some? && failure.value.DownloadFailed?)
    ensures run.plan.Some? ==> run.plan.value == PlanFor(GetImageMetadata(run.fetched.value), mode)
    ensures run.statusCode == 200 ==>
              var metadata := GetImageMetadata(run.fetched.value);
              && run.reply.metadata == metadata
              && run.store.value.key == OutputKey(run.fetched.value, metadata.format)
              && run.store.value.contentType == ContentTypeFor(metadata.format)
  {
    match record
    case Unreadable(message) => Run(500, Failed(message), None, None, None)
    case Record(rawKey) =>
      var sourceKey := UrlQuote.UnquotePlus(rawKey);
      if failure.Some? && failure.value.DownloadFailed? then
        Run(500, Failed(failure.value.message), Some(sourceKey), None, None)
      else
        var metadata := GetImageMetadata(sourceKey);
        var plan := PlanFor(metadata, mode);
        if failure.Some? && failure.value.ImageFailed? then
          Run(500, Failed(failure.value.message), Some(sourceKey), Some(plan), None)
        else
          var outputKey := OutputKey(sourceKey, metadata.format);
          var store := Store(ProcessedBucket, outputKey, ContentTypeFor(metadata.format), CacheControl);
          if failure.Some? then Run(500, Failed(failure.value.message), Some(sourceKey), Some(plan), Some(store))
          else
            Run(200, Processed("https://" + ProcessedBucket + ".s3.amazonaws.com/" + outputKey, outputKey, metadata),
                Some(sourceKey), Some(plan), Some(store))
  }
}

=== FILE: pyvalues.dfy ===
/** Python values as the Lambda handlers receive them from `json.loads`,
    plus the `Decimal` values `save_image_history` stores, and the few
    Python semantics the handlers lean on: truthiness, `dict.get`,
    `isinstance(v, int)` (which holds for booleans), `str()` of a scalar, and
    `int()` of a float. */
module PyValues {
  import opened Text

  /** A `decimal.Decimal`: `Decimal(str(n))` of an int is exact; the digits of
      `Decimal(str(f))` for a float are not modelled. */
  datatype Decimal = Exact(value: int) | OfFloat(source: real)

  datatype PyValue =
    | PyNone
    | PyBool(b: bool)
    | PyInt(i: int)
    | PyFloat(f: real)
    | PyStr(s: string)
    | PyList(items: seq<PyValue>)
    | PyDict(entries: seq<Entry>)
    | PyDecimal(d: Decimal)

  /** One key of a dict; a dict keeps its keys in insertion order. The
      entries of a `PyDict` carry distinct keys, as `json.loads` produces
      them (it keeps the last of repeated keys); a list of entries with a
      repeated key stands for no Python dict, and `Get` reads its first. */
  datatype Entry = Entry(key: string, value: PyValue)

  /** The outcome of Python code that may raise: the value, or `str(e)` of
      the exception raised. */
  datatype Py<+T> = Ok(value: T) | Raises(exception: string)

  /** `type(v).__name__`, as it appears in the message of an AttributeError
      raised on `v`. */
  function TypeName(v: PyValue): string
  {
    match v
    case PyNone => "NoneType"
    case PyBool(_) => "bool"
    case PyInt(_) => "int"
    case PyFloat(_) => "float"
    case PyStr(_) => "str"
    case PyList(_) => "list"
    case PyDict(_) => "dict"
    case PyDecimal(_) => "Decimal"
  }

  /** `str(e)` of the AttributeError raised by `v.name` when `v` has no such
      attribute. */
  function NoAttribute(v: PyValue, name: string): string
  {
    "'" + TypeName(v) + "' object has no attribute '" + name + "'"
  }

  /** `bool(v)`. */
  predicate Truthy(v: PyValue)
  {
    match v
    case PyNone => false
    case PyBool(b) => b
    case PyInt(i) => i != 0
    case PyFloat(f) => f != 0.0
    case PyStr(s) => s != ""
    case PyList(items) => |items| > 0
    case PyDict(entries) => |entries| > 0
    case PyDecimal(d) => if d.Exact? then d.value != 0 else d.source != 0.0
  }

  /** `d.get(key)`: the value stored under `key`, if any. */
  function Get(entries: seq<Entry>, key: string): (r: Option<PyValue>)
    ensures r.Some? <==> exists i :: 0 <= i < |entries| && entries[i].key == key
    ensures r.Some? ==> exists i :: 0 <= i < |entries| && entries[i] == Entry(key, r.value)
  {
    if |entries| == 0 then None
    else if entries[0].key == key then Some(entries[0].value)
    else
      var r := Get(entries[1..], key);
      assert forall i :: 1 <= i < |entries| ==> entries[i] == entries[1..][i - 1];
      assert r.Some? ==> exists i :: 0 <= i < |entries[1..]| && entries[1..][i] == Entry(key, r.value);
      r
  }

  /** No key occurs twice, as in every dict. */
  predicate DistinctKeys(entries: seq<Entry>)
  {
    forall i, j :: 0 <= i < j < |entries| ==> entries[i].key != entries[j].key
  }

  /** In a dict, `d.get(k)` is the value stored with `k`. */
  lemma GetDistinct(entries: seq<Entry>, i: nat)
    requires DistinctKeys(entries) && i < |entries|
    ensures Get(entries, entries[i].key) == Some(entries[i].value)
  {
    var r := Get(entries, entries[i].key);
    var j :| 0 <= j < |entries| && entries[j] == Entry(entries[i].key, r.value);
    assert i == j;
  }

  /** `d.get(key, default)`. */
  function GetOr(entries: seq<Entry>, key: string, default: PyValue): PyValue
  {
    match Get(entries, key)
    case Some(v) => v
    case None => default
  }

  /** `isinstance(v, int)`: true for ints and, as in Python, for booleans. */
  predicate IsInt(v: PyValue)
  {
    v.PyInt? || v.PyBool?
  }

  /** The integer value of an int or a bool (`True == 1`). */
  function IntValue(v: PyValue): int
    requires IsInt(v)
  {
    if v.PyInt? then v.i else if v.b then 1 else 0
  }

  /** The values `str()` is modelled for. */
  predicate IsRenderable(v: PyValue)
  {
    v.PyNone? || v.PyBool? || v.PyInt? || v.PyStr?
  }

  /** `str(v)` (equivalently `f"{v}"`) for None, a bool, an int or a str. */
  function Render(v: PyValue): string
    requires IsRenderable(v)
  {
    match v
    case PyNone => "None"
    case PyBool(b) => if b then "True" else "False"
    case PyInt(i) => IntToString(i)
    case PyStr(s) => s
  }

  /** `int(x)` for a float: truncation toward zero. */
  function TruncateFloat(x: real): (n: int)
    ensures x >= 0.0 ==> n as real <= x < n as real + 1.0
    ensures x < 0.0 ==> n as real - 1.0 < x <= n as real
  {
    if x >= 0.0 then x.Floor else -((-x).Floor)
  }
}

=== FILE: text.dfy ===
/** String operations shared by the handlers: Python's `str.split`,
    `str.join`, `rsplit('.', 1)` and `int()`, JavaScript's `String.replace`
    with a string pattern, ASCII case mapping, and decimal rendering. */
module Text {

  datatype Option<+T> = None | Some(value: T)

  // ---------------------------------------------------------------------
  // Splitting and joining on a one-character separator
  // ---------------------------------------------------------------------

  /** `sep.join(parts)`. */
  function Join(parts: seq<string>, sep: char): string
  {
    if |parts| == 0 then ""
    else if |parts| == 1 then parts[0]
    else parts[0] + [sep] + Join(parts[1..], sep)
  }

  lemma ConcatAssoc(a: string, b: string, c: string)
    ensures a + (b + c) == (a + b) + c
  {
  }

  lemma JoinFront(x: string, rest: seq<string>, sep: char)
    requires |rest| >= 1
    ensures Join([x] + rest, sep) == x + [sep] + Join(rest, sep)
  {
    assert ([x] + rest)[1..] == rest;
  }

  /** `s.split(sep)`: the pieces between separators, empty pieces kept. */
  function Split(s: string, sep: char): (parts: seq<string>)
    ensures |parts| >= 1
    ensures forall i :: 0 <= i < |parts| ==> sep !in parts[i]
    decreases |s|
  {
    if |s| == 0 then [""]
    else
      var rest := Split(s[1..], sep);
      if s[0] == sep then [""] + rest
      else [[s[0]] + rest[0]] + rest[1..]
  }

  /** Joining the pieces of a split gives the string back. */
  lemma {:induction false} JoinSplit(s: string, sep: char)
    ensures Join(Split(s, sep), sep) == s
    decreases |s|
  {
    if |s| > 0 {
      var rest := Split(s[1..], sep);
      JoinSplit(s[1..], sep);
      assert s == [s[0]] + s[1..];
      if s[0] == sep {
        JoinFront("", rest, sep);
        assert "" + [sep] + s[1..] == s;
      } else {
        JoinGrowFirst(s[0], rest, sep);
      }
    }
  }

  /** Growing the first piece by a character grows the joined string by it. */
  lemma JoinGrowFirst(c: char, parts: seq<string>, sep: char)
    requires |parts| >= 1
    ensures Join([[c] + parts[0]] + parts[1..], sep) == [c] + Join(parts, sep)
  {
    var grown := [[c] + parts[0]] + parts[1..];
    if |parts| > 1 {
      JoinFront([c] + parts[0], parts[1..], sep);
      assert grown == [[c] + parts[0]] + parts[1..];
      assert Join(parts, sep) == parts[0] + [sep] + Join(parts[1..], sep);
    }
  }

  /** A piece free of the separator stays whole in front of whatever follows. */
  lemma {:induction false} SplitPrefix(a: string, t: string, sep: char)
    requires sep !in a
    ensures Split(a + t, sep) == [a + Split(t, sep)[0]] + Split(t, sep)[1..]
    decreases |a|
  {
    if |a| == 0 {
      assert a + t == t;
      var p := Split(t, sep);
      assert p == [p[0]] + p[1..];
      assert a + p[0] == p[0];
    } else {
      assert (a + t)[1..] == a[1..] + t;
      assert (a + t)[0] == a[0];
      SplitPrefix(a[1..], t, sep);
      assert [a[0]] + (a[1..] + Split(t, sep)[0]) == a + Split(t, sep)[0];
    }
  }

  lemma SplitSepFirst(t: string, sep: char)
    ensures Split([sep] + t, sep) == [""] + Split(t, sep)
  {
    assert ([sep] + t)[1..] == t;
  }

  /** Splitting undoes joining, provided no piece holds the separator. */
  lemma {:induction false} SplitJoin(parts: seq<string>, sep: char)
    requires |parts| >= 1
    requires forall i :: 0 <= i < |parts| ==> sep !in parts[i]
    ensures Split(Join(parts, sep), sep) == parts
    decreases |parts|
  {
    if |parts| == 1 {
      SplitPrefix(parts[0], "", sep);
      assert parts[0] + "" == parts[0];
    } else {
      var tail := Join(parts[1..], sep);
      assert Join(parts, sep) == parts[0] + ([sep] + tail);
      SplitJoin(parts[1..], sep);
      SplitSepFirst(tail, sep);
      SplitPrefix(parts[0], [sep] + tail, sep);
      var p := Split([sep] + tail, sep);
      assert p[0] == "" && p[1..] == parts[1..];
      assert parts[0] + "" == parts[0];
      assert parts == [parts[0]] + parts[1..];
    }
  }

  /** A string without the separator splits into itself. */
  lemma SplitNoSep(s: string, sep: char)
    requires sep !in s
    ensures Split(s, sep) == [s]
  {
    SplitJoin([s], sep);
  }

  /** `sep.join(p + q)` is the two joins with one separator between. */
  lemma {:induction false} JoinAppend(p: seq<string>, q: seq<string>, sep: char)
    requires |p| >= 1 && |q| >= 1
    ensures Join(p + q, sep) == Join(p, sep) + [sep] + Join(q, sep)
    decreases |p|
  {
    if |p| == 1 {
      assert p + q == [p[0]] + q;
      JoinFront(p[0], q, sep);
    } else {
      assert p + q == [p[0]] + (p[1..] + q);
      JoinFront(p[0], p[1..] + q, sep);
      JoinAppend(p[1..], q, sep);
      JoinFront(p[0], p[1..], sep);
      assert p == [p[0]] + p[1..];
    }
  }

  /** A character absent from every piece, and other than the separator, is
      absent from the join. */
  lemma {:induction false} JoinFree(parts: seq<string>, sep: char, c: char)
    requires c != sep
    requires forall i :: 0 <= i < |parts| ==> c !in parts[i]
    ensures c !in Join(parts, sep)
    decreases |parts|
  {
    if |parts| > 1 {
      assert forall i :: 0 <= i < |parts[1..]| ==> parts[1..][i] == parts[i + 1];
      JoinFree(parts[1..], sep, c);
    }
  }

  /** The pieces of a split hold only characters of the string. */
  lemma {:induction false} SplitFree(s: string, sep: char, c: char)
    requires c !in s
    ensures forall i :: 0 <= i < |Split(s, sep)| ==> c !in Split(s, sep)[i]
    decreases |s|
  {
    if |s| > 0 {
      assert forall k :: 0 <= k < |s[1..]| ==> s[1..][k] == s[k + 1];
      SplitFree(s[1..], sep, c);
      var rest := Split(s[1..], sep);
      assert forall i :: 1 <= i < |rest| ==> rest[1..][i - 1] == rest[i];
    }
  }

  /** The last piece of `s.split(sep)`, i.e. `s.split(sep)[-1]`. */
  function LastPiece(s: string, sep: char): string
  {
    var parts := Split(s, sep);
    parts[|parts| - 1]
  }

  /** The last piece after a final separator is what follows it. */
  lemma LastPieceAfterSep(x: string, y: string, sep: char)
    requires sep !in x && sep !in y
    ensures Split(x + [sep] + y, sep) == [x, y]
    ensures LastPiece(x + [sep] + y, sep) == y
  {
    assert x + [sep] + y == x + ([sep] + y);
    SplitPrefix(x, [sep] + y, sep);
    SplitSepFirst(y, sep);
    SplitNoSep(y, sep);
    assert x + "" == x;
  }

  /** `s.count(c)`: the number of occurrences of `c` in `s`. */
  function Count(s: string, c: char): nat
    decreases |s|
  {
    if |s| == 0 then 0 else (if s[0] == c then 1 else 0) + Count(s[1..], c)
  }

  lemma {:induction false} CountPositive(s: string, c: char)
    requires Count(s, c) > 0
    ensures c in s
    decreases |s|
  {
    if s[0] != c {
      CountPositive(s[1..], c);
    }
  }

  lemma {:induction false} CountAppend(a: string, b: string, c: char)
    ensures Count(a + b, c) == Count(a, c) + Count(b, c)
    decreases |a|
  {
    if |a| == 0 {
      assert a + b == b;
    } else {
      assert (a + b)[1..] == a[1..] + b;
      CountAppend(a[1..], b, c);
    }
  }

  /** A split has one piece more than the string has separators. */
  lemma {:induction false} SplitCount(s: string, sep: char)
    ensures |Split(s, sep)| == Count(s, sep) + 1
    decreases |s|
  {
    if |s| > 0 {
      SplitCount(s[1..], sep);
    }
  }

  /** `sep.join(s.split(sep)[n:])` is the suffix of `s` that follows its
      `n`-th separator. */
  lemma AfterNthSep(s: string, sep: char, n: nat)
    requires 1 <= n < |Split(s, sep)|
    ensures var r := Join(Split(s, sep)[n..], sep);
            && |r| < |s| && s[|s| - |r| - 1] == sep && s[|s| - |r|..] == r
            && Count(s[..|s| - |r|], sep) == n
  {
    var parts := Split(s, sep);
    var r := Join(parts[n..], sep);
    var front := Join(parts[..n], sep);
    JoinSplit(s, sep);
    assert parts == parts[..n] + parts[n..];
    JoinAppend(parts[..n], parts[n..], sep);
    var p := front + [sep];
    assert s == p + r;
    assert s[..|s| - |r|] == p;
    assert s[|s| - |r|..] == r;
    SplitJoin(parts[..n], sep);
    SplitCount(front, sep);
    CountAppend(front, [sep], sep);
    assert Count([sep], sep) == 1 by {
      assert [sep][1..] == "";
    }
  }

  /** `s.rsplit('.', 1)[0]`: everything before the last `c`, or `s` itself. */
  function BeforeLast(s: string, c: char): (r: string)
    ensures c !in s ==> r == s
    ensures c in s ==> |r| < |s| && s[|r|] == c && c !in s[|r| + 1..] && r == s[..|r|]
    decreases |s|
  {
    if |s| == 0 then s
    else if s[|s| - 1] == c then s[..|s| - 1]
    else
      var r := BeforeLast(s[..|s| - 1], c);
      if c in s[..|s| - 1] then
        assert s[|r| + 1..] == s[..|s| - 1][|r| + 1..] + [s[|s| - 1]];
        r
      else
        assert forall i :: 0 <= i < |s| ==> s[i] != c by {
          forall i | 0 <= i < |s| ensures s[i] != c {
            if i < |s| - 1 { assert s[i] == s[..|s| - 1][i]; }
          }
        }
        s
  }

  /** Replaces every `from` by `to`, like Python's `s.replace(' ', '_')`. */
  function ReplaceChar(s: string, from: char, to: char): (r: string)
    ensures |r| == |s|
    ensures forall i :: 0 <= i < |s| ==> r[i] == (if s[i] == from then to else s[i])
  {
    seq(|s|, i requires 0 <= i < |s| => if s[i] == from then to else s[i])
  }

  lemma ReplaceCharAbsent(s: string, from: char, to: char)
    requires from !in s
    ensures ReplaceChar(s, from, to) == s
  {
  }

  // ---------------------------------------------------------------------
  // Substring search (JavaScript's String.replace with a string pattern)
  // ---------------------------------------------------------------------

  predicate OccursAt(s: string, pat: string, i: nat)
  {
    i + |pat| <= |s| && s[i..i + |pat|] == pat
  }

  /** The first position at or after `from` where `pat` occurs. */
  function IndexOfFrom(s: string, pat: string, from: nat): (r: Option<nat>)
    requires from <= |s|
    ensures r.Some? ==> from <= r.value && OccursAt(s, pat, r.value)
    ensures r.Some? ==> forall j :: from <= j < r.value ==> !OccursAt(s, pat, j)
    ensures r.None? ==> forall j :: from <= j <= |s| ==> !OccursAt(s, pat, j)
    decreases |s| - from
  {
    if OccursAt(s, pat, from) then Some(from)
    else if from == |s| then None
    else IndexOfFrom(s, pat, from + 1)
  }

  function IndexOf(s: string, pat: string): (r: Option<nat>)
    ensures r.Some? ==> OccursAt(s, pat, r.value)
    ensures r.Some? ==> forall j :: 0 <= j < r.value ==> !OccursAt(s, pat, j)
    ensures r.None? ==> forall j :: 0 <= j <= |s| ==> !OccursAt(s, pat, j)
  {
    IndexOfFrom(s, pat, 0)
  }

  /** `s.replace(pat, rep)` in JavaScript: only the first occurrence is
      replaced (the replacement strings used here hold no `$` patterns). */
  function ReplaceFirst(s: string, pat: string, rep: string): string
  {
    match IndexOf(s, pat)
    case None => s
    case Some(i) => s[..i] + rep + s[i + |pat|..]
  }

  // ---------------------------------------------------------------------
  // Character classes and case mapping
  // ---------------------------------------------------------------------

  predicate IsAsciiDigit(c: char) { '0' <= c <= '9' }
  predicate IsAsciiLower(c: char) { 'a' <= c <= 'z' }
  predicate IsAsciiUpper(c: char) { 'A' <= c <= 'Z' }

  predicate AllDigits(s: string)
  {
    forall i :: 0 <= i < |s| ==> IsAsciiDigit(s[i])
  }

  function AsciiLowerChar(c: char): char
  {
    if IsAsciiUpper(c) then (c as int + 32) as char else c
  }

  function AsciiUpperChar(c: char): char
  {
    if IsAsciiLower(c) then (c as int - 32) as char else c
  }

  /** `s.lower()`, for the ASCII letters (see README for non-ASCII input). */
  function AsciiLower(s: string): (r: string)
    ensures |r| == |s|
    ensures forall i :: 0 <= i < |s| ==> r[i] == AsciiLowerChar(s[i])
  {
    seq(|s|, i requires 0 <= i < |s| => AsciiLowerChar(s[i]))
  }

  /** `s.upper()`, for the ASCII letters. */
  function AsciiUpper(s: string): (r: string)
    ensures |r| == |s|
    ensures forall i :: 0 <= i < |s| ==> r[i] == AsciiUpperChar(s[i])
  {
    seq(|s|, i requires 0 <= i < |s| => AsciiUpperChar(s[i]))
  }

  /** Removes leading and trailing characters satisfying `space`. */
  function Trim(s: string, space: char -> bool): (r: string)
    ensures |r| <= |s|
    ensures |r| > 0 ==> !space(r[0]) && !space(r[|r| - 1])
    ensures forall i :: 0 <= i < |s| && !space(s[i]) ==> |r| > 0
    decreases |s|
  {
    if |s| > 0 && space(s[0]) then Trim(s[1..], space)
    else if |s| > 0 && space(s[|s| - 1]) then
      var r := Trim(s[..|s| - 1], space);
      assert forall i :: 0 <= i < |s| - 1 ==> s[..|s| - 1][i] == s[i];
      r
    else s
  }

  /** `s[i..j]` is `s` with only `space` characters cut from either end. */
  ghost predicate TrimmedAt(s: string, space: char -> bool, i: int, j: int)
  {
    && 0 <= i <= j <= |s|
    && (forall k :: 0 <= k < i ==> space(s[k]))
    && (forall k :: j <= k < |s| ==> space(s[k]))
  }

  lemma TrimmedAtDropFirst(s: string, space: char -> bool, i: int, j: int)
    requires |s| > 0 && space(s[0]) && TrimmedAt(s[1..], space, i, j)
    ensures TrimmedAt(s, space, i + 1, j + 1) && s[1..][i..j] == s[i + 1..j + 1]
  {
    assert forall k :: 1 <= k < |s| ==> s[k] == s[1..][k - 1];
  }

  lemma TrimmedAtDropLast(s: string, space: char -> bool, i: int, j: int)
    requires |s| > 0 && space(s[|s| - 1]) && TrimmedAt(s[..|s| - 1], space, i, j)
    ensures TrimmedAt(s, space, i, j) && s[..|s| - 1][i..j] == s[i..j]
  {
    assert forall k :: 0 <= k < |s| - 1 ==> s[k] == s[..|s| - 1][k];
  }

  /** Trimming keeps a contiguous piece of the string and cuts only `space`
      characters around it. */
  lemma {:induction false} TrimIsSlice(s: string, space: char -> bool)
    ensures exists i, j :: TrimmedAt(s, space, i, j) && Trim(s, space) == s[i..j]
    decreases |s|
  {
    if |s| > 0 && space(s[0]) {
      TrimIsSlice(s[1..], space);
      var i, j :| TrimmedAt(s[1..], space, i, j) && Trim(s[1..], space) == s[1..][i..j];
      TrimmedAtDropFirst(s, space, i, j);
    } else if |s| > 0 && space(s[|s| - 1]) {
      TrimIsSlice(s[..|s| - 1], space);
      var i, j :| TrimmedAt(s[..|s| - 1], space, i, j) && Trim(s[..|s| - 1], space) == s[..|s| - 1][i..j];
      TrimmedAtDropLast(s, space, i, j);
    } else {
      assert TrimmedAt(s, space, 0, |s|) && s == s[0..|s|];
    }
  }


  /** Python's `str.isspace()` for one character. */
  predicate IsPythonSpace(c: char)
  {
    var n := c as int;
    (0x09 <= n <= 0x0D) || (0x1C <= n <= 0x20) || n == 0x85 || n == 0xA0
    || n == 0x1680 || (0x2000 <= n <= 0x200A) || n == 0x2028 || n == 0x2029
    || n == 0x202F || n == 0x205F || n == 0x3000
  }

  // ---------------------------------------------------------------------
  // Decimal rendering and Python's int()
  // ---------------------------------------------------------------------

  function DigitChar(d: nat): (c: char)
    requires d < 10
    ensures IsAsciiDigit(c) && c as int - '0' as int == d
  {
    ('0' as int + d) as char
  }

  /** The value of a string of ASCII digits. */
  function DigitsValue(s: string): nat
    requires AllDigits(s)
  {
    if |s| == 0 then 0
    else DigitsValue(s[..|s| - 1]) * 10 + (s[|s| - 1] as int - '0' as int)
  }

  /** `str(n)` for a natural number: shortest decimal, no leading zero. */
  function NatToString(n: nat): (r: string)
    ensures |r| >= 1 && AllDigits(r)
    ensures DigitsValue(r) == n
    decreases n
  {
    if n < 10 then [DigitChar(n)]
    else
      var r := NatToString(n / 10) + [DigitChar(n % 10)];
      assert r[..|r| - 1] == NatToString(n / 10);
      r
  }

  /** A digit string without a leading zero has a positive value. */
  lemma {:induction false} DigitsValuePositive(s: string)
    requires |s| >= 1 && AllDigits(s) && s[0] != '0'
    ensures DigitsValue(s) >= 1
    decreases |s|
  {
    if |s| > 1 {
      DigitsValuePositive(s[..|s| - 1]);
    }
  }

  /** `str(int(s)) == s` for a canonical digit string: the decimal form of a
      number is unique. */
  lemma {:induction false} NatToStringOfDigits(s: string)
    requires |s| >= 1 && AllDigits(s) && (|s| > 1 ==> s[0] != '0')
    ensures NatToString(DigitsValue(s)) == s
    decreases |s|
  {
    if |s| > 1 {
      var p := s[..|s| - 1];
      DigitsValuePositive(p);
      NatToStringOfDigits(p);
      var n := DigitsValue(s);
      assert n / 10 == DigitsValue(p) && n % 10 == s[|s| - 1] as int - '0' as int;
      assert s == p + [s[|s| - 1]];
    }
  }

  /** `str(i)` for a Python int. */
  function IntToString(i: int): (r: string)
    ensures |r| >= 1
    ensures forall k :: 0 <= k < |r| ==> IsAsciiDigit(r[k]) || r[k] == '-'
  {
    if i < 0 then "-" + NatToString(-i) else NatToString(i)
  }

  /** Python's `int(s)` on text: surrounding whitespace, an optional sign and
      at least one ASCII digit; `None` where Python raises ValueError. */
  function ParseInt(s: string): Option<int>
  {
    var t := Trim(s, IsPythonSpace);
    if |t| > 0 && (t[0] == '-' || t[0] == '+') then
      var d := t[1..];
      if |d| > 0 && AllDigits(d) then
        var v: int := DigitsValue(d);
        Some(if t[0] == '-' then -v else v)
      else None
    else if |t| > 0 && AllDigits(t) then Some(DigitsValue(t))
    else None
  }

  /** Python's `int(str(i)) == i`. */
  lemma ParseIntOfIntToString(i: int)
    ensures ParseInt(IntToString(i)) == Some(i)
  {
    var s := IntToString(i);
    assert !IsPythonSpace(s[0]) && !IsPythonSpace(s[|s| - 1]);
    assert Trim(s, IsPythonSpace) == s;
    if i < 0 {
      assert s[1..] == NatToString(-i);
    }
  }
}

=== FILE: urlquote.dfy ===
/** Python's `urllib.parse.quote_plus` and `unquote_plus` with their defaults:
    no extra safe characters and UTF-8 both ways; quoting encodes strictly,
    unquoting decodes with errors='replace'. Quoting writes every
    byte of the UTF-8 encoding outside the unreserved set of section 2.3 of
    RFC 3986 as a percent-encoded octet (section 2.1, upper-case hex digits),
    and a space as '+'. Unquoting turns '+' back into a space, then decodes
    each maximal run of ASCII characters: a '%' followed by two hex digits is
    that byte, any other character its own byte, and the bytes of the run are
    decoded as UTF-8 with replacement; non-ASCII characters pass through. */
module UrlQuote {
  import Utf8
  import Text

  type byte = Utf8.byte

  // ---------------------------------------------------------------------
  // quote_plus
  // ---------------------------------------------------------------------

  /** Section 2.3 of RFC 3986: ALPHA / DIGIT / "-" / "." / "_" / "~". */
  predicate IsUnreserved(b: byte)
  {
    (0x41 <= b <= 0x5A) || (0x61 <= b <= 0x7A) || (0x30 <= b <= 0x39)
    || b == 0x2D || b == 0x2E || b == 0x5F || b == 0x7E
  }

  function HexDigit(d: nat): (c: char)
    requires d < 16
    ensures IsHexChar(c) && HexValue(c) == d
  {
    if d < 10 then ('0' as int + d) as char else ('A' as int + d - 10) as char
  }

  function QuoteByte(b: byte): string
  {
    if b == 0x20 then "+"
    else if IsUnreserved(b) then [b as char]
    else ['%', HexDigit(b / 16), HexDigit(b % 16)]
  }

  function QuoteBytes(bs: seq<byte>): string
  {
    if |bs| == 0 then "" else QuoteByte(bs[0]) + QuoteBytes(bs[1..])
  }

  /** `quote_plus(s)`. */
  function QuotePlus(s: string): string
  {
    QuoteBytes(Utf8.Encode(s))
  }

  // ---------------------------------------------------------------------
  // unquote_plus
  // ---------------------------------------------------------------------

  predicate IsHexChar(c: char)
  {
    ('0' <= c <= '9') || ('A' <= c <= 'F') || ('a' <= c <= 'f')
  }

  function HexValue(c: char): nat
    requires IsHexChar(c)
  {
    if '0' <= c <= '9' then c as int - '0' as int
    else if 'A' <= c <= 'F' then c as int - 'A' as int + 10
    else c as int - 'a' as int + 10
  }

  predicate IsAscii(s: string)
  {
    forall i :: 0 <= i < |s| ==> s[i] as int < 0x80
  }

  /** `unquote_to_bytes` on a run of ASCII characters. */
  function PercentBytes(s: string): seq<byte>
    requires IsAscii(s)
    decreases |s|
  {
    if |s| == 0 then []
    else if s[0] == '%' && |s| >= 3 && IsHexChar(s[1]) && IsHexChar(s[2]) then
      [HexValue(s[1]) * 16 + HexValue(s[2])] + PercentBytes(s[3..])
    else [s[0] as int] + PercentBytes(s[1..])
  }

  /** Length of the ASCII run at the front of `s`. */
  function AsciiRun(s: string): (n: nat)
    ensures n <= |s| && IsAscii(s[..n])
    ensures n < |s| ==> s[n] as int >= 0x80
    ensures |s| > 0 && s[0] as int < 0x80 ==> n >= 1
  {
    if |s| == 0 || s[0] as int >= 0x80 then 0
    else
      var n := 1 + AsciiRun(s[1..]);
      assert forall i :: 0 <= i < n ==> s[..n][i] == s[i];
      assert forall i :: 1 <= i < n ==> s[i] == s[1..][..n - 1][i - 1];
      n
  }

  /** The body of `unquote` once the input holds a '%'. */
  function UnquoteRuns(s: string): string
    decreases |s|
  {
    if |s| == 0 then ""
    else if s[0] as int < 0x80 then
      var n := AsciiRun(s);
      Utf8.Decode(PercentBytes(s[..n])) + UnquoteRuns(s[n..])
    else [s[0]] + UnquoteRuns(s[1..])
  }

  /** `unquote(s)`. */
  function Unquote(s: string): string
  {
    if '%' !in s then s else UnquoteRuns(s)
  }

  /** `unquote_plus(s)`. */
  function UnquotePlus(s: string): string
  {
    Unquote(Text.ReplaceChar(s, '+', ' '))
  }

  // ---------------------------------------------------------------------
  // Facts about quoting
  // ---------------------------------------------------------------------

  /** What `quote_plus` writes is ASCII and never holds a '/'. */
  lemma {:induction false} QuoteBytesShape(bs: seq<byte>)
    ensures IsAscii(QuoteBytes(bs))
    ensures '/' !in QuoteBytes(bs)
    ensures '_' in QuoteBytes(bs) <==> 0x5F in bs
    decreases |bs|
  {
    if |bs| > 0 {
      QuoteBytesShape(bs[1..]);
      var q := QuoteByte(bs[0]);
      assert bs == [bs[0]] + bs[1..];
      assert '_' in q <==> bs[0] == 0x5F;
      assert '_' in q + QuoteBytes(bs[1..]) <==> '_' in q || '_' in QuoteBytes(bs[1..]);
      assert forall i :: 0 <= i < |q| ==> (q + QuoteBytes(bs[1..]))[i] == q[i];
    }
  }

  /** A UTF-8 encoding holds the byte of an ASCII character exactly when the
      string holds that character. */
  lemma {:induction false} EncodeHoldsAscii(s: string, c: char)
    requires c as int < 0x80
    ensures (c as int in Utf8.Encode(s)) <==> c in s
    decreases |s|
  {
    if |s| > 0 {
      EncodeHoldsAscii(s[1..], c);
      assert s == [s[0]] + s[1..];
      var e := Utf8.EncodeChar(s[0]);
      assert c as int in e <==> s[0] == c;
    }
  }

  /** `quote_plus` leaves '_' alone: it is in the unreserved set. */
  lemma QuotePlusUnderscore(s: string)
    ensures '_' in QuotePlus(s) <==> '_' in s
    ensures '/' !in QuotePlus(s)
  {
    QuoteBytesShape(Utf8.Encode(s));
    EncodeHoldsAscii(s, '_');
  }

  // ---------------------------------------------------------------------
  // unquote_plus undoes quote_plus
  // ---------------------------------------------------------------------

  /** `QuoteBytes` after the '+' to ' ' rewrite of `unquote_plus`. */
  function SpacedQuote(bs: seq<byte>): string
  {
    if |bs| == 0 then ""
    else (if bs[0] == 0x20 then " " else QuoteByte(bs[0])) + SpacedQuote(bs[1..])
  }

  lemma ReplaceCharConcat(a: string, b: string, from: char, to: char)
    ensures Text.ReplaceChar(a + b, from, to) == Text.ReplaceChar(a, from, to) + Text.ReplaceChar(b, from, to)
  {
    var l := Text.ReplaceChar(a + b, from, to);
    var r := Text.ReplaceChar(a, from, to) + Text.ReplaceChar(b, from, to);
    assert |l| == |r|;
    forall i | 0 <= i < |l| ensures l[i] == r[i] {
      if i < |a| { assert (a + b)[i] == a[i]; } else { assert (a + b)[i] == b[i - |a|]; }
    }
  }

  lemma {:induction false} PlusToSpace(bs: seq<byte>)
    ensures Text.ReplaceChar(QuoteBytes(bs), '+', ' ') == SpacedQuote(bs)
    decreases |bs|
  {
    if |bs| > 0 {
      var q := QuoteByte(bs[0]);
      ReplaceCharConcat(q, QuoteBytes(bs[1..]), '+', ' ');
      PlusToSpace(bs[1..]);
      if bs[0] == 0x20 {
        assert Text.ReplaceChar(q, '+', ' ')[0] == ' ';
      } else {
        assert '+' !in q;
        assert Text.ReplaceChar(q, '+', ' ') == q;
      }
    }
  }

  lemma {:induction false} SpacedQuoteAscii(bs: seq<byte>)
    ensures IsAscii(SpacedQuote(bs))
    decreases |bs|
  {
    if |bs| > 0 {
      SpacedQuoteAscii(bs[1..]);
    }
  }

  /** Percent-decoding the rewritten quote gives back the bytes. */
  lemma {:induction false} PercentBytesOfSpacedQuote(bs: seq<byte>)
    requires IsAscii(SpacedQuote(bs))
    ensures PercentBytes(SpacedQuote(bs)) == bs
    decreases |bs|
  {
    if |bs| > 0 {
      var head := if bs[0] == 0x20 then " " else QuoteByte(bs[0]);
      var rest := SpacedQuote(bs[1..]);
      var s := head + rest;
      SpacedQuoteAscii(bs[1..]);
      PercentBytesOfSpacedQuote(bs[1..]);
      if |head| == 1 {
        assert s[0] != '%' && s[0] as int == bs[0];
        assert s[1..] == rest;
      } else {
        assert s[0] == '%' && s[1] == HexDigit(bs[0] / 16) && s[2] == HexDigit(bs[0] % 16);
        assert s[3..] == rest;
      }
      assert bs == [bs[0]] + bs[1..];
    }
  }

  lemma AllAsciiRun(s: string)
    requires IsAscii(s)
    ensures AsciiRun(s) == |s|
  {
  }

  /** `unquote` applied to a string with no '%' gives it back: the early
      return in `unquote` is only a shortcut. */
  lemma {:induction false} UnquoteRunsWithoutPercent(s: string)
    requires '%' !in s
    ensures UnquoteRuns(s) == s
    decreases |s|
  {
    if |s| > 0 {
      if s[0] as int < 0x80 {
        var n := AsciiRun(s);
        NoPercentSplit(s, n);
        PlainRunDecodes(s[..n]);
        UnquoteRunsWithoutPercent(s[n..]);
        assert s == s[..n] + s[n..];
      } else {
        assert '%' !in s[1..];
        UnquoteRunsWithoutPercent(s[1..]);
        assert s == [s[0]] + s[1..];
      }
    }
  }

  /** Both sides of a cut of a string without '%' are without '%'. */
  lemma NoPercentSplit(s: string, n: nat)
    requires '%' !in s && n <= |s|
    ensures '%' !in s[..n] && '%' !in s[n..]
  {
    assert forall i :: 0 <= i < n ==> s[..n][i] == s[i];
    assert forall i :: 0 <= i < |s| - n ==> s[n..][i] == s[n + i];
  }

  /** An ASCII run without '%' decodes to itself. */
  lemma PlainRunDecodes(s: string)
    requires IsAscii(s) && '%' !in s
    ensures Utf8.Decode(PercentBytes(s)) == s
  {
    PercentBytesPlain(s);
    Utf8.DecodeEncode(s);
  }

  lemma {:induction false} PercentBytesPlain(s: string)
    requires IsAscii(s) && '%' !in s
    ensures PercentBytes(s) == Utf8.Encode(s)
    decreases |s|
  {
    if |s| > 0 {
      assert '%' !in s[1..];
      PercentBytesPlain(s[1..]);
    }
  }

  /** `unquote_plus(quote_plus(s)) == s` for every string. */
  lemma UnquotePlusQuotePlus(s: string)
    ensures UnquotePlus(QuotePlus(s)) == s
  {
    var bs := Utf8.Encode(s);
    var r := Text.ReplaceChar(QuotePlus(s), '+', ' ');
    PlusToSpace(bs);
    assert r == SpacedQuote(bs);
    SpacedQuoteAscii(bs);
    PercentBytesOfSpacedQuote(bs);
    Utf8.DecodeEncode(s);
    var decoded := if |r| == 0 then "" else Utf8.Decode(PercentBytes(r));
    assert decoded == s;
    if |r| > 0 {
      AllAsciiRun(r);
      assert r[..|r|] == r && r[|r|..] == "";
      assert UnquoteRuns(r) == s;
    } else {
      assert PercentBytes(r) == [];
    }
    if '%' !in r {
      UnquoteRunsWithoutPercent(r);
    }
  }

  /** Characters of the unreserved set, all ASCII. */
  predicate AllUnreserved(s: string)
  {
    forall i :: 0 <= i < |s| ==> s[i] as int < 0x80 && IsUnreserved(s[i] as int)
  }

  /** `quote_plus` leaves a string of unreserved characters as it is. */
  lemma {:induction false} QuotePlusUnreserved(s: string)
    requires AllUnreserved(s)
    ensures QuotePlus(s) == s
    decreases |s|
  {
    if |s| > 0 {
      var e := Utf8.Encode(s);
      assert e == [s[0] as int] + Utf8.Encode(s[1..]);
      assert e[1..] == Utf8.Encode(s[1..]);
      assert QuoteByte(e[0]) == [s[0]];
      QuotePlusUnreserved(s[1..]);
      assert s == [s[0]] + s[1..];
    }
  }

  lemma QuotePlusOfNone()
    ensures QuotePlus("none") == "none"
  {
    QuotePlusUnreserved("none");
  }

  /** `quote_plus(w)` is the literal "none" only for `w == "none"`. */
  lemma QuotePlusNone(s: string)
    ensures QuotePlus(s) == "none" <==> s == "none"
  {
    QuotePlusOfNone();
    if QuotePlus(s) == "none" {
      UnquotePlusQuotePlus(s);
      UnquotesNone();
    }
  }

  lemma UnquotesNone()
    ensures UnquotePlus("none") == "none"
  {
    var r := Text.ReplaceChar("none", '+', ' ');
    assert r[0] == 'n' && r[1] == 'o' && r[2] == 'n' && r[3] == 'e';
    assert r == "none";
  }

  /** `quote_plus` writes nothing only for the empty string. */
  lemma QuotePlusEmpty(s: string)
    ensures QuotePlus(s) == "" <==> s == ""
  {
    UnquotePlusQuotePlus(s);
    if QuotePlus(s) == "" {
      assert Text.ReplaceChar("", '+', ' ') == "";
    }
  }
}

=== FILE: utf8.dfy ===
/** UTF-8 as Python's `str.encode('utf-8')` and
    `bytes.decode('utf-8', 'replace')` use it. Well-formed sequences follow
    table 3-7 of section 3.9 of the Unicode Standard; an ill-formed stretch is
    replaced by U+FFFD one maximal subpart at a time, which is the practice
    Python's decoder follows. */
module Utf8 {

  type byte = b: int | 0 <= b < 256

  const Replacement: char := '\U{FFFD}'

  // ---------------------------------------------------------------------
  // Encoding
  // ---------------------------------------------------------------------

  function EncodeChar(c: char): (r: seq<byte>)
    ensures 1 <= |r| <= 4
    ensures (c as int < 0x80) <==> |r| == 1
    ensures |r| == 1 ==> r[0] == c as int
    ensures |r| > 1 ==> forall i :: 0 <= i < |r| ==> r[i] >= 0x80
  {
    var n := c as int;
    if n < 0x80 then [n]
    else if n < 0x800 then [0xC0 + n / 64, 0x80 + n % 64]
    else if n < 0x10000 then [0xE0 + n / 4096, 0x80 + (n / 64) % 64, 0x80 + n % 64]
    else [0xF0 + n / 262144, 0x80 + (n / 4096) % 64, 0x80 + (n / 64) % 64, 0x80 + n % 64]
  }

  function Encode(s: string): seq<byte>
  {
    if |s| == 0 then [] else EncodeChar(s[0]) + Encode(s[1..])
  }

  // ---------------------------------------------------------------------
  // Decoding
  // ---------------------------------------------------------------------

  predicate IsContinuation(b: byte) { 0x80 <= b <= 0xBF }

  /** How many bytes a lead byte announces; 0 for a byte that cannot lead. */
  function SequenceLength(b0: byte): nat
  {
    if b0 < 0x80 then 1
    else if 0xC2 <= b0 <= 0xDF then 2
    else if 0xE0 <= b0 <= 0xEF then 3
    else if 0xF0 <= b0 <= 0xF4 then 4
    else 0
  }

  /** Bounds on the byte after a multi-byte lead (table 3-7). */
  function SecondLow(b0: byte): byte
  {
    if b0 == 0xE0 then 0xA0 else if b0 == 0xF0 then 0x90 else 0x80
  }

  function SecondHigh(b0: byte): byte
  {
    if b0 == 0xED then 0x9F else if b0 == 0xF4 then 0x8F else 0xBF
  }

  /** Length of the longest prefix of `b` that can begin a well-formed
      sequence: the whole sequence when complete, else its maximal subpart. */
  function ValidPrefix(b: seq<byte>): (n: nat)
    requires |b| > 0
    ensures n <= SequenceLength(b[0]) && n <= |b|
    ensures SequenceLength(b[0]) >= 2 ==> n >= 1
  {
    var len := SequenceLength(b[0]);
    if len <= 1 then len
    else if |b| < 2 || !(SecondLow(b[0]) <= b[1] <= SecondHigh(b[0])) then 1
    else if len == 2 then 2
    else if |b| < 3 || !IsContinuation(b[2]) then 2
    else if len == 3 then 3
    else if |b| < 4 || !IsContinuation(b[3]) then 3
    else 4
  }

  /** The scalar value of the complete sequence at the front of `b`. */
  function ScalarOf(b: seq<byte>): (c: char)
    requires |b| > 0 && SequenceLength(b[0]) >= 1 && ValidPrefix(b) == SequenceLength(b[0])
  {
    var len := SequenceLength(b[0]);
    var b0: int := b[0];
    if len == 1 then b0 as char
    else
      var b1: int := b[1];
      if len == 2 then ((b0 - 0xC0) * 64 + (b1 - 0x80)) as char
      else
        var b2: int := b[2];
        if len == 3 then ((b0 - 0xE0) * 4096 + (b1 - 0x80) * 64 + (b2 - 0x80)) as char
        else
          var b3: int := b[3];
          ((b0 - 0xF0) * 262144 + (b1 - 0x80) * 4096 + (b2 - 0x80) * 64 + (b3 - 0x80)) as char
  }

  /** The first decoded character and how many bytes it consumed. */
  function DecodeFirst(b: seq<byte>): (r: (char, nat))
    requires |b| > 0
    ensures 1 <= r.1 <= |b|
  {
    var len := SequenceLength(b[0]);
    if len >= 1 && ValidPrefix(b) == len then (ScalarOf(b), len)
    else (Replacement, if ValidPrefix(b) == 0 then 1 else ValidPrefix(b))
  }

  function Decode(b: seq<byte>): string
    decreases |b|
  {
    if |b| == 0 then ""
    else
      var (c, n) := DecodeFirst(b);
      [c] + Decode(b[n..])
  }

  // ---------------------------------------------------------------------
  // Round trip
  // ---------------------------------------------------------------------

  lemma Split64(n: int) returns (q: int, r: int)
    requires n >= 0
    ensures q == n / 64 && r == n % 64 && n == q * 64 + r && 0 <= r < 64 && q >= 0
  {
    q, r := n / 64, n % 64;
  }

  lemma DecodeTwo(c: char, rest: seq<byte>)
    requires 0x80 <= c as int < 0x800
    ensures DecodeFirst(EncodeChar(c) + rest) == (c, 2)
  {
    var n := c as int;
    var x, z := Split64(n);
    var b := EncodeChar(c) + rest;
    assert b[0] == 0xC0 + x && b[1] == 0x80 + z;
    assert 2 <= x < 32;
    assert SequenceLength(b[0]) == 2 && ValidPrefix(b) == 2;
    assert ScalarOf(b) == n as char;
  }

  lemma DecodeThree(c: char, rest: seq<byte>)
    requires 0x800 <= c as int < 0x10000
    ensures DecodeFirst(EncodeChar(c) + rest) == (c, 3)
  {
    var n := c as int;
    var q, z := Split64(n);
    var x, y := Split64(q);
    assert n / 4096 == x;
    var b := EncodeChar(c) + rest;
    assert b[0] == 0xE0 + x && b[1] == 0x80 + y && b[2] == 0x80 + z;
    assert n == x * 4096 + y * 64 + z;
    assert x < 16;
    assert x == 0 ==> y >= 32;
    assert x == 13 ==> y < 32;
    assert SequenceLength(b[0]) == 3 && ValidPrefix(b) == 3;
    assert ScalarOf(b) == n as char;
  }

  lemma DecodeFour(c: char, rest: seq<byte>)
    requires 0x10000 <= c as int
    ensures DecodeFirst(EncodeChar(c) + rest) == (c, 4)
  {
    var n := c as int;
    var q, z := Split64(n);
    var p, y := Split64(q);
    var w, x := Split64(p);
    assert n / 4096 == p && n / 262144 == w;
    var b := EncodeChar(c) + rest;
    assert b[0] == 0xF0 + w && b[1] == 0x80 + x && b[2] == 0x80 + y && b[3] == 0x80 + z;
    assert n == w * 262144 + x * 4096 + y * 64 + z;
    assert n < 0x110000;
    assert w <= 4;
    assert w == 0 ==> x >= 16;
    assert w == 4 ==> x < 16;
    assert SequenceLength(b[0]) == 4 && ValidPrefix(b) == 4;
    assert ScalarOf(b) == n as char;
  }

  /** Decoding the encoding of one character recovers it, whatever follows. */
  lemma DecodeFirstOfEncodeChar(c: char, rest: seq<byte>)
    ensures DecodeFirst(EncodeChar(c) + rest) == (c, |EncodeChar(c)|)
  {
    var n := c as int;
    if n < 0x80 {
      assert (EncodeChar(c) + rest)[0] == n;
    } else if n < 0x800 {
      DecodeTwo(c, rest);
    } else if n < 0x10000 {
      DecodeThree(c, rest);
    } else {
      DecodeFour(c, rest);
    }
  }

  /** `encoded.decode('utf-8') == s` for every `s`. */
  lemma {:induction false} DecodeEncode(s: string)
    ensures Decode(Encode(s)) == s
    decreases |s|
  {
    if |s| > 0 {
      var e := EncodeChar(s[0]);
      DecodeFirstOfEncodeChar(s[0], Encode(s[1..]));
      assert (e + Encode(s[1..]))[|e|..] == Encode(s[1..]);
      DecodeEncode(s[1..]);
      assert s == [s[0]] + s[1..];
    }
  }

  /** The encoding of a string is ASCII exactly when the string is. */
  lemma {:induction false} EncodeAscii(s: string)
    requires forall i :: 0 <= i < |s| ==> s[i] as int < 0x80
    ensures |Encode(s)| == |s|
    ensures forall i :: 0 <= i < |s| ==> Encode(s)[i] == s[i] as int
    decreases |s|
  {
    if |s| > 0 {
      EncodeAscii(s[1..]);
    }
  }
}
